=== FILE: README.md ===
# A Dafny model of VTK's parallel k-d tree core, text-property mappings and scatter-plot scans

This project models three pieces of VTK and proves properties of them.

**The sequential heart of the parallel k-d tree builder, `vtkPKdTree`.** It is
seen from one process, or equivalently as one global array of points
partitioned among processes by a table of contiguous index ranges. The model covers:

- the global index table and its owner lookup (`WhoHas`);
- the two in-place three-way partitions;
- the Floyd–Rivest selection and the roll-back to the first copy of a tied value;
- the bookkeeping of `DivideRegion`: the cut direction retries, the coincident-point fallback, the fewer-than-two-points case, the child regions, counts and data bounds, and the cut coordinate;
- the breadth-first tags;
- `ComputeDepth`, `FillOutTree`, the 27-value `PackData`/`UnpackData` record, and `CheckFixRegionBoundaries`;
- round-robin, user-map and contiguous region assignment, with the per-process region lists;
- the -1-terminated slot lists, the process/region tables built from the per-process cell counts, the guarded table queries, and `BinarySearch`.

**The font-family and justification mappings of `vtkTextProperty`.** This is
the family↔name mapping, the justification names, and the clamped setters.

**The scans of the 2-D scatter plot `vtkPlotPoints`.** The model covers:

- `ComputeBounds`, with and without a list of bad points to skip;
- `FindBadPoints`;
- `CreateSortedPoints`, a copy of the points sorted by x;
- the box query `SelectPoints` and the tolerance search `GetNearestPoint`, both run over that sorted copy.

## Module layout

| file | module | covers |
|---|---|---|
| wrappers.dfy | Wrappers | `Option` |
| points.dfy | Points | points as integer triples, the swap `ExchangeLocalVals`, "permuted within L..R", the three-way partition predicate |
| partition.dfy | Partition | `PartitionAboutOtherValue`, `PartitionAboutMyValue` |
| selection.dfy | Selection | `_select`, `Select` |
| global_index.dfy | GlobalIndex | `BuildGlobalIndexLists`, `_whoHas`/`WhoHas`, `GetLocalVal` |
| kdtree.dfy | KdTree | nodes, `ComputeDepth`, `FillOutTree`, `PackData`/`UnpackData`, `CheckFixRegionBoundaries`, tags |
| divide.dfy | Divide | `GetLocalMinMax`, `GetDataBounds`, `DivideRegion` |
| assignment.dfy | Assignment | region assignment and the per-process region lists |
| tables.dfy | ProcessTables | `AddEntry`, `CreateProcessCellCountData`, the table queries, `BinarySearch` |
| text_property.dfy | TextProperty | font family, justification, clamped setters |
| plot_points.dfy | PlotPoints | bounds, bad points, sorted copy, selection, nearest point |

Points are triples of integers because partition and select only compare
coordinates. Region bounds are reals. The one computed coordinate is the cut
`(max of left + min of right) * 0.5`, and it is computed exactly. Each
process's slice of the global array is reached through the index table, as
`GetLocalVal` does in the source.

## Model

| member | source | states |
|---|---|---|
| Points.ExchangeLocalVals | Filters/Parallel/vtkPKdTree.cxx:1107-1131 | When both positions are in range, their points are swapped and nothing else changes. A bad position leaves the array untouched. The multiset of points is always kept. |
| Partition.PartitionAboutOtherValue | Filters/Parallel/vtkPKdTree.cxx:1467-1668 | Only positions L..R are rearranged, as a permutation. The result (I, J) splits L..R into coordinates below T, equal to T and above T. This fixes the special cases: an empty range gives (L, L), all below gives (R+1, R+1), all above gives (L, L), and T absent gives I == J. |
| Partition.PartitionAboutMyValue | Filters/Parallel/vtkPKdTree.cxx:1680-1824 | The same three-way split about the original coordinate at K. Only L..R is permuted, and the run equal to T is never empty. |
| Selection.SelectKth | Filters/Parallel/vtkPKdTree.cxx:899-959 | Only L..R is permuted. Afterwards everything before K is at most the value at K and everything after is at least it, and the copies of that value before K form one run ending at K. |
| Selection.ThreeWaySplits | Filters/Parallel/vtkPKdTree.cxx:899-959 | A three-way partition of a sub-range that is already split off from the rest leaves every index of the equal run selected. This is the step that lets the selection loop narrow to L..R. |
| Selection.Select | Filters/Parallel/vtkPKdTree.cxx:960-1041 | With K = (L+R)/2+1, only L..R is permuted. A result above L is the first index holding the value at K: everything before it is strictly smaller, every coordinate from it to K is that value, and nothing after it is smaller (RolledBack). A result of L or below means every coordinate from L to K is equal. The result is L or below exactly when the range cannot be cut along dim (NoCutAlong): no value has between 1 and K-L of the range's points strictly below it. |
| Selection.RollBack | Filters/Parallel/vtkPKdTree.cxx:1004-1041 | After _select, the index is K when the value left of K differs. Otherwise it is the first copy of K's value found scanning back. A result above L is a strict split with the same value all the way to K, and that value is the least from there on. A result of L or below covers a run of least values over L..K. |
| Selection.NoCutKept | Filters/Parallel/vtkPKdTree.cxx:960-1041 | Rearranging L..R does not change whether it can be cut along a direction. |
| Selection.StrictSplitCuts | Filters/Parallel/vtkPKdTree.cxx:1002-1041 | A strict split at an index in L+1..K means the range can be cut along that direction. |
| Selection.CutIndexUnique | Filters/Parallel/vtkPKdTree.cxx:1002-1041 | Two rearrangements of L..R that are each rolled back to a strict split are cut at the same index, so the index depends only on the range's points. |
| Selection.SelectOutcome | Filters/Parallel/vtkPKdTree.cxx:1002-1041 | The rolled-back index is above L exactly when the range can be cut. A strict split at r, with the least value from r on at r, puts exactly r-L points below that value. A run of least values over L..K leaves no value with 1..K-L points below it. |
| GlobalIndex.BuildGlobalIndexLists | Filters/Parallel/vtkPKdTree.cxx:2350-2374 | StartVal[0] is 0. Each StartVal is the previous EndVal plus one, and each EndVal is StartVal plus NumCells minus one. StartVal[i] is the sum of the counts before i, and TotalNumCells is the sum of all counts, processes with no cells included. |
| GlobalIndex.OwnerUnique | Filters/Parallel/vtkPKdTree.cxx:2350-2374 | The ranges of the table do not overlap: a position lies in at most one process's range. |
| GlobalIndex.WhoHasIn | Filters/Parallel/vtkPKdTree.cxx:1043-1064 | The bisection over processes L..R finds, within L..R, the process whose range holds pos. |
| GlobalIndex.WhoHas | Filters/Parallel/vtkPKdTree.cxx:1065-1072 | The result is -1 exactly when pos is negative or at least TotalNumCells. Otherwise it is the process whose range holds pos, which never has zero cells. |
| GlobalIndex.WhoHasIsOwner | Filters/Parallel/vtkPKdTree.cxx:1043-1072 | WhoHas answers p exactly when p's range holds pos. |
| GlobalIndex.GetLocalVal | Filters/Parallel/vtkPKdTree.cxx:1073-1082 | There is a local value exactly when pos lies in this process's range. It sits at offset pos - StartVal[me], below NumCells[me]. |
| GlobalIndex.LocalExactlyWhenOwner | Filters/Parallel/vtkPKdTree.cxx:1065-1082 | GetLocalVal finds a value exactly when WhoHas names this process. |
| KdTree.ComputeDepth | Filters/Parallel/vtkPKdTree.cxx:2261-2282 | The depth is 0 exactly for a leaf. |
| KdTree.LeafPathsWithinDepth | Filters/Parallel/vtkPKdTree.cxx:2261-2282 | No path to a leaf is longer than the computed depth. |
| KdTree.DeepestLeafPath | Filters/Parallel/vtkPKdTree.cxx:2261-2282 | Some path to a leaf is exactly as long as the computed depth, so the depth is the height of the tree. |
| KdTree.FillOutTree | Filters/Parallel/vtkPKdTree.cxx:2220-2259 | The root region is kept, and at any level above 0 the root has children. |
| KdTree.FillOutDepth | Filters/Parallel/vtkPKdTree.cxx:2220-2282 | After filling out to a level, the depth is the larger of the old depth and the level. |
| KdTree.FillOutComplete | Filters/Parallel/vtkPKdTree.cxx:2220-2259 | Every path to a leaf of the filled-out tree is at least as long as the level. |
| KdTree.FillOutExtends | Filters/Parallel/vtkPKdTree.cxx:2220-2259 | Filling out only adds nodes below leaves. Every existing node and region is kept. |
| KdTree.FillOutPlaceholders | Filters/Parallel/vtkPKdTree.cxx:2225-2252 | The nodes added under a placeholder all carry the placeholder region: bounds, data bounds and point count all -1. |
| KdTree.PackData | Filters/Parallel/vtkPKdTree.cxx:1974-2003 | A split node packs into 27 values, and unpacking them into the same node gives the node back. Its dim, both child point counts, and both children's bounds and data bounds are all restored. |
| KdTree.UnpackData | Filters/Parallel/vtkPKdTree.cxx:2004-2035 | Unpacking writes only the node's dim and its children's point counts, bounds and data bounds. The node's other fields, the children's dims and everything below the children are kept, and so is the shape. |
| KdTree.PackUnpack | Filters/Parallel/vtkPKdTree.cxx:1974-2035 | Packing an unpacked record gives the record back, provided its three integer slots (dim and the two counts) hold whole numbers. |
| KdTree.FixMakesAdjacent | Filters/Parallel/vtkPKdTree.cxx:2119-2159 | After the fix, each node's children are adjacent. On every axis the left child starts where the parent starts and the right child ends where the parent ends. Off the cut axis the left child also ends where the parent ends and the right child also starts where the parent starts. On the cut axis the left child's end is the right child's start. |
| KdTree.FixKeepsAdjacent | Filters/Parallel/vtkPKdTree.cxx:2119-2159 | A tree whose nodes are all adjacent is left unchanged. |
| KdTree.CheckFixRegionBoundaries | Filters/Parallel/vtkPKdTree.cxx:2119-2159 | The root region and the root's shape are kept. Afterwards every node's children tile it, and a tree that already has this property comes back unchanged. |
| KdTree.FixProperties | Filters/Parallel/vtkPKdTree.cxx:2119-2159 | CheckFixRegionBoundaries keeps the root region, leaves every node adjacent, changes nothing on an adjacent tree, and is idempotent. |
| KdTree.Tag | Filters/Parallel/vtkPKdTree.cxx:649-680 | The root has tag 1, its children 2 and 3. A node at depth d has a tag in [2^d, 2^(d+1)), so its tag has d+1 bits. |
| KdTree.TagRoundTrip | Filters/Parallel/vtkPKdTree.cxx:678-680 | tag<<1 and (tag<<1)\|1 encode the path: it can be read back from the tag. |
| KdTree.TagInjective | Filters/Parallel/vtkPKdTree.cxx:649-680 | Distinct nodes get distinct tags. |
| Divide.RangeMinMax | Filters/Parallel/vtkPKdTree.cxx:1845-1873 | The scan gives, on each axis, the least and greatest coordinate of the points in from..to. Both are attained. |
| Divide.GetLocalMinMax | Filters/Parallel/vtkPKdTree.cxx:1830-1888 | The range is clipped to this process's slice, and the result is the per-axis min and max over it. With nothing in the slice, it returns the top region's bounds swapped (max as min, min as max). |
| Divide.GetDataBounds | Filters/Parallel/vtkPKdTree.cxx:1889-1922 | Gives the per-axis min and max of L..K-1 and of K..R. |
| Divide.NextDirection | Filters/Parallel/vtkPKdTree.cxx:785-799 | The next axis tried is the first one after n that is not maxdim and is allowed by ValidDirections. If there is none, the result is 3. |
| Divide.ChooseCut | Filters/Parallel/vtkPKdTree.cxx:771-807 | Only L..R is permuted, and the cut index lies in L+1..R. The axis is maxdim or an allowed one. When the range can be cut along maxdim, it is cut there with a strict split. Another axis is used only when it is allowed, maxdim and every allowed axis below it cannot cut, and it can; the cut then strictly separates along it. A strict cut sits at the rolled-back index that Select gives along its axis. The cut fails to separate only when no allowed axis can cut, and then it is (L+R)/2+1 along maxdim. |
| Divide.TryNext | Filters/Parallel/vtkPKdTree.cxx:785-804 | One retry moves to the next allowed direction and keeps the loop's record of directions that cannot cut. A cut found along the new direction is a strict split at the rolled-back index Select gives. When none is left, no allowed direction can cut. |
| Divide.CutChosenMeaning | Filters/Parallel/vtkPKdTree.cxx:771-807 | For a chosen cut, the split is strict exactly when the range can be cut along the chosen axis. maxdim is kept while it cannot cut only when no allowed axis can. |
| Divide.CutDetermined | Filters/Parallel/vtkPKdTree.cxx:771-807 | Any two outcomes that meet the cut-choice contract on rearrangements of the same range use the same axis and the same index. |
| Divide.ChildRegions | Filters/Parallel/vtkPKdTree.cxx:737-752 | The children differ from the parent only on the cut axis, where they meet at the cut coordinate. They carry the given counts and data bounds. |
| Divide.DivideRegion | Filters/Parallel/vtkPKdTree.cxx:700-852 | A failed DivideTest gives -1 and no children. With fewer than two points, only the owner of L divides: it returns L and cuts along maxdim at the point's coordinate, or at the middle of the region's bounds when there is no point. The left child takes all points and the right child none, and both data bounds sit on the point at L. Otherwise exactly the processes owning L..R divide. They only permute L..R and return a cut in L+1..R. The left count is midpt-L and the right count is R-midpt+1. The data bounds are the true per-side bounds, and the cut coordinate is the midpoint of left max and right min. The direction and index are chosen as ChooseCut states: maxdim whenever it can cut, and the middle index only when no allowed direction can. |
| Divide.CutSeparates | Filters/Parallel/vtkPKdTree.cxx:823-841 | When the cut strictly separates, the left points lie below the cut coordinate and the right points above it. |
| Assignment.AssignRegionsRoundRobin | Filters/Parallel/vtkPKdTree.cxx:2932-2956 | Region i goes to process i mod P, and each process's count is the number of regions mapped to it. |
| Assignment.Count | Filters/Parallel/vtkPKdTree.cxx:2970-2978 | NumRegionsAssigned[p], the number of regions the map gives p. It is 0 exactly when p does not occur in the map, and it is the map's length exactly when every region goes to p. |
| Assignment.AssignRegions | Filters/Parallel/vtkPKdTree.cxx:2957-2982 | A map with an id outside [0, P) is refused. Any other map is taken as given, with per-process counts. |
| Assignment.RegionsOfSpec | Filters/Parallel/vtkPKdTree.cxx:3085-3108 | The region list of p holds exactly the regions mapped to p, in ascending order, and its length is p's count. |
| Assignment.BuildRegionListsForProcesses | Filters/Parallel/vtkPKdTree.cxx:3085-3108 | Filling the slots region by region leaves process p's list equal to the ascending regions mapped to p, with length NumRegionsAssigned[p]. |
| Assignment.GetProcessAssignedToRegion | Filters/Parallel/vtkPKdTree.cxx:3412-3421 | Gives the mapped process, or -1 for an out-of-range region or an empty map. The map may be empty while the tree has regions, as before any assignment or after a refused one, or longer than the region count. |
| Assignment.GetRegionAssignmentList | Filters/Parallel/vtkPKdTree.cxx:3346-3376 | Gives the regions assigned to procId, in ascending order, and their number, or nothing for a bad id. |
| Assignment.FloorLog2 | Filters/Parallel/vtkPKdTree.cxx:3024-3028 | The shift loop leaves floorLogP with 2^floorLogP <= P < 2^(floorLogP+1). |
| Assignment.ContiguousLayout | Filters/Parallel/vtkPKdTree.cxx:3022-3076 | ceilLogP is floorLogP exactly when P is a power of two. Of the 2^floorLogP nodes, the first 2·2^floorLogP − P get one process and the rest two. Read in order, the processes are 0..P-1, each once. |
| Assignment.AssignRegionsContiguous | Filters/Parallel/vtkPKdTree.cxx:2999-3084 | With no more regions than processes, region i goes to process i. Otherwise floorLogP satisfies 2^floorLogP <= P < 2^(floorLogP+1), and ceilLogP is floorLogP exactly when P is a power of two. The plan has 2^floorLogP nodes: the first 2·2^floorLogP − P get one process and the rest two. Read in order, the processes are 0..P-1, each once. |
| ProcessTables.FreeSlot | Filters/Parallel/vtkPKdTree.cxx:2827-2841 | The first -1 slot of a list, or its length when it is full. |
| ProcessTables.AddEntry | Filters/Parallel/vtkPKdTree.cxx:2827-2841 | Writes id into the first free slot, so the entries grow by id at the end. A full list is unchanged. |
| ProcessTables.ProcsWithDataSpec | Filters/Parallel/vtkPKdTree.cxx:2606-2658 | A region's process list holds exactly the processes with cells in it, in ascending order, each paired with its cell count. |
| ProcessTables.RegionsWithDataSpec | Filters/Parallel/vtkPKdTree.cxx:2606-2658 | A process's region list holds exactly the regions where it has cells, in ascending order. |
| ProcessTables.CountData | Filters/Parallel/vtkPKdTree.cxx:2606-2619 | NumProcessesInRegion and NumRegionsInProcess count the non-zero entries of each column and row of the cell-count matrix. |
| ProcessTables.FillRegionLists | Filters/Parallel/vtkPKdTree.cxx:2643-2684 | The AddEntry passes fill each region's process list, or cell-count list, with exactly the reference list, in process order. |
| ProcessTables.FillProcessLists | Filters/Parallel/vtkPKdTree.cxx:2643-2658 | Each process's region list is exactly its regions with cells, in ascending order. |
| ProcessTables.CreateProcessCellCountData | Filters/Parallel/vtkPKdTree.cxx:2555-2690 | The tables built agree with the cell-count matrix in every entry. |
| ProcessTables.HasData | Filters/Parallel/vtkPKdTree.cxx:3422-3434 | 1 exactly when both ids are valid and the process has cells in the region, otherwise 0. |
| ProcessTables.GetTotalProcessesInRegion | Filters/Parallel/vtkPKdTree.cxx:3436-3446 | The number of processes with cells in the region, or 0 for a bad id. |
| ProcessTables.GetProcessListForRegion | Filters/Parallel/vtkPKdTree.cxx:3448-3464 | The ascending processes with cells in the region, with their number. Empty for a bad id. |
| ProcessTables.GetProcessesCellCountForRegion | Filters/Parallel/vtkPKdTree.cxx:3466-3484 | The first min(len, total) cell counts of the region's processes, in process order. 0 and nothing for a bad id. |
| ProcessTables.GetProcessCellCountForRegion | Filters/Parallel/vtkPKdTree.cxx:3486-3513 | The process's cell count in the region, including 0 when it has none. 0 for bad ids. |
| ProcessTables.GetTotalRegionsForProcess | Filters/Parallel/vtkPKdTree.cxx:3515-3524 | The number of regions where the process has cells, or 0 for a bad id. |
| ProcessTables.GetRegionListForProcess | Filters/Parallel/vtkPKdTree.cxx:3526-3542 | The ascending regions where the process has cells, with their number. Empty for a bad id. |
| ProcessTables.GetRegionsCellCountForProcess | Filters/Parallel/vtkPKdTree.cxx:3543-3569 | The first min(len, total) cell counts of the process, each the count in the corresponding listed region. |
| ProcessTables.CellCountAt | Filters/Parallel/vtkPKdTree.cxx:3557-3566 | Looking a process up in the process list of a region where it has cells, and reading the cell-count list at that place, gives its cell count in the region. |
| ProcessTables.BinarySearch | Filters/Parallel/vtkPKdTree.cxx:2859-2910 | Gives -1 exactly when which is absent; otherwise an index holding which. A list of at most three entries is scanned, and the first occurrence is returned. |
| TextProperty.GetFontFamilyAsString | Rendering/Core/vtkTextProperty.h:329-348 | The four known families get the four names, and any other int gets "Unknown". |
| TextProperty.GetFontFamilyFromString | Rendering/Core/vtkTextProperty.h:370-389 | The four names give the four known families, and any other string ("Unknown" included) gives VTK_UNKNOWN_FONT. |
| TextProperty.FamilyRoundTrip | Rendering/Core/vtkTextProperty.h:329-389 | Name and family are inverse on the four known families. Any other family comes back as VTK_UNKNOWN_FONT. |
| TextProperty.SetFontFamily | Rendering/Core/vtkTextProperty.h:350-353 | Only the stored family name changes. |
| TextProperty.GetFontFamily | Rendering/Core/vtkTextProperty.h:391-394 | Always one of the four known families or VTK_UNKNOWN_FONT. |
| TextProperty.SetGetFontFamily | Rendering/Core/vtkTextProperty.h:350-394 | Setting a family and reading it back gives the family when it is known, otherwise VTK_UNKNOWN_FONT. The Arial/Courier/Times shortcuts read back as their family. |
| TextProperty.Clamp | Rendering/Core/vtkTextProperty.h:109 | The clamp keeps a value in [lo, hi]. It keeps an in-range value, and sends a value below or above the range to the nearer end. |
| TextProperty.ClampReal | Rendering/Core/vtkTextProperty.h:48 | The same clamp for the double-valued opacities. |
| TextProperty.ClampedSetters | Rendering/Core/vtkTextProperty.h:48-209 | The six clamped setters keep Opacity and BackgroundOpacity in [0,1], FrameWidth and FontSize in [0, VTK_INT_MAX], Justification in [LEFT, RIGHT] and VerticalJustification in [BOTTOM, TOP]. In-range values are stored as given. For each of the six setters, setting twice is setting once, and no other setting changes. |
| TextProperty.GetJustificationAsString | Rendering/Core/vtkTextProperty.h:396-411 | "Left", "Centered" or "Right" exactly for the three constants, otherwise "Unknown". |
| TextProperty.GetVerticalJustificationAsString | Rendering/Core/vtkTextProperty.h:413-428 | "Bottom", "Centered" or "Top" exactly for the three constants, otherwise "Unknown". |
| TextProperty.JustificationNamed | Rendering/Core/vtkTextProperty.h:196-214 | A justification that passed its clamped setter always has a name. SetJustificationToLeft/Centered/Right read back as "Left"/"Centered"/"Right". |
| PlotPoints.SortBy | Charts/Core/vtkPlotPoints.cxx:269 | std::sort under the x comparison gives a permutation that is non-decreasing in the key. |
| PlotPoints.CreateSortedPoints | Charts/Core/vtkPlotPoints.cxx:261-271 | The copy is built as the VectorPIMPL constructor (lines 38-52) pairs each point with its index, then sorted. Every point appears once, paired with its original index, and the copy is non-decreasing in x. |
| PlotPoints.LowerBound | Charts/Core/vtkPlotPoints.cxx:292 | std::lower_bound under the x comparison: everything before the result has x below the key, and nothing from it on does. |
| PlotPoints.GetNearestPoint | Charts/Core/vtkPlotPoints.cxx:274-313 | Gives -1 when there are no points or no point lies strictly within tol on both axes. Otherwise it gives the index of a point that does. No point within tol has a smaller x. |
| PlotPoints.ScanNearest | Charts/Core/vtkPlotPoints.cxx:292-312 | The scan from the lower bound of point.x - tol.x finds an entry strictly within tol exactly when the sorted copy has one. The entry found is the first such entry in the copy. It stops early only once x passes point.x + tol.x, where no later entry can be within tol. |
| PlotPoints.ScanBox | Charts/Core/vtkPlotPoints.cxx:334-355 | The scan from the lower bound of min.x collects, without repeats, exactly the indices of the points in the closed box. |
| PlotPoints.SelectPoints | Charts/Core/vtkPlotPoints.cxx:316-365 | With no points it gives false and leaves the selection alone. Otherwise the selection is exactly the indices of the points in the closed box [min, max], strictly ascending, and the answer says whether it is non-empty. |
| PlotPoints.FoldBoundsMeaning | Charts/Core/vtkPlotPoints.cxx:422-432 | The min/max fold from the DBL_MAX and -DBL_MAX sentinels ends at the least and greatest unlisted value, or at the sentinel where there is none. |
| PlotPoints.ComputeBounds | Charts/Core/vtkPlotPoints.cxx:422-432 | Gives the min and max of the n values, or (DBL_MAX, -DBL_MAX) when n is 0. |
| PlotPoints.ComputeBoundsSkipping | Charts/Core/vtkPlotPoints.cxx:434-496 | An empty bad list gives the plain scan. A list naming every point returns early, leaving the bounds as they were. Any other ascending list gives the min and max over exactly the unlisted indices. |
| PlotPoints.FirstRun | Charts/Core/vtkPlotPoints.cxx:444-468 | The leading listed indices 0, 1, ... are skipped, and the early return happens exactly when they cover every point. |
| PlotPoints.ScanRange | Charts/Core/vtkPlotPoints.cxx:475-480 | Scanning a run that holds no listed index extends the fold of the bounds to the run's end. |
| PlotPoints.NextRun | Charts/Core/vtkPlotPoints.cxx:481-494 | The step between runs skips the closing index and every listed index that follows on directly. The values passed over are all listed. |
| PlotPoints.AllBadList | Charts/Core/vtkPlotPoints.cxx:449-459 | A strictly ascending list below n with n entries is exactly 0, 1, ..., n-1. |
| PlotPoints.SetBadPoints | Charts/Core/vtkPlotPoints.cxx:410-419 | Adds exactly the indices below n whose value is infinite or NaN. |
| PlotPoints.FindBadPoints | Charts/Core/vtkPlotPoints.cxx:772-830 | Without the data columns, BadPoints is unchanged. Otherwise it is null exactly when no point is bad, and else the strictly ascending list of exactly the bad points. A point is bad when its x (unless the index serves as x) or its y is infinite or NaN, or the mask holds 0 for it. |
| PlotPoints.BadPointsFeedBounds | Charts/Core/vtkPlotPoints.cxx:434-496 | A bad list from FindBadPoints that is shorter than n leaves at least one good point, and the bounds computed with it enclose every good value. |

## Left out

- Message passing and concurrency. The vtkSubGroup reductions, ExchangeVals, DoTransfer, the multi-process body of PartitionSubArray, and the AllCheckForFailure/AllCheckParameters votes are not modelled. Neither are ReduceData, BroadcastData and RetrieveData. Only the one-process branch of PartitionSubArray (vtkPKdTree.cxx:1186-1192) is modelled.
- Divide.GetDataBounds: states the bounds that the min/max reductions of every process's GetLocalMinMax add up to, on the global array. The reductions themselves are left out. This assumes the points lie within the top region's bounds, so that the swapped bounds of an empty process never win a reduction.
- Floating point. Coordinates are integers and bounds are reals. The cut coordinate is exact, so float rounding of the average is not modelled, and VolumeBounds padding is left out.
- Selection.SelectKth: the sampling recursion of `_select` for ranges above 600 entries (log/exp/sqrt sample bounds) is left out. It only narrows the range before the main loop, and the loop's result does not depend on it.
- Selection.Select: requires L < R. DivideRegion only selects on two points or more, so the `K == L` early return is not modelled. It is reachable only when R is L-1 or L-2, which is an empty or inverted range. The backward tie scan stops at the start of the process's slice, as written, so on one process the result can fall below L. DivideRegion treats any result below L+1 as "no cut".
- Code of the vtkKdTree superclass. DivideTest, SelectCutDirection and ValidDirections are inputs to DivideRegion (`divideOk`, `maxdim`, `validDirections`). GetRegionsAtLevel and AddProcessRegions are not modelled, so AssignRegionsContiguous states the level arithmetic and the process plan per node, not the leaf ids reached under each node.
- Divide.DivideRegion: the allocation failure result -3 and the memory checks are left out.
- The default cut axis of a new vtkKdNode is in a file that is not part of this model. 3 is used for "not cut".
- KdTree.Tag: tags are unbounded integers, so the overflow of the 32-bit shift past depth 30 is not modelled.
- KdTree.ComputeDepth: the case of a node with one child is not modelled, because nodes get children in pairs.
- KdTree.FillOutTree: a negative level is not modelled, because level is a natural number.
- BreadthFirstDivide's queue loop is not modelled. Only its tags are.
- Assignment.AssignRegionsContiguous: the early return when there is no tree (Top is null) is left out.
- Assignment.AssignRegionsRoundRobin: the early return when there is no tree (Top is null, vtkPKdTree.cxx:2936-2939) is left out. The model always has a region count.
- Assignment.GetRegionAssignmentList: the lazy UpdateRegionAssignment call is left out, and the lists are taken as built.
- ProcessTables.CreateProcessCellCountData: the source fills ProcessList and ParallelRegionList together in one loop (vtkPKdTree.cxx:2645-2658). The model fills them in two passes, FillRegionLists and FillProcessLists. The CellCountList loop (2672-2684) is a separate pass in both. Each list sees the same sequence of AddEntry calls. The `empty()` guard of the tables is modelled as `None`.
- TextProperty: the values of VTK_ARIAL and the other constants come from a header that is not part of this model. VTK's values 0..4 and 0..2 are used, and the proofs depend only on their being distinct and ordered. Colours, orientation, ShallowCopy and the other plain getters and setters are left out.
- TextProperty.ClampReal: a NaN argument, which the clamp lets through, is not modelled.
- PlotPoints: positions are reals. The location rescale in GetNearestPoint, CalculateLogSeries, CopyToPoints scaling, Paint and colour mapping are left out.
- PlotPoints.GetNearestPoint: the truncating `static_cast<int>` of an index above 2^31 is left out.
- PlotPoints.SelectPoints: the truncating `static_cast<int>` of an index above 2^31 (vtkPlotPoints.cxx:348) is left out; indices are kept whole.
- PlotPoints.CreateSortedPoints: the `Sorted` cache is not modelled, and the copy is rebuilt on each call. std::sort is not stable, so only the ordering by x and the permutation are stated.
- The dispatching overload of ComputeBounds that runs the x and then the y scan (vtkPlotPoints.cxx:498-507) is not modelled separately. It is the scan above applied to each column.
- SelectPointsInPolygon is not part of this model.

=== FILE: assignment.dfy ===
/** Assignment of the k-d tree's spatial regions to processes: the region
    assignment map gives each region its process, NumRegionsAssigned counts the
    regions of each process, and the process assignment map lists each process's
    regions in ascending order. */
module Assignment {
  import opened Wrappers
  import opened KdTree

  /** How many regions map m gives process p: none exactly when p does not
      occur in m, and all of them exactly when every entry is p. */
  function Count(m: seq<int>, p: int): (n: nat)
    ensures n <= |m|
    ensures n == 0 <==> p !in m
    ensures n == |m| <==> forall i | 0 <= i < |m| :: m[i] == p
  {
    if |m| == 0 then 0 else Count(m[..|m| - 1], p) + (if m[|m| - 1] == p then 1 else 0)
  }

  /** The regions map m gives process p, in ascending order. */
  function RegionsOf(m: seq<int>, p: int): seq<int>
  {
    if |m| == 0 then [] else RegionsOf(m[..|m| - 1], p) + (if m[|m| - 1] == p then [|m| - 1] else [])
  }

  predicate Ascending(s: seq<int>)
  {
    forall i, j | 0 <= i < j < |s| :: s[i] < s[j]
  }

  /** RegionsOf lists exactly the regions of p, once each and in ascending order,
      and there are Count of them. */
  lemma {:induction false} RegionsOfSpec(m: seq<int>, p: int)
    ensures |RegionsOf(m, p)| == Count(m, p)
    ensures forall r :: r in RegionsOf(m, p) <==> 0 <= r < |m| && m[r] == p
    ensures Ascending(RegionsOf(m, p))
  {
    if |m| > 0 {
      var init := m[..|m| - 1];
      RegionsOfSpec(init, p);
      forall r | 0 <= r < |init|
        ensures init[r] == m[r]
      {
      }
      var rs := RegionsOf(init, p);
      if m[|m| - 1] == p {
        var rs' := rs + [|m| - 1];
        forall i, j | 0 <= i < j < |rs'|
          ensures rs'[i] < rs'[j]
        {
          if j == |rs| {
            assert rs[i] in rs;
          }
        }
      }
    }
  }

  /** Every entry of m names a process below n. */
  predicate ProcessIds(m: seq<int>, n: int)
  {
    forall i | 0 <= i < |m| :: 0 <= m[i] < n
  }

  /** AssignRegionsRoundRobin: region i goes to process i mod P, the process id
      counting up and wrapping to 0 after the last process. */
  method AssignRegionsRoundRobin(nRegions: nat, nProcesses: int) returns (m: seq<int>, numAssigned: seq<nat>)
    requires nProcesses >= 1
    ensures |m| == nRegions
    ensures forall i | 0 <= i < nRegions :: m[i] == i % nProcesses
    ensures |numAssigned| == nProcesses
    ensures forall p | 0 <= p < nProcesses :: numAssigned[p] == Count(m, p)
  {
    m := [];
    numAssigned := seq(nProcesses, _ => 0);
    var procID := 0;
    var i := 0;
    while i < nRegions
      invariant 0 <= i <= nRegions && |m| == i
      invariant procID == i % nProcesses
      invariant forall k | 0 <= k < i :: m[k] == k % nProcesses
      invariant |numAssigned| == nProcesses
      invariant forall p | 0 <= p < nProcesses :: numAssigned[p] == Count(m, p)
    {
      var m0 := m;
      m := m + [procID];
      assert m[..i] == m0;
      numAssigned := numAssigned[procID := numAssigned[procID] + 1];
      procID := if procID == nProcesses - 1 then 0 else procID + 1;
      NextRemainder(i, nProcesses);
      i := i + 1;
    }
  }

  /** Counting up with wrap-around tracks the remainder. */
  lemma NextRemainder(i: nat, n: int)
    requires n >= 1
    ensures (i + 1) % n == if i % n == n - 1 then 0 else i % n + 1
  {
    var q, r := i / n, i % n;
    if r == n - 1 {
      ModUnique(i + 1, n, q + 1, 0);
    } else {
      ModUnique(i + 1, n, q, r + 1);
    }
  }

  /** The remainder is the only r in 0..n-1 with x = q * n + r. */
  lemma ModUnique(x: int, n: int, q: int, r: int)
    requires n >= 1 && 0 <= r < n && x == q * n + r
    ensures x % n == r
  {
    var q', r' := x / n, x % n;
    assert (q - q') * n == r' - r;
    if q - q' >= 1 {
      MulAtLeast(q - q', n);
    } else if q' - q >= 1 {
      MulAtLeast(q' - q, n);
    }
  }

  lemma MulAtLeast(d: int, n: int)
    requires d >= 1 && n >= 1
    ensures d * n >= n
  {
  }

  /** AssignRegions: take a user-supplied map of region to process.  A map naming
      a process outside 0..P-1 is refused (the source returns 1 and frees the
      lists), and otherwise the map is taken as it is. */
  method AssignRegions(userMap: seq<int>, nProcesses: int) returns (r: Option<(seq<int>, seq<nat>)>)
    requires nProcesses >= 1
    ensures r.None? <==> !ProcessIds(userMap, nProcesses)
    ensures r.Some? ==> r.value.0 == userMap
    ensures r.Some? ==> |r.value.1| == nProcesses && forall p | 0 <= p < nProcesses :: r.value.1[p] == Count(userMap, p)
  {
    var m: seq<int> := [];
    var numAssigned: seq<nat> := seq(nProcesses, _ => 0);
    var i := 0;
    while i < |userMap|
      invariant 0 <= i <= |userMap| && m == userMap[..i]
      invariant ProcessIds(m, nProcesses)
      invariant |numAssigned| == nProcesses
      invariant forall p | 0 <= p < nProcesses :: numAssigned[p] == Count(m, p)
    {
      if userMap[i] < 0 || userMap[i] >= nProcesses {
        return None;
      }
      var m0 := m;
      m := m + [userMap[i]];
      assert m[..i] == m0;
      assert m == userMap[..i + 1];
      numAssigned := numAssigned[userMap[i] := numAssigned[userMap[i]] + 1];
      i := i + 1;
    }
    assert userMap[..i] == userMap;
    return Some((m, numAssigned));
  }

  /** BuildRegionListsForProcesses: the inverse of the region assignment map.  The
      list of process p is allotted NumRegionsAssigned[p] slots and filled in
      region order, so it ends up holding the regions of p in ascending order. */
  method BuildRegionListsForProcesses(m: seq<int>, numAssigned: seq<nat>) returns (lists: seq<seq<int>>)
    requires ProcessIds(m, |numAssigned|)
    requires forall p | 0 <= p < |numAssigned| :: numAssigned[p] == Count(m, p)
    ensures |lists| == |numAssigned|
    ensures forall p | 0 <= p < |numAssigned| :: lists[p] == RegionsOf(m, p) && |lists[p]| == numAssigned[p]
  {
    var n := |numAssigned|;
    lists := seq(n, p requires 0 <= p < n => seq(numAssigned[p], _ => 0));
    var count: seq<nat> := seq(n, _ => 0);
    PrefixCountMonotone(m, 0);
    var r := 0;
    while r < |m|
      invariant 0 <= r <= |m|
      invariant Placed(m, numAssigned, lists, count, r)
    {
      lists, count := PlaceRegion(m, numAssigned, lists, count, r);
      r := r + 1;
    }
    assert m[..r] == m;
    forall p | 0 <= p < n
      ensures lists[p] == RegionsOf(m, p) && |lists[p]| == numAssigned[p]
    {
      assert lists[p][..count[p]] == lists[p];
    }
  }

  /** The state of BuildRegionListsForProcesses once regions 0..r-1 are placed:
      each process's list starts with its regions among them, and count says how
      many that is. */
  predicate Placed(m: seq<int>, numAssigned: seq<nat>, lists: seq<seq<int>>, count: seq<nat>, r: nat)
    requires r <= |m|
  {
    && |lists| == |numAssigned| && |count| == |numAssigned|
    && forall p {:trigger count[p]} | 0 <= p < |numAssigned| ::
         && count[p] == Count(m[..r], p) <= Count(m, p)
         && |lists[p]| == numAssigned[p] && count[p] <= |lists[p]|
         && lists[p][..count[p]] == RegionsOf(m[..r], p)
  }

  /** One step of BuildRegionListsForProcesses: region r goes into the next free
      slot of its process's list. */
  method PlaceRegion(m: seq<int>, numAssigned: seq<nat>, lists0: seq<seq<int>>, count0: seq<nat>, r: nat)
    returns (lists: seq<seq<int>>, count: seq<nat>)
    requires ProcessIds(m, |numAssigned|)
    requires forall p | 0 <= p < |numAssigned| :: numAssigned[p] == Count(m, p)
    requires r < |m| && Placed(m, numAssigned, lists0, count0, r)
    ensures Placed(m, numAssigned, lists, count, r + 1)
  {
    var proc := m[r];
    var next := count0[proc];
    assert m[..r + 1][..r] == m[..r];
    PrefixCountBelow(m, r, proc);
    PrefixCountMonotone(m, r + 1);
    lists := lists0[proc := lists0[proc][next := r]];
    count := count0[proc := next + 1];
    assert lists[proc][..count[proc]] == lists0[proc][..next] + [r];
  }

  /** A prefix never gives a process more regions than the whole map. */
  lemma {:induction false} PrefixCountMonotone(m: seq<int>, r: nat)
    requires r <= |m|
    ensures forall p :: Count(m[..r], p) <= Count(m, p)
    decreases |m| - r
  {
    if r < |m| {
      PrefixCountMonotone(m, r + 1);
      assert m[..r + 1][..r] == m[..r];
    } else {
      assert m[..r] == m;
    }
  }

  /** Before region r is placed, its process has a free slot. */
  lemma PrefixCountBelow(m: seq<int>, r: nat, p: int)
    requires r < |m| && m[r] == p
    ensures Count(m[..r], p) < Count(m, p)
  {
    assert m[..r + 1][..r] == m[..r];
    PrefixCountMonotone(m, r + 1);
  }

  /** GetProcessAssignedToRegion: the process of region regionId, or -1 when there
      is no assignment or no such region.  The map is empty before any
      assignment and after a refused one; a user map may be longer than the
      number of regions. */
  function GetProcessAssignedToRegion(m: seq<int>, nRegions: int, regionId: int): (p: int)
    requires |m| == 0 || nRegions <= |m|
    ensures |m| == 0 || regionId < 0 || regionId >= nRegions ==> p == -1
    ensures |m| > 0 && 0 <= regionId < nRegions ==> p == m[regionId]
  {
    if |m| == 0 || regionId < 0 || regionId >= nRegions then -1 else m[regionId]
  }

  /** GetRegionAssignmentList: the regions of process procId and their number, or 0
      for a process id out of range. */
  method GetRegionAssignmentList(m: seq<int>, numAssigned: seq<nat>, lists: seq<seq<int>>, procId: int)
    returns (n: nat, regions: seq<int>)
    requires |lists| == |numAssigned| && forall p | 0 <= p < |lists| :: |lists[p]| == numAssigned[p]
    requires forall p | 0 <= p < |lists| :: lists[p] == RegionsOf(m, p)
    ensures !(0 <= procId < |numAssigned|) ==> n == 0 && regions == []
    ensures 0 <= procId < |numAssigned| ==> n == |regions| == Count(m, procId)
    ensures 0 <= procId < |numAssigned| ==> regions == RegionsOf(m, procId)
    ensures forall r :: r in regions <==> 0 <= procId < |numAssigned| && 0 <= r < |m| && m[r] == procId
  {
    if procId < 0 || procId >= |numAssigned| {
      return 0, [];
    }
    RegionsOfSpec(m, procId);
    n := numAssigned[procId];
    regions := [];
    var i := 0;
    while i < n
      invariant 0 <= i <= n && regions == lists[procId][..i]
    {
      regions := regions + [lists[procId][i]];
      i := i + 1;
    }
    assert regions == lists[procId];
  }

  // ---------------------------------------------------------------------------
  // AssignRegionsContiguous

  /** The shift loop of AssignRegionsContiguous: floorLogP is one less than the
      first k with P >> k == 0, that is the floor of log2 P. */
  method FloorLog2(n: int) returns (f: nat)
    requires n >= 1
    ensures Pow2(f) <= n < Pow2(f + 1)
  {
    var k: nat := 0;
    while n / Pow2(k) > 0
      invariant k == 0 || Pow2(k - 1) <= n
      invariant k <= n
      decreases n - k
    {
      DivPositive(n, Pow2(k));
      Pow2Grows(k);
      k := k + 1;
    }
    DivPositive(n, Pow2(k));
    f := k - 1;
  }

  /** For n >= 0, n >> k is positive exactly when 2^k <= n. */
  lemma DivPositive(n: int, d: int)
    requires n >= 0 && d >= 1
    ensures n / d > 0 <==> d <= n
  {
    var q, r := n / d, n % d;
    if d <= n {
      if q < 0 {
        MulAtLeast(-q, d);
      }
    } else {
      ModUnique(n, d, 0, n);
      if q >= 1 {
        MulAtLeast(q, d);
      } else if q <= -1 {
        MulAtLeast(-q, d);
      }
    }
  }

  lemma {:induction false} Pow2Grows(k: nat)
    ensures Pow2(k) > k
  {
    if k > 0 {
      Pow2Grows(k - 1);
    }
  }

  function Concat(plan: seq<seq<int>>): seq<int>
  {
    if |plan| == 0 then [] else Concat(plan[..|plan| - 1]) + plan[|plan| - 1]
  }

  /** The plan of AssignRegionsContiguous for P processes: with f = floor(log2 P),
      the 2^f nodes at level f are handed out in order, a node taking one process
      while there are more nodes left on level f + 1 than processes left, and two
      (one for each child) after that. */
  method ContiguousLayout(nProcesses: int) returns (floorLogP: nat, ceilLogP: nat, plan: seq<seq<int>>)
    requires nProcesses >= 1
    ensures Pow2(floorLogP) <= nProcesses < Pow2(floorLogP + 1)
    ensures ceilLogP == if nProcesses == Pow2(floorLogP) then floorLogP else floorLogP + 1
    ensures |plan| == Pow2(floorLogP)
    ensures Concat(plan) == seq(nProcesses, k => k)
    ensures forall i | 0 <= i < |plan| :: |plan[i]| == if i < 2 * Pow2(floorLogP) - nProcesses then 1 else 2
  {
    floorLogP := FloorLog2(nProcesses);
    var P := Pow2(floorLogP);
    ceilLogP := if nProcesses == P then floorLogP else floorLogP + 1;
    plan := [];
    if floorLogP == ceilLogP {
      var p := 0;
      while p < nProcesses
        invariant 0 <= p <= nProcesses && |plan| == p
        invariant Concat(plan) == seq(p, k => k)
        invariant forall k | 0 <= k < p :: |plan[k]| == 1
      {
        assert (plan + [[p]])[..p] == plan;
        plan := plan + [[p]];
        p := p + 1;
      }
      return;
    }
    var nodesLeft := 2 * P;
    var procsLeft := nProcesses;
    var procId := 0;
    var single := 2 * P - nProcesses;
    var i := 0;
    while i < P
      invariant 0 <= i <= P && |plan| == i
      invariant nodesLeft == 2 * P - 2 * i && procId + procsLeft == nProcesses
      invariant procId == if i <= single then i else single + 2 * (i - single)
      invariant Concat(plan) == seq(procId, k => k)
      invariant forall k | 0 <= k < i :: |plan[k]| == if k < single then 1 else 2
    {
      if nodesLeft > procsLeft {
        assert (plan + [[procId]])[..i] == plan;
        plan := plan + [[procId]];
        procsLeft := procsLeft - 1;
        procId := procId + 1;
      } else {
        assert (plan + [[procId, procId + 1]])[..i] == plan;
        plan := plan + [[procId, procId + 1]];
        procsLeft := procsLeft - 2;
        procId := procId + 2;
      }
      nodesLeft := nodesLeft - 2;
      i := i + 1;
    }
  }

  /** What AssignRegionsContiguous decides: with no more regions than processes it
      falls back to round robin; otherwise it hands the nodes at level floor(log2 P)
      out as ContiguousLayout says, each node's leaves going to its process (or
      its two children's leaves to the two processes). */
  datatype ContiguousPlan =
    | ByRoundRobin(m: seq<int>, numAssigned: seq<nat>)
    | ByLevel(floorLogP: nat, ceilLogP: nat, plan: seq<seq<int>>)

  method AssignRegionsContiguous(nRegions: nat, nProcesses: int) returns (c: ContiguousPlan)
    requires nProcesses >= 1
    ensures c.ByRoundRobin? <==> nRegions <= nProcesses
    ensures c.ByRoundRobin? ==> |c.m| == nRegions && forall i | 0 <= i < nRegions :: c.m[i] == i
    ensures c.ByLevel? ==>
      && Pow2(c.floorLogP) <= nProcesses < Pow2(c.floorLogP + 1)
      && c.ceilLogP == (if nProcesses == Pow2(c.floorLogP) then c.floorLogP else c.floorLogP + 1)
      && |c.plan| == Pow2(c.floorLogP)
      && Concat(c.plan) == seq(nProcesses, k => k)
      && forall i | 0 <= i < |c.plan| :: |c.plan[i]| == if i < 2 * Pow2(c.floorLogP) - nProcesses then 1 else 2
  {
    if nRegions <= nProcesses {
      var m, numAssigned := AssignRegionsRoundRobin(nRegions, nProcesses);
      forall i | 0 <= i < nRegions ensures m[i] == i {
        ModUnique(i, nProcesses, 0, i);
      }
      return ByRoundRobin(m, numAssigned);
    }
    var f, cl, plan := ContiguousLayout(nProcesses);
    return ByLevel(f, cl, plan);
  }
}

=== FILE: divide.dfy ===
/** One step of the parallel k-d tree build: vtkPKdTree::DivideRegion cuts the
    region of a leaf holding the points at global positions L..L+numPoints-1 in
    two, rearranging those points so that the left child's come first, and
    computes the children's bounds and data bounds.  The array is the global one,
    as all processes together hold it. */
module Divide {
  import opened Points
  import opened Selection
  import opened GlobalIndex
  import opened KdTree

  function ToReal(p: Point, d: Axis): real
  {
    Coord(p, d) as real
  }

  /** lo and hi are the smallest and the largest coordinate along d of the points
      at from..to. */
  predicate MinMaxAlong(a: seq<Point>, from: int, to: int, d: Axis, lo: real, hi: real)
    requires 0 <= from <= to < |a|
  {
    && (forall k | from <= k <= to :: lo <= ToReal(a[k], d) <= hi)
    && (exists k | from <= k <= to :: ToReal(a[k], d) == lo)
    && (exists k | from <= k <= to :: ToReal(a[k], d) == hi)
  }

  /** min and max are the data bounds of the points at from..to. */
  predicate IsMinMax(a: seq<Point>, from: int, to: int, min: Vec3, max: Vec3)
    requires 0 <= from <= to < |a|
  {
    && MinMaxAlong(a, from, to, 0, min[0], max[0])
    && MinMaxAlong(a, from, to, 1, min[1], max[1])
    && MinMaxAlong(a, from, to, 2, min[2], max[2])
  }

  lemma MinMaxAt(a: seq<Point>, from: int, to: int, min: Vec3, max: Vec3, d: Axis)
    requires 0 <= from <= to < |a|
    requires IsMinMax(a, from, to, min, max)
    ensures MinMaxAlong(a, from, to, d, min[d], max[d])
  {
    if d == 0 {} else if d == 1 {} else {}
  }

  /** One coordinate of the scan in GetLocalMinMax: a value below the minimum
      lowers it, otherwise a value above the maximum raises it. */
  function Widen(lo: real, hi: real, v: real): (r: (real, real))
    requires lo <= hi
    ensures r.0 <= v <= r.1 && r.0 <= lo && hi <= r.1
    ensures (r.0 == lo || r.0 == v) && (r.1 == hi || r.1 == v)
  {
    if v < lo then (v, hi) else if v > hi then (lo, v) else (lo, hi)
  }

  /** Widening the bounds of from..to-1 by the point at to gives the bounds of
      from..to. */
  lemma {:induction false} WidenExtends(a: seq<Point>, from: int, to: int, d: Axis, lo: real, hi: real)
    requires 0 <= from < to < |a|
    requires MinMaxAlong(a, from, to - 1, d, lo, hi)
    ensures lo <= hi
    ensures MinMaxAlong(a, from, to, d, Widen(lo, hi, ToReal(a[to], d)).0, Widen(lo, hi, ToReal(a[to], d)).1)
  {
    var k :| from <= k <= to - 1 && ToReal(a[k], d) == lo;
    assert ToReal(a[k], d) <= hi;
    var r := Widen(lo, hi, ToReal(a[to], d));
    if r.0 == lo {
      assert from <= k <= to && ToReal(a[k], d) == r.0;
    } else {
      assert ToReal(a[to], d) == r.0;
    }
    var j :| from <= j <= to - 1 && ToReal(a[j], d) == hi;
    if r.1 == hi {
      assert from <= j <= to && ToReal(a[j], d) == r.1;
    } else {
      assert ToReal(a[to], d) == r.1;
    }
  }

  function PointVec(p: Point): (v: Vec3)
    ensures forall d: Axis :: v[d] == ToReal(p, d)
  {
    [p.0 as real, p.1 as real, p.2 as real]
  }

  /** The data bounds of the points at from..to, by one pass over them. */
  method RangeMinMax(a: seq<Point>, from: int, to: int) returns (min: Vec3, max: Vec3)
    requires 0 <= from <= to < |a|
    ensures IsMinMax(a, from, to, min, max)
  {
    min, max := PointVec(a[from]), PointVec(a[from]);
    var i := from + 1;
    while i <= to
      invariant from + 1 <= i <= to + 1
      invariant IsMinMax(a, from, i - 1, min, max)
    {
      WidenAllExtends(a, from, i, min, max);
      var x := Widen(min[0], max[0], ToReal(a[i], 0));
      var y := Widen(min[1], max[1], ToReal(a[i], 1));
      var z := Widen(min[2], max[2], ToReal(a[i], 2));
      min, max := [x.0, y.0, z.0], [x.1, y.1, z.1];
      i := i + 1;
    }
  }

  /** One step of RangeMinMax: widening each coordinate by the point at to turns
      the data bounds of from..to-1 into those of from..to. */
  lemma WidenAllExtends(a: seq<Point>, from: int, to: int, min: Vec3, max: Vec3)
    requires 0 <= from < to < |a|
    requires IsMinMax(a, from, to - 1, min, max)
    ensures min[0] <= max[0] && min[1] <= max[1] && min[2] <= max[2]
    ensures var x, y, z := Widen(min[0], max[0], ToReal(a[to], 0)),
                           Widen(min[1], max[1], ToReal(a[to], 1)),
                           Widen(min[2], max[2], ToReal(a[to], 2));
      IsMinMax(a, from, to, [x.0, y.0, z.0], [x.1, y.1, z.1])
  {
    WidenExtends(a, from, to, 0, min[0], max[0]);
    WidenExtends(a, from, to, 1, min[1], max[1]);
    WidenExtends(a, from, to, 2, min[2], max[2]);
  }

  function MaxInt(x: int, y: int): int
  {
    if x >= y then x else y
  }

  function MinInt(x: int, y: int): int
  {
    if x <= y then x else y
  }

  /** GetLocalMinMax: the data bounds of the points of L..R that process me holds.
      A process holding none of them answers with the top region's bounds the
      wrong way round, maxima as minima and minima as maxima, so that it does not
      disturb the reductions across the processes. */
  method GetLocalMinMax(a: seq<Point>, t: IndexTable, me: int, L: int, R: int, topMin: Vec3, topMax: Vec3)
    returns (min: Vec3, max: Vec3)
    requires Valid(t) && t.totalNumCells == |a|
    requires 0 <= me < NumProcesses(t)
    ensures var from, to := MaxInt(L, t.startVal[me]), MinInt(R, t.endVal[me]);
      && (from <= to ==> 0 <= from && to < |a| && IsMinMax(a, from, to, min, max))
      && (to < from ==> min == topMax && max == topMin)
  {
    RangeWithin(t, me);
    var from, to := MaxInt(L, t.startVal[me]), MinInt(R, t.endVal[me]);
    if from <= to {
      min, max := RangeMinMax(a, from, to);
    } else {
      min, max := topMax, topMin;
    }
  }

  /** GetDataBounds: the data bounds of the left part L..K-1 and of the right part
      K..R. */
  method GetDataBounds(a: seq<Point>, L: int, K: int, R: int)
    returns (leftMin: Vec3, leftMax: Vec3, rightMin: Vec3, rightMax: Vec3)
    requires 0 <= L < K <= R < |a|
    ensures IsMinMax(a, L, K - 1, leftMin, leftMax)
    ensures IsMinMax(a, K, R, rightMin, rightMax)
  {
    leftMin, leftMax := RangeMinMax(a, L, K - 1);
    rightMin, rightMax := RangeMinMax(a, K, R);
  }

  /** Bit d of ValidDirections allows cutting along axis d. */
  predicate DirectionValid(validDirections: bv32, d: Axis)
  {
    validDirections & ((1 as bv32) << d) != 0
  }

  /** The direction tried next after n when the first choice maxdim failed: the
      first axis above n other than maxdim that ValidDirections allows, or 3 when
      none is left. */
  function NextDirection(n: int, maxdim: Axis, validDirections: bv32): (m: int)
    requires -1 <= n <= 2
    ensures n < m <= 3
    ensures m < 3 ==> m != maxdim && DirectionValid(validDirections, m)
    ensures forall d: Axis | n < d < m :: d == maxdim || !DirectionValid(validDirections, d)
    decreases 2 - n
  {
    var m := n + 1;
    if m > 2 then m
    else if m == maxdim || !DirectionValid(validDirections, m) then NextDirection(m, maxdim, validDirections)
    else m
  }

  /** The regions of the two children of a region x cut along dim at coord: each
      keeps x's bounds except on the cut axis, where the left child ends and the
      right child starts at coord.  New nodes are never cut, so their dim is 3. */
  function ChildRegions(x: Region, dim: Axis, coord: real, leftCount: int, rightCount: int,
                        leftMin: Vec3, leftMax: Vec3, rightMin: Vec3, rightMax: Vec3): (lr: (Region, Region))
    ensures Adjacent(x.(dim := dim), lr.0, lr.1)
    ensures lr.0.maxBounds[dim] == coord && lr.1.minBounds[dim] == coord
    ensures lr.0.numPoints == leftCount && lr.1.numPoints == rightCount
    ensures lr.0.minData == leftMin && lr.0.maxData == leftMax
    ensures lr.1.minData == rightMin && lr.1.maxData == rightMax
    ensures lr.0.dim == NoCut && lr.1.dim == NoCut
  {
    var l := Region(NoCut, x.minBounds, x.maxBounds[dim := coord], leftMin, leftMax, leftCount);
    var r := Region(NoCut, x.minBounds[dim := coord], x.maxBounds, rightMin, rightMax, rightCount);
    (l, r)
  }

  /** The outcome of DivideRegion for a leaf region kd of numPoints points from L
      on, when it divides: the node is cut along dim with the left child holding
      L..midpt-1 and the right child midpt..R. */
  predicate DividedAt(a: seq<Point>, kd: KdNode, u: KdNode, L: int, midpt: int, dim: Axis)
    requires 0 <= L && L + kd.region.numPoints <= |a|
  {
    var R := L + kd.region.numPoints - 1;
    && u.Split? && u.left.Leaf? && u.right.Leaf?
    && u.region == kd.region.(dim := dim)
    && L + 1 <= midpt <= R
    && u.left.region.numPoints == midpt - L && u.right.region.numPoints == R - midpt + 1
    && IsMinMax(a, L, midpt - 1, u.left.region.minData, u.left.region.maxData)
    && IsMinMax(a, midpt, R, u.right.region.minData, u.right.region.maxData)
    && u.left.region.maxBounds[dim] == u.right.region.minBounds[dim]
         == (u.left.region.maxData[dim] + u.right.region.minData[dim]) * 0.5
  }

  /** The cut of a range that has at least two points: Select along maxdim, and
      while that finds no index above L, along the next valid direction; when the
      directions run out, the middle index along maxdim.  Which of these happens
      is decided by whether the range can be cut along each direction
      (NoCutAlong), which no rearrangement of the range changes. */
  method ChooseCut(a0: seq<Point>, L: int, R: int, maxdim: Axis, validDirections: bv32)
    returns (a: seq<Point>, midpt: int, dim: Axis)
    requires 0 <= L < R < |a0|
    ensures PermutedWithin(a0, a, L, R)
    ensures L + 1 <= midpt <= R
    ensures dim == maxdim || DirectionValid(validDirections, dim)
    ensures CutChosen(a0, a, L, R, maxdim, validDirections, midpt, dim)
  {
    a, midpt := Select(a0, maxdim, L, R);
    dim := maxdim;
    if midpt < L + 1 {
      var newdim := -1;
      while midpt < L + 1
        invariant -1 <= newdim <= 2 && |a| == |a0|
        invariant Tried(a0, a, L, R, maxdim, validDirections, newdim, midpt)
        decreases 2 - newdim
      {
        a, midpt, newdim := TryNext(a0, a, L, R, maxdim, validDirections, newdim, midpt);
        if newdim > 2 {
          // every direction tried: split in the middle along maxdim
          NoCutKept(a0, a, L, R, maxdim);
          StrictSplitCuts(a, L, R, SplitIndex(L, R), maxdim);
          return a, SplitIndex(L, R), maxdim;
        }
      }
      dim := newdim;
    }
  }

  /** The state of ChooseCut's retry loop after trying direction n (-1 before the
      first retry): L..R cannot be cut along maxdim nor along any valid direction
      below n; n itself could not cut unless midpt is a strict split along it. */
  ghost predicate Tried(a0: seq<Point>, a: seq<Point>, L: int, R: int, maxdim: Axis, validDirections: bv32,
                        n: int, midpt: int)
    requires 0 <= L < R < |a0| && |a| == |a0|
  {
    && -1 <= n <= 2 && PermutedWithin(a0, a, L, R) && midpt <= R
    && NoCutAlong(a0, L, R, maxdim)
    && (forall d: Axis | d < n && DirectionValid(validDirections, d) :: NoCutAlong(a0, L, R, d))
    && (0 <= n && midpt < L + 1 ==> NoCutAlong(a0, L, R, n))
    && (L + 1 <= midpt ==>
          && 0 <= n && n != maxdim && DirectionValid(validDirections, n)
          && StrictSplit(a, L, R, midpt, n) && RolledBack(a, L, R, midpt, n) && !NoCutAlong(a0, L, R, n))
  }

  /** One round of the retry loop: Select along the next valid direction, or 3
      when none is left, in which case no valid direction can cut. */
  method TryNext(a0: seq<Point>, a: seq<Point>, L: int, R: int, maxdim: Axis, validDirections: bv32,
                 n: int, midpt: int)
    returns (a': seq<Point>, midpt': int, n': int)
    requires 0 <= L < R < |a0| && |a| == |a0|
    requires Tried(a0, a, L, R, maxdim, validDirections, n, midpt) && midpt < L + 1
    ensures n < n' <= 3 && |a'| == |a0|
    ensures n' <= 2 ==> Tried(a0, a', L, R, maxdim, validDirections, n', midpt')
    ensures n' == 3 ==> a' == a && forall d: Axis | DirectionValid(validDirections, d) :: NoCutAlong(a0, L, R, d)
  {
    n' := NextDirection(n, maxdim, validDirections);
    SkippedCannotCut(a0, L, R, maxdim, validDirections, n, n');
    if n' > 2 {
      return a, midpt, n';
    }
    a', midpt' := Select(a, n', L, R);
    NoCutKept(a0, a, L, R, n');
    PermutedWithinTrans(a0, a, a', L, R, L, R);
  }

  /** The directions NextDirection passes over, and the one just tried, cannot cut. */
  lemma SkippedCannotCut(a0: seq<Point>, L: int, R: int, maxdim: Axis, validDirections: bv32, n: int, m: int)
    requires 0 <= L < R < |a0| && -1 <= n <= 2 && n < m <= 3
    requires forall d: Axis | n < d < m :: d == maxdim || !DirectionValid(validDirections, d)
    requires NoCutAlong(a0, L, R, maxdim)
    requires forall d: Axis | d < n && DirectionValid(validDirections, d) :: NoCutAlong(a0, L, R, d)
    requires 0 <= n ==> NoCutAlong(a0, L, R, n)
    ensures forall d: Axis | d < m && DirectionValid(validDirections, d) :: NoCutAlong(a0, L, R, d)
  {
  }

  /** What ChooseCut decides: when L..R can be cut along maxdim, it is cut along
      maxdim; another direction is used only when maxdim and every valid direction
      below it cannot cut and it can; and the cut fails to separate only when no
      allowed direction can cut, in which case it is the middle index along
      maxdim. */
  ghost predicate CutChosen(a0: seq<Point>, a: seq<Point>, L: int, R: int, maxdim: Axis, validDirections: bv32,
                            midpt: int, dim: Axis)
    requires 0 <= L < R < |a0| && |a| == |a0|
  {
    && (!NoCutAlong(a0, L, R, maxdim) ==> dim == maxdim && StrictSplit(a, L, R, midpt, maxdim))
    && (dim != maxdim ==>
          && DirectionValid(validDirections, dim)
          && NoCutAlong(a0, L, R, maxdim) && !NoCutAlong(a0, L, R, dim) && StrictSplit(a, L, R, midpt, dim)
          && forall d: Axis | d < dim && DirectionValid(validDirections, d) :: NoCutAlong(a0, L, R, d))
    && (StrictSplit(a, L, R, midpt, dim) ==> L < midpt <= R && RolledBack(a, L, R, midpt, dim))
    && (!StrictSplit(a, L, R, midpt, dim) ==>
          && dim == maxdim && midpt == SplitIndex(L, R)
          && forall d: Axis | d == maxdim || DirectionValid(validDirections, d) :: NoCutAlong(a0, L, R, d))
  }

  /** Reading CutChosen with the cut in L+1..R: the split along dim is strict exactly
      when the range can be cut along dim, and maxdim is kept while it cannot cut
      only when no allowed direction can. */
  lemma CutChosenMeaning(a0: seq<Point>, a: seq<Point>, L: int, R: int, maxdim: Axis, validDirections: bv32,
                         midpt: int, dim: Axis)
    requires 0 <= L < R < |a0| && PermutedWithin(a0, a, L, R) && L + 1 <= midpt <= R
    requires CutChosen(a0, a, L, R, maxdim, validDirections, midpt, dim)
    ensures StrictSplit(a, L, R, midpt, dim) <==> !NoCutAlong(a0, L, R, dim)
    ensures dim == maxdim && NoCutAlong(a0, L, R, maxdim) ==>
              forall d: Axis | DirectionValid(validDirections, d) :: NoCutAlong(a0, L, R, d)
  {
    if StrictSplit(a, L, R, midpt, dim) {
      NoCutKept(a0, a, L, R, dim);
      StrictSplitCuts(a, L, R, midpt, dim);
    }
  }

  /** The cut is fixed by the points of L..R: two rearrangements that both meet
      CutChosen with a cut in L+1..R use the same direction and the same index. */
  lemma CutDetermined(a0: seq<Point>, b: seq<Point>, c: seq<Point>, L: int, R: int, maxdim: Axis,
                      validDirections: bv32, m1: int, d1: Axis, m2: int, d2: Axis)
    requires 0 <= L < R < |a0| && PermutedWithin(a0, b, L, R) && PermutedWithin(a0, c, L, R)
    requires L + 1 <= m1 <= R && CutChosen(a0, b, L, R, maxdim, validDirections, m1, d1)
    requires L + 1 <= m2 <= R && CutChosen(a0, c, L, R, maxdim, validDirections, m2, d2)
    ensures d1 == d2 && m1 == m2
  {
    CutChosenMeaning(a0, b, L, R, maxdim, validDirections, m1, d1);
    CutChosenMeaning(a0, c, L, R, maxdim, validDirections, m2, d2);
    assert d1 == d2;
    if StrictSplit(b, L, R, m1, d1) {
      CutIndexUnique(a0, b, c, L, R, m1, m2, d1);
    }
  }

  /** DivideRegion.  divideOk is the tree's DivideTest on the region, maxdim its
      choice of cut direction (SelectCutDirection), myId the process running it.
      The answer is -1 when the region is not divided here, and otherwise the
      first global position of the right child. */
  method DivideRegion(a0: seq<Point>, t: IndexTable, myId: int, kd: KdNode, L: int,
                      divideOk: bool, maxdim: Axis, validDirections: bv32)
    returns (a: seq<Point>, u: KdNode, midpt: int)
    requires Valid(t) && t.totalNumCells == |a0|
    requires 0 <= myId < NumProcesses(t)
    requires kd.Leaf? && kd.region.numPoints >= 0
    requires 0 <= L && L + kd.region.numPoints <= |a0|
    ensures midpt == -1 ==> a == a0 && u == kd
    ensures !divideOk ==> midpt == -1
    // fewer than two points: only the process holding position L divides; it cuts
    // along maxdim at the point at L, or mid-region when there is no point, and
    // gives both children data bounds around the point at L
    ensures divideOk && kd.region.numPoints < 2 ==>
      && (midpt != -1 <==> WhoHas(t, L) == myId)
      && (midpt != -1 ==>
            && midpt == L && a == a0
            && u.Split? && u.left.Leaf? && u.right.Leaf?
            && u.region == kd.region.(dim := maxdim)
            && Adjacent(u.region, u.left.region, u.right.region)
            && u.left.region.maxBounds[maxdim] == u.right.region.minBounds[maxdim]
                 == (if kd.region.numPoints > 0 then ToReal(a0[L], maxdim)
                     else (kd.region.minBounds[maxdim] + kd.region.maxBounds[maxdim]) * 0.5)
            && u.left.region.numPoints == kd.region.numPoints && u.right.region.numPoints == 0
            && u.left.region.minData == u.left.region.maxData == PointVec(a0[L])
            && u.right.region.minData == u.right.region.maxData == PointVec(a0[L]))
    // two points or more: the processes holding L..R divide, all the same way
    ensures divideOk && kd.region.numPoints >= 2 ==>
      && (midpt != -1 <==> WhoHas(t, L) <= myId <= WhoHas(t, L + kd.region.numPoints - 1))
      && (midpt != -1 ==>
            && PermutedWithin(a0, a, L, L + kd.region.numPoints - 1)
            && exists dim: Axis ::
                 && (dim == maxdim || DirectionValid(validDirections, dim))
                 && DividedAt(a, kd, u, L, midpt, dim)
                 && Adjacent(u.region, u.left.region, u.right.region)
                 && CutChosen(a0, a, L, L + kd.region.numPoints - 1, maxdim, validDirections, midpt, dim))
  {
    a, u, midpt := a0, kd, -1;
    if !divideOk {
      return;
    }
    var x := kd.region;
    var numpoints := x.numPoints;
    var R := L + numpoints - 1;
    if numpoints < 2 {
      var p := WhoHas(t, L);
      if myId != p {
        return;
      }
      var val := a0[L];
      var coord := if numpoints > 0 then ToReal(val, maxdim) else (x.minBounds[maxdim] + x.maxBounds[maxdim]) * 0.5;
      var lr := ChildRegions(x, maxdim, coord, numpoints, 0, PointVec(val), PointVec(val), PointVec(val), PointVec(val));
      u := Split(x.(dim := maxdim), Leaf(lr.0), Leaf(lr.1));
      midpt := L;
      return;
    }
    var p1, p2 := WhoHas(t, L), WhoHas(t, R);
    if myId < p1 || myId > p2 {
      return;
    }
    var dim;
    a, midpt, dim := ChooseCut(a0, L, R, maxdim, validDirections);
    var leftMin, leftMax, rightMin, rightMax := GetDataBounds(a, L, midpt, R);
    var coord := (leftMax[dim] + rightMin[dim]) * 0.5;
    var lr := ChildRegions(x, dim, coord, midpt - L, R - midpt + 1, leftMin, leftMax, rightMin, rightMax);
    u := Split(x.(dim := dim), Leaf(lr.0), Leaf(lr.1));
    assert DividedAt(a, kd, u, L, midpt, dim) && Adjacent(u.region, u.left.region, u.right.region);
  }

  /** When the cut found by Select separates the points strictly, the cut
      coordinate lies strictly between the two children's points along the cut
      axis: every left point is below it and every right point above it. */
  lemma {:induction false} CutSeparates(a: seq<Point>, kd: KdNode, u: KdNode, L: int, midpt: int, dim: Axis)
    requires 0 <= L && L + kd.region.numPoints <= |a|
    requires DividedAt(a, kd, u, L, midpt, dim)
    requires StrictSplit(a, L, L + kd.region.numPoints - 1, midpt, dim)
    ensures forall k | L <= k < midpt :: ToReal(a[k], dim) < u.left.region.maxBounds[dim]
    ensures forall k | midpt <= k <= L + kd.region.numPoints - 1 :: u.right.region.minBounds[dim] < ToReal(a[k], dim)
  {
    var l, r := u.left.region, u.right.region;
    SplitSeparated(a, L, midpt, L + kd.region.numPoints - 1, dim, l.minData, l.maxData, r.minData, r.maxData);
  }

  /** The cut midway between the data bounds of a strict split separates it. */
  lemma SplitSeparated(a: seq<Point>, L: int, m: int, R: int, dim: Axis,
                       lmin: Vec3, lmax: Vec3, rmin: Vec3, rmax: Vec3)
    requires 0 <= L < m <= R < |a|
    requires IsMinMax(a, L, m - 1, lmin, lmax) && IsMinMax(a, m, R, rmin, rmax)
    requires StrictSplit(a, L, R, m, dim)
    ensures forall k | L <= k < m :: ToReal(a[k], dim) < (lmax[dim] + rmin[dim]) * 0.5
    ensures forall k | m <= k <= R :: (lmax[dim] + rmin[dim]) * 0.5 < ToReal(a[k], dim)
  {
    MinMaxAt(a, L, m - 1, lmin, lmax, dim);
    MinMaxAt(a, m, R, rmin, rmax, dim);
    MidwaySeparates(a, L, m, R, dim, lmin[dim], lmax[dim], rmin[dim], rmax[dim]);
  }

  /** Two ranges split strictly are separated by the point midway between the
      largest value of the first and the smallest of the second. */
  lemma {:induction false} MidwaySeparates(a: seq<Point>, L: int, m: int, R: int, dim: Axis,
                                           lo1: real, hi1: real, lo2: real, hi2: real)
    requires 0 <= L < m <= R < |a|
    requires MinMaxAlong(a, L, m - 1, dim, lo1, hi1) && MinMaxAlong(a, m, R, dim, lo2, hi2)
    requires StrictSplit(a, L, R, m, dim)
    ensures forall k | L <= k < m :: ToReal(a[k], dim) < (hi1 + lo2) * 0.5
    ensures forall k | m <= k <= R :: (hi1 + lo2) * 0.5 < ToReal(a[k], dim)
  {
    var i :| L <= i <= m - 1 && ToReal(a[i], dim) == hi1;
    var j :| m <= j <= R && ToReal(a[j], dim) == lo2;
    assert Coord(a[i], dim) < Coord(a[j], dim);
  }
}

=== FILE: global_index.dfy ===
/** The global index of the parallel k-d tree builder: process p holds the points
    with global positions StartVal[p]..EndVal[p], the processes in rank order
    covering 0..TotalNumCells-1 without gaps.  A process with no points has
    EndVal[p] = StartVal[p] - 1. */
module GlobalIndex {
  import opened Wrappers

  datatype IndexTable = IndexTable(startVal: seq<int>, endVal: seq<int>, numCells: seq<nat>, totalNumCells: int)

  function Sum(s: seq<nat>): nat
  {
    if |s| == 0 then 0 else Sum(s[..|s| - 1]) + s[|s| - 1]
  }

  /** The shape BuildGlobalIndexLists gives the table: the first range starts at 0,
      each range is as long as its count and the next starts right after it, and
      the total is one past the end of the last range. */
  predicate Valid(t: IndexTable)
  {
    && |t.startVal| == |t.endVal| == |t.numCells| >= 1
    && t.startVal[0] == 0
    && (forall i {:trigger t.endVal[i]} | 0 <= i < |t.endVal| ::
          && t.endVal[i] == t.startVal[i] + t.numCells[i] - 1
          && (i + 1 < |t.startVal| ==> t.startVal[i + 1] == t.endVal[i] + 1))
    && t.totalNumCells == t.endVal[|t.endVal| - 1] + 1
  }

  function NumProcesses(t: IndexTable): nat
  {
    |t.numCells|
  }

  /** BuildGlobalIndexLists: lay the per-process counts end to end.  Each range
      starts after the sum of the counts before it, and the total is the sum of
      all counts, processes with no points included. */
  method BuildGlobalIndexLists(numCells: seq<nat>) returns (t: IndexTable)
    requires |numCells| >= 1
    ensures t.numCells == numCells
    ensures t.totalNumCells == Sum(numCells)
    ensures Valid(t)
    ensures forall i {:trigger t.startVal[i]} | 0 <= i < |numCells| :: t.startVal[i] == Sum(numCells[..i])
  {
    var startVal: seq<int> := [];
    var endVal: seq<int> := [];
    var total: int := 0;
    var i := 0;
    while i < |numCells|
      invariant 0 <= i <= |numCells|
      invariant |startVal| == |endVal| == i
      invariant forall k | 0 <= k < i :: endVal[k] == startVal[k] + numCells[k] - 1
      invariant forall k {:trigger startVal[k]} | 0 <= k < i :: startVal[k] == Sum(numCells[..k])
      invariant total == Sum(numCells[..i])
    {
      SumStep(numCells, i);
      startVal := startVal + [total];
      endVal := endVal + [total + numCells[i] - 1];
      total := total + numCells[i];
      i := i + 1;
    }
    assert numCells[..i] == numCells;
    t := IndexTable(startVal, endVal, numCells, total);
    PrefixSumsAdjacent(t);
  }

  /** Ranges starting at the prefix sums of the counts and as long as the counts
      lie end to end. */
  lemma PrefixSumsAdjacent(t: IndexTable)
    requires |t.startVal| == |t.endVal| == |t.numCells| >= 1
    requires forall k | 0 <= k < |t.numCells| :: t.endVal[k] == t.startVal[k] + t.numCells[k] - 1
    requires forall k {:trigger t.startVal[k]} | 0 <= k < |t.numCells| :: t.startVal[k] == Sum(t.numCells[..k])
    requires t.totalNumCells == Sum(t.numCells)
    ensures Valid(t)
  {
    var n := t.numCells;
    forall k | 1 <= k < |n| ensures t.startVal[k] == t.endVal[k - 1] + 1 {
      SumStep(n, k - 1);
    }
    SumStep(n, |n| - 1);
    assert n[..|n|] == n;
  }

  /** Adding one more count to the prefix adds that count to the sum. */
  lemma SumStep(s: seq<nat>, i: nat)
    requires i < |s|
    ensures Sum(s[..i + 1]) == Sum(s[..i]) + s[i]
  {
    assert s[..i + 1][..i] == s[..i];
  }

  /** Positions only grow with the rank, since no count is negative. */
  lemma {:induction false} StartMonotone(t: IndexTable, p: int, q: int)
    requires Valid(t)
    requires 0 <= p <= q < NumProcesses(t)
    ensures t.startVal[p] <= t.startVal[q]
    decreases q - p
  {
    if p < q {
      StartMonotone(t, p, q - 1);
      RangesAdjacent(t, q);
    }
  }

  /** Consecutive ranges meet: each starts right after the one before it ends. */
  lemma RangesAdjacent(t: IndexTable, p: int)
    requires Valid(t)
    requires 1 <= p < NumProcesses(t)
    ensures t.startVal[p] == t.endVal[p - 1] + 1
    ensures t.endVal[p - 1] == t.startVal[p - 1] + t.numCells[p - 1] - 1
  {
    assert t.endVal[p - 1] == t.endVal[p - 1];
  }

  /** Every range lies inside 0..TotalNumCells-1 (an empty one may sit just past it). */
  lemma RangeWithin(t: IndexTable, p: int)
    requires Valid(t)
    requires 0 <= p < NumProcesses(t)
    ensures 0 <= t.startVal[p] && t.endVal[p] < t.totalNumCells
  {
    var last := NumProcesses(t) - 1;
    StartMonotone(t, 0, p);
    if p < last {
      StartMonotone(t, p + 1, last);
      RangesAdjacent(t, p + 1);
    }
    assert t.endVal[last] == t.startVal[last] + t.numCells[last] - 1;
  }

  /** Process p owns position pos. */
  predicate Owns(t: IndexTable, p: int, pos: int)
    requires Valid(t)
  {
    0 <= p < NumProcesses(t) && t.startVal[p] <= pos <= t.endVal[p]
  }

  /** No position has two owners. */
  lemma OwnerUnique(t: IndexTable, p: int, q: int, pos: int)
    requires Valid(t)
    requires Owns(t, p, pos) && Owns(t, q, pos)
    ensures p == q
  {
    if p < q {
      StartMonotone(t, p + 1, q);
      RangesAdjacent(t, p + 1);
    } else if q < p {
      StartMonotone(t, q + 1, p);
      RangesAdjacent(t, q + 1);
    }
  }

  /** _whoHas: binary search for the owner of pos among processes L..R, given that
      pos lies between the start of L and the end of R. */
  function WhoHasIn(t: IndexTable, L: int, R: int, pos: int): (p: int)
    requires Valid(t)
    requires 0 <= L <= R < NumProcesses(t)
    requires t.startVal[L] <= pos <= t.endVal[R]
    ensures L <= p <= R && Owns(t, p, pos)
    decreases R - L
  {
    if L == R then
      L
    else
      var M := (L + R) / 2;
      assert L <= M < R;
      if pos < t.startVal[M] then
        RangesAdjacent(t, M);
        WhoHasIn(t, L, M - 1, pos)
      else if pos < t.startVal[M + 1] then
        RangesAdjacent(t, M + 1);
        M
      else
        WhoHasIn(t, M + 1, R, pos)
  }

  /** WhoHas: the process holding global position pos, or -1 for a position outside
      0..TotalNumCells-1. */
  function WhoHas(t: IndexTable, pos: int): (p: int)
    requires Valid(t)
    ensures p == -1 <==> pos < 0 || pos >= t.totalNumCells
    ensures p != -1 ==> Owns(t, p, pos) && t.numCells[p] > 0
  {
    if pos < 0 || pos >= t.totalNumCells then
      -1
    else
      WhoHasIn(t, 0, NumProcesses(t) - 1, pos)
  }

  /** WhoHas finds exactly the owner: every process whose range holds pos is the
      one returned. */
  lemma WhoHasIsOwner(t: IndexTable, p: int, pos: int)
    requires Valid(t)
    requires 0 <= p
    ensures WhoHas(t, pos) == p <==> Owns(t, p, pos)
  {
    if Owns(t, p, pos) {
      RangeWithin(t, p);
      OwnerUnique(t, WhoHas(t, pos), p, pos);
    }
  }

  /** GetLocalVal: the offset of global position pos in the local array of process
      me, or nothing when me does not hold it. */
  function GetLocalVal(t: IndexTable, me: int, pos: int): (r: Option<nat>)
    requires Valid(t) && 0 <= me < NumProcesses(t)
    ensures r.Some? <==> Owns(t, me, pos)
    ensures r.Some? ==> t.startVal[me] + r.value == pos && r.value < t.numCells[me]
  {
    if pos < t.startVal[me] || pos > t.endVal[me] then None else Some(pos - t.startVal[me])
  }

  /** A process finds a position locally exactly when WhoHas names it. */
  lemma LocalExactlyWhenOwner(t: IndexTable, me: int, pos: int)
    requires Valid(t) && 0 <= me < NumProcesses(t)
    ensures GetLocalVal(t, me, pos).Some? <==> WhoHas(t, pos) == me
  {
    WhoHasIsOwner(t, me, pos);
  }
}

=== FILE: kdtree.dfy ===
/** The nodes of the k-d tree as the parallel builder handles them: a region with
    its cut axis, its spatial bounds, the bounds of the data in it and its point
    count, and either no children or two.  Bounds are doubles in the source; here
    they are reals, and the only arithmetic done on them is the midpoint of the
    cut coordinate. */
module KdTree {

  type Vec3 = s: seq<real> | |s| == 3 witness [0.0, 0.0, 0.0]

  datatype Region = Region(dim: int, minBounds: Vec3, maxBounds: Vec3, minData: Vec3, maxData: Vec3, numPoints: int)

  /** Children are always added in pairs (AddChildNodes), so a node has two or none. */
  datatype KdNode = Leaf(region: Region) | Split(region: Region, left: KdNode, right: KdNode)

  /** The dim of a node that was never cut; the builder reads a dim below 3 as "this
      process computed the node". */
  const NoCut := 3

  /** The region FillOutTree gives the nodes it adds: bounds, data bounds and point
      count all -1. */
  const PlaceholderRegion := Region(NoCut, [-1.0, -1.0, -1.0], [-1.0, -1.0, -1.0], [-1.0, -1.0, -1.0], [-1.0, -1.0, -1.0], -1)

  function WithRegion(t: KdNode, x: Region): (u: KdNode)
  {
    match t
    case Leaf(_) => Leaf(x)
    case Split(_, l, r) => Split(x, l, r)
  }

  // ---------------------------------------------------------------------------
  // ComputeDepth

  /** A path of left (false) and right (true) steps from t that ends at a leaf. */
  predicate IsLeafPath(t: KdNode, p: seq<bool>)
    decreases |p|
  {
    if |p| == 0 then t.Leaf?
    else t.Split? && IsLeafPath(if p[0] then t.right else t.left, p[1..])
  }

  /** ComputeDepth: the height of the tree, 0 for a single leaf. */
  function ComputeDepth(t: KdNode): (d: nat)
    ensures d == 0 <==> t.Leaf?
  {
    match t
    case Leaf(_) => 0
    case Split(_, l, r) =>
      var leftDepth, rightDepth := ComputeDepth(l), ComputeDepth(r);
      if leftDepth > rightDepth then leftDepth + 1 else rightDepth + 1
  }

  /** No leaf lies deeper than ComputeDepth. */
  lemma {:induction false} LeafPathsWithinDepth(t: KdNode, p: seq<bool>)
    requires IsLeafPath(t, p)
    ensures |p| <= ComputeDepth(t)
    decreases |p|
  {
    if |p| > 0 {
      LeafPathsWithinDepth(if p[0] then t.right else t.left, p[1..]);
    }
  }

  /** Some leaf lies exactly ComputeDepth deep. */
  lemma {:induction false} DeepestLeafPath(t: KdNode) returns (p: seq<bool>)
    ensures IsLeafPath(t, p) && |p| == ComputeDepth(t)
  {
    match t
    case Leaf(_) =>
      p := [];
    case Split(_, l, r) =>
      if ComputeDepth(l) > ComputeDepth(r) {
        var q := DeepestLeafPath(l);
        p := [false] + q;
        assert p[1..] == q;
      } else {
        var q := DeepestLeafPath(r);
        p := [true] + q;
        assert p[1..] == q;
      }
  }

  // ---------------------------------------------------------------------------
  // FillOutTree

  /** FillOutTree: give every leaf shallower than level placeholder children, down
      to that level.  Existing nodes are kept as they are. */
  function FillOutTree(t: KdNode, level: nat): (u: KdNode)
    ensures u.region == t.region
    ensures level > 0 ==> u.Split?
    decreases level
  {
    if level == 0 then
      t
    else
      var full := if t.Leaf? then Split(t.region, Leaf(PlaceholderRegion), Leaf(PlaceholderRegion)) else t;
      Split(full.region, FillOutTree(full.left, level - 1), FillOutTree(full.right, level - 1))
  }

  function Max(x: int, y: int): int
  {
    if x >= y then x else y
  }

  /** Every node of u is a placeholder. */
  predicate AllPlaceholders(u: KdNode)
  {
    u.region == PlaceholderRegion && (u.Split? ==> AllPlaceholders(u.left) && AllPlaceholders(u.right))
  }

  /** u is t with placeholder subtrees hung under some of t's leaves. */
  predicate Extends(t: KdNode, u: KdNode)
  {
    match t
    case Leaf(x) => u.region == x && (u.Split? ==> AllPlaceholders(u.left) && AllPlaceholders(u.right))
    case Split(x, l, r) => u.Split? && u.region == x && Extends(l, u.left) && Extends(r, u.right)
  }

  /** Every tree extends itself. */
  lemma {:induction false} ExtendsSelf(t: KdNode)
    ensures Extends(t, t)
  {
    match t
    case Leaf(_) =>
    case Split(_, l, r) =>
      ExtendsSelf(l);
      ExtendsSelf(r);
  }

  lemma {:induction false} FillOutPlaceholders(level: nat)
    ensures AllPlaceholders(FillOutTree(Leaf(PlaceholderRegion), level))
  {
    if level > 0 {
      FillOutPlaceholders(level - 1);
    }
  }

  /** After FillOutTree the depth is the larger of the old depth and the level. */
  lemma {:induction false} FillOutDepth(t: KdNode, level: nat)
    ensures ComputeDepth(FillOutTree(t, level)) == Max(ComputeDepth(t), level)
    decreases level
  {
    if level > 0 {
      var full := if t.Leaf? then Split(t.region, Leaf(PlaceholderRegion), Leaf(PlaceholderRegion)) else t;
      var u := FillOutTree(t, level);
      assert u.left == FillOutTree(full.left, level - 1) && u.right == FillOutTree(full.right, level - 1);
      FillOutDepth(full.left, level - 1);
      FillOutDepth(full.right, level - 1);
    }
  }

  /** After FillOutTree every leaf lies at least level deep. */
  lemma {:induction false} FillOutComplete(t: KdNode, level: nat, p: seq<bool>)
    requires IsLeafPath(FillOutTree(t, level), p)
    ensures |p| >= level
    decreases level
  {
    if level > 0 {
      var full := if t.Leaf? then Split(t.region, Leaf(PlaceholderRegion), Leaf(PlaceholderRegion)) else t;
      FillOutComplete(if p[0] then full.right else full.left, level - 1, p[1..]);
    }
  }

  /** FillOutTree keeps every existing node and adds only placeholders. */
  lemma {:induction false} FillOutExtends(t: KdNode, level: nat)
    ensures Extends(t, FillOutTree(t, level))
    decreases level
  {
    if level == 0 {
      ExtendsSelf(t);
    } else {
      match t
      case Leaf(_) =>
        FillOutPlaceholders(level - 1);
      case Split(_, l, r) =>
        FillOutExtends(l, level - 1);
        FillOutExtends(r, level - 1);
    }
  }

  // ---------------------------------------------------------------------------
  // PackData / UnpackData

  const PackedSize := 27

  /** The eight values PackData stores for axis i, at 3 + 8 * i onwards. */
  function AxisBlock(l: Region, r: Region, i: int): (block: seq<real>)
    requires 0 <= i < 3
    ensures |block| == 8
  {
    [l.minBounds[i], l.maxBounds[i], l.minData[i], l.maxData[i],
     r.minBounds[i], r.maxBounds[i], r.minData[i], r.maxData[i]]
  }

  /** PackData: a split node's cut axis, its children's point counts, and for each
      axis its children's bounds and data bounds, as 27 doubles. */
  function PackData(t: KdNode): (data: seq<real>)
    requires t.Split?
    ensures |data| == PackedSize
    ensures UnpackData(t, data) == t
  {
    var l, r := t.left.region, t.right.region;
    var data := [t.region.dim as real, l.numPoints as real, r.numPoints as real]
      + AxisBlock(l, r, 0) + AxisBlock(l, r, 1) + AxisBlock(l, r, 2);
    PackLayout(t, data);
    TruncOfInt(t.region.dim);
    TruncOfInt(l.numPoints);
    TruncOfInt(r.numPoints);
    data
  }

  /** The C conversion of a double to int: truncation toward zero. */
  function TruncToInt(x: real): int
  {
    if x >= 0.0 then x.Floor else -((-x).Floor)
  }

  /** Slot k of the axis blocks, for the three axes. */
  function Column(data: seq<real>, k: int): Vec3
    requires |data| == PackedSize && 0 <= k < 8
  {
    [data[3 + k], data[11 + k], data[19 + k]]
  }

  /** UnpackData: overwrite a split node's cut axis, its children's point counts,
      bounds and data bounds from 27 doubles.  Everything else is kept. */
  function UnpackData(t: KdNode, data: seq<real>): (u: KdNode)
    requires t.Split? && |data| == PackedSize
    ensures u.Split? && u.left.Split? == t.left.Split? && u.right.Split? == t.right.Split?
    ensures u.region == t.region.(dim := u.region.dim)
    ensures u.left == WithRegion(t.left, u.left.region) && u.right == WithRegion(t.right, u.right.region)
    ensures u.left.region.dim == t.left.region.dim && u.right.region.dim == t.right.region.dim
  {
    var l := t.left.region.(numPoints := TruncToInt(data[1]),
      minBounds := Column(data, 0), maxBounds := Column(data, 1), minData := Column(data, 2), maxData := Column(data, 3));
    var r := t.right.region.(numPoints := TruncToInt(data[2]),
      minBounds := Column(data, 4), maxBounds := Column(data, 5), minData := Column(data, 6), maxData := Column(data, 7));
    Split(t.region.(dim := TruncToInt(data[0])), WithRegion(t.left, l), WithRegion(t.right, r))
  }

  lemma TruncOfInt(n: int)
    ensures TruncToInt(n as real) == n
  {
  }

  /** Where PackData puts each value: slot k of axis i's block is column k's
      entry for axis i. */
  lemma PackLayout(t: KdNode, data: seq<real>)
    requires t.Split?
    requires data == [t.region.dim as real, t.left.region.numPoints as real, t.right.region.numPoints as real]
      + AxisBlock(t.left.region, t.right.region, 0) + AxisBlock(t.left.region, t.right.region, 1)
      + AxisBlock(t.left.region, t.right.region, 2)
    ensures |data| == PackedSize
    ensures var l, r := t.left.region, t.right.region;
      && data[0] == t.region.dim as real && data[1] == l.numPoints as real && data[2] == r.numPoints as real
      && Column(data, 0) == l.minBounds && Column(data, 1) == l.maxBounds
      && Column(data, 2) == l.minData && Column(data, 3) == l.maxData
      && Column(data, 4) == r.minBounds && Column(data, 5) == r.maxBounds
      && Column(data, 6) == r.minData && Column(data, 7) == r.maxData
  {
    var l, r := t.left.region, t.right.region;
    var h := [t.region.dim as real, l.numPoints as real, r.numPoints as real];
    var b0, b1, b2 := AxisBlock(l, r, 0), AxisBlock(l, r, 1), AxisBlock(l, r, 2);
    BlockOffsets(h, b0, b1, b2);
    forall c | 0 <= c < 8
      ensures Column(data, c) == [b0[c], b1[c], b2[c]]
    {
    }
    Triple(l.minBounds);
    Triple(l.maxBounds);
    Triple(l.minData);
    Triple(l.maxData);
    Triple(r.minBounds);
    Triple(r.maxBounds);
    Triple(r.minData);
    Triple(r.maxData);
  }

  lemma Triple(v: Vec3)
    ensures v == [v[0], v[1], v[2]]
  {
  }

  /** Where the three axis blocks sit after the three-value header. */
  lemma BlockOffsets(h: seq<real>, b0: seq<real>, b1: seq<real>, b2: seq<real>)
    requires |h| == 3 && |b0| == 8 && |b1| == 8 && |b2| == 8
    ensures var data := h + b0 + b1 + b2;
      && |data| == PackedSize && data[..3] == h
      && forall k | 0 <= k < 8 :: data[3 + k] == b0[k] && data[11 + k] == b1[k] && data[19 + k] == b2[k]
  {
  }

  predicate IsIntegral(x: real)
  {
    x == x.Floor as real
  }

  lemma TruncOfIntegral(x: real)
    requires IsIntegral(x)
    ensures TruncToInt(x) as real == x
  {
    var n := x.Floor;
    assert -x == (-n) as real;
    TruncOfInt(n);
  }

  /** Packing an unpacked record gives the record back, provided its first three
      values (dim and counts) are whole numbers, as PackData always writes them. */
  lemma PackUnpack(t: KdNode, data: seq<real>)
    requires t.Split? && |data| == PackedSize
    requires IsIntegral(data[0]) && IsIntegral(data[1]) && IsIntegral(data[2])
    ensures PackData(UnpackData(t, data)) == data
  {
    var u := UnpackData(t, data);
    PackLayout(u, PackData(u));
    UnpackFields(t, data);
    var packed := PackData(u);
    TruncOfIntegral(data[0]);
    TruncOfIntegral(data[1]);
    TruncOfIntegral(data[2]);
    forall c | 0 <= c < 8
      ensures Column(packed, c) == Column(data, c)
    {
      if c == 0 {} else if c == 1 {} else if c == 2 {} else if c == 3 {}
      else if c == 4 {} else if c == 5 {} else if c == 6 {} else {}
    }
    SameColumns(packed, data);
  }

  /** The fields UnpackData writes. */
  lemma UnpackFields(t: KdNode, data: seq<real>)
    requires t.Split? && |data| == PackedSize
    ensures var u, l, r := UnpackData(t, data), UnpackData(t, data).left.region, UnpackData(t, data).right.region;
      && u.region.dim == TruncToInt(data[0]) && l.numPoints == TruncToInt(data[1]) && r.numPoints == TruncToInt(data[2])
      && l.minBounds == Column(data, 0) && l.maxBounds == Column(data, 1)
      && l.minData == Column(data, 2) && l.maxData == Column(data, 3)
      && r.minBounds == Column(data, 4) && r.maxBounds == Column(data, 5)
      && r.minData == Column(data, 6) && r.maxData == Column(data, 7)
  {
  }

  /** Two records with the same header and the same columns are the same. */
  lemma SameColumns(a: seq<real>, b: seq<real>)
    requires |a| == |b| == PackedSize && a[0] == b[0] && a[1] == b[1] && a[2] == b[2]
    requires forall c | 0 <= c < 8 :: Column(a, c) == Column(b, c)
    ensures a == b
  {
    forall k | 0 <= k < PackedSize
      ensures a[k] == b[k]
    {
      if 3 <= k < 11 {
        assert Column(a, k - 3)[0] == Column(b, k - 3)[0];
      } else if 11 <= k < 19 {
        assert Column(a, k - 11)[1] == Column(b, k - 11)[1];
      } else if 19 <= k {
        assert Column(a, k - 19)[2] == Column(b, k - 19)[2];
      }
    }
  }

  // ---------------------------------------------------------------------------
  // CheckFixRegionBoundaries

  /** The children of a node with region x tile it exactly: the left child starts
      where x starts and the right ends where x ends on every axis; off the cut
      axis both span x; on the cut axis they meet. */
  predicate Adjacent(x: Region, l: Region, r: Region)
  {
    forall d | 0 <= d < 3 ::
      && l.minBounds[d] == x.minBounds[d]
      && r.maxBounds[d] == x.maxBounds[d]
      && (d != x.dim ==> l.maxBounds[d] == x.maxBounds[d] && r.minBounds[d] == x.minBounds[d])
      && (d == x.dim ==> l.maxBounds[d] == r.minBounds[d])
  }

  predicate AllAdjacent(t: KdNode)
  {
    t.Split? ==> Adjacent(t.region, t.left.region, t.right.region) && AllAdjacent(t.left) && AllAdjacent(t.right)
  }

  /** The children's bounds after one step of CheckFixRegionBoundaries; only
      bounds change, and on the cut axis the right child's minimum is trusted. */
  function FixChildren(x: Region, l: Region, r: Region): (lr: (Region, Region))
    ensures Adjacent(x, lr.0, lr.1)
    ensures lr.0 == l.(minBounds := lr.0.minBounds, maxBounds := lr.0.maxBounds)
    ensures lr.1 == r.(minBounds := lr.1.minBounds, maxBounds := lr.1.maxBounds)
    ensures 0 <= x.dim < 3 ==> lr.1.minBounds[x.dim] == r.minBounds[x.dim]
  {
    var lmax: Vec3 := seq(3, d requires 0 <= d < 3 => if d != x.dim then x.maxBounds[d] else r.minBounds[d]);
    var rmin: Vec3 := seq(3, d requires 0 <= d < 3 => if d != x.dim then x.minBounds[d] else r.minBounds[d]);
    (l.(minBounds := x.minBounds, maxBounds := lmax), r.(minBounds := rmin, maxBounds := x.maxBounds))
  }

  /** The subtree t with its own region replaced by x, and below it every pair of
      children made to tile its parent, from the top down. */
  function FixUnder(t: KdNode, x: Region): (u: KdNode)
    ensures u.region == x && u.Split? == t.Split?
  {
    match t
    case Leaf(_) => Leaf(x)
    case Split(_, l, r) =>
      var lr := FixChildren(x, l.region, r.region);
      Split(x, FixUnder(l, lr.0), FixUnder(r, lr.1))
  }

  /** CheckFixRegionBoundaries: from the root down, make every pair of children
      tile its parent.  The root's region is kept. */
  function CheckFixRegionBoundaries(t: KdNode): (u: KdNode)
    ensures u.region == t.region && u.Split? == t.Split?
    ensures AllAdjacent(u)
    ensures AllAdjacent(t) ==> u == t
  {
    FixMakesAdjacent(t, t.region);
    FixKeepsAdjacent(t);
    FixUnder(t, t.region)
  }

  /** Afterwards every internal node is tiled by its children. */
  lemma {:induction false} FixMakesAdjacent(t: KdNode, x: Region)
    ensures AllAdjacent(FixUnder(t, x))
  {
    match t
    case Leaf(_) =>
    case Split(_, l, r) =>
      var lr := FixChildren(x, l.region, r.region);
      FixMakesAdjacent(l, lr.0);
      FixMakesAdjacent(r, lr.1);
  }

  /** A tiled tree, given its own region, comes back unchanged. */
  lemma {:induction false} FixKeepsAdjacent(t: KdNode)
    ensures AllAdjacent(t) ==> FixUnder(t, t.region) == t
  {
    if AllAdjacent(t) {
      match t
      case Leaf(_) =>
      case Split(x, l, r) =>
        var lr := FixChildren(x, l.region, r.region);
        assert lr.0.minBounds == l.region.minBounds;
        assert lr.0.maxBounds == l.region.maxBounds;
        assert lr.1.minBounds == r.region.minBounds;
        assert lr.1.maxBounds == r.region.maxBounds;
        FixKeepsAdjacent(l);
        FixKeepsAdjacent(r);
    }
  }

  /** CheckFixRegionBoundaries keeps the root's region and the tree's shape, leaves
      every node tiled by its children, changes nothing in a tree already tiled,
      and so a second application changes nothing. */
  lemma FixProperties(t: KdNode)
    ensures CheckFixRegionBoundaries(t).region == t.region
    ensures AllAdjacent(CheckFixRegionBoundaries(t))
    ensures AllAdjacent(t) ==> CheckFixRegionBoundaries(t) == t
    ensures CheckFixRegionBoundaries(CheckFixRegionBoundaries(t)) == CheckFixRegionBoundaries(t)
  {
    FixKeepsAdjacent(CheckFixRegionBoundaries(t));
  }

  // ---------------------------------------------------------------------------
  // Breadth-first tags

  /** The tag BreadthFirstDivide gives the node reached by a path of left (false)
      and right (true) steps: 1 at the root, tag << 1 for a left child and
      (tag << 1) | 1 for a right child.  A node at depth n has a tag of n + 1
      bits, the leading one included. */
  function Tag(path: seq<bool>): (tag: int)
    ensures Pow2(|path|) <= tag < Pow2(|path| + 1)
  {
    if |path| == 0 then 1
    else 2 * Tag(path[..|path| - 1]) + (if path[|path| - 1] then 1 else 0)
  }

  function Pow2(n: nat): (r: nat)
    ensures r >= 1
  {
    if n == 0 then 1 else 2 * Pow2(n - 1)
  }

  /** The path a tag encodes: read the bits after the leading one. */
  function PathOfTag(tag: int): (path: seq<bool>)
    requires tag >= 1
    decreases tag
  {
    if tag == 1 then [] else PathOfTag(tag / 2) + [tag % 2 == 1]
  }

  /** Decoding a tag gives back the path. */
  lemma {:induction false} TagRoundTrip(path: seq<bool>)
    ensures PathOfTag(Tag(path)) == path
  {
    if |path| > 0 {
      var init, last := path[..|path| - 1], path[|path| - 1];
      TagRoundTrip(init);
      var t, b := Tag(init), if last then 1 else 0;
      assert Tag(path) == 2 * t + b;
      assert (2 * t + b) / 2 == t && ((2 * t + b) % 2 == 1) == last;
      assert init + [last] == path;
    }
  }

  /** Different nodes get different tags. */
  lemma TagInjective(p: seq<bool>, q: seq<bool>)
    requires Tag(p) == Tag(q)
    ensures p == q
  {
    TagRoundTrip(p);
    TagRoundTrip(q);
  }
}

=== FILE: partition.dfy ===
/** The two in-place three-way partitions of the parallel selector
    (vtkPKdTree::PartitionAboutOtherValue and vtkPKdTree::PartitionAboutMyValue),
    on the one-process path where every exchange is an ExchangeLocalVals. */
module Partition {
  import opened Points

  /** The closing pass shared by both partitions: every value in from..R is at least
      T; move the values equal to T to the front of that range.  The scan starts at
      I = from - 1 and J = R + 1 and swaps a non-T found from the left with a T found
      from the right.  Returns the first position holding a value above T. */
  method GatherEqual(a0: seq<Point>, from: int, R: int, dim: Axis, T: int)
    returns (a: seq<Point>, I: int)
    requires 0 <= from <= R + 1 <= |a0|
    requires forall k | from <= k <= R :: Coord(a0[k], dim) >= T
    ensures PermutedWithin(a0, a, from, R)
    ensures from <= I <= R + 1
    ensures forall k | from <= k < I :: Coord(a[k], dim) == T
    ensures forall k | I <= k <= R :: Coord(a[k], dim) > T
  {
    a := a0;
    I := from - 1;
    var J := R + 1;
    while I < J
      invariant from - 1 <= I <= J <= R + 1 && from <= J
      invariant I < from ==> J == R + 1
      invariant PermutedWithin(a0, a, from, R)
      invariant forall k | from <= k <= R :: Coord(a[k], dim) >= T
      invariant forall k | from <= k <= I && k < J :: Coord(a[k], dim) == T
      invariant forall k | J <= k <= R :: Coord(a[k], dim) > T
      decreases J - I
    {
      I := I + 1;
      while I < J
        invariant I <= J
        invariant forall k | from <= k < I :: Coord(a[k], dim) == T
      {
        if Coord(a[I], dim) != T {
          break;
        }
        I := I + 1;
      }
      if I == J {
        break;
      }
      J := J - 1;
      while J > I
        invariant I <= J
        invariant forall k | J < k <= R :: Coord(a[k], dim) > T
      {
        if Coord(a[J], dim) == T {
          break;
        }
        J := J - 1;
      }
      if I < J {
        a := ExchangeLocalVals(a, I, J);
      }
    }
  }

  /** The upward scan `while (++I < J)` of both partitions, started at I: stops at
      the first value at least T, or at J without looking at it. */
  method ScanUp(a: seq<Point>, I: int, J: int, dim: Axis, T: int) returns (i: int)
    requires 0 <= I && J < |a|
    ensures I <= i && (i <= J || i == I)
    ensures forall k | I <= k < i :: Coord(a[k], dim) < T
    ensures i < J ==> Coord(a[i], dim) >= T
  {
    i := I;
    while i < J && Coord(a[i], dim) < T
      invariant I <= i && (i <= J || i == I)
      invariant forall k | I <= k < i :: Coord(a[k], dim) < T
    {
      i := i + 1;
    }
  }

  /** The downward scan `while (--J > I)` of both partitions, started at J: stops at
      the first value below T, or at I.  Counts the values equal to T and above T
      that it passes over. */
  method ScanDown(a: seq<Point>, I: int, J: int, dim: Axis, T: int)
    returns (j: int, eq: nat, gt: nat)
    requires 0 <= I && J < |a|
    ensures j <= J && (I <= j || j == J)
    ensures I < j ==> Coord(a[j], dim) < T
    ensures eq + gt == J - j
    ensures forall k | j < k <= J :: Coord(a[k], dim) >= T
    ensures eq == 0 ==> forall k | j < k <= J :: Coord(a[k], dim) > T
    ensures gt == 0 ==> forall k | j < k <= J :: Coord(a[k], dim) == T
  {
    j, eq, gt := J, 0, 0;
    while j > I
      invariant j <= J && (I <= j || j == J)
      invariant eq + gt == J - j
      invariant forall k | j < k <= J :: Coord(a[k], dim) >= T
      invariant eq == 0 ==> forall k | j < k <= J :: Coord(a[k], dim) > T
      invariant gt == 0 ==> forall k | j < k <= J :: Coord(a[k], dim) == T
    {
      var v := Coord(a[j], dim);
      if v < T {
        break;
      }
      if v == T {
        eq := eq + 1;
      } else {
        gt := gt + 1;
      }
      j := j - 1;
    }
  }

  /** The state in which the crossing loop of PartitionAboutOtherValue starts and
      which each of its rounds restores: below T left of I, at least T right of J, a
      value at least T at I and one below T at J while they have not met, and, as
      long as no T was counted, no T among the positions already classified. */
  predicate CrossingState(a: seq<Point>, L: int, R: int, dim: Axis, T: int, I: int, J: int, numT: int)
    requires 0 <= L && R < |a|
  {
    && L <= I <= J + 1 && L - 1 <= J <= R
    && (forall k | L <= k < I :: Coord(a[k], dim) < T)
    && (forall k | J < k <= R :: Coord(a[k], dim) >= T)
    && (I <= J ==> Coord(a[I], dim) >= T)
    && (I < J ==> Coord(a[J], dim) < T)
    && (numT == 0 ==> (forall k | J < k <= R :: Coord(a[k], dim) != T) && (I <= J ==> Coord(a[I], dim) != T))
  }

  /** The opening of PartitionAboutOtherValue: classify the end values, then scan in
      from one end as their classes dictate.  When a counter reaches the size of the
      range, every value of the range is in that class; otherwise the crossing loop
      may start. */
  method OpeningScan(a0: seq<Point>, L: int, R: int, dim: Axis, T: int)
    returns (a: seq<Point>, I: int, J: int, numT: nat, numGreater: nat, numLess: nat)
    requires 0 <= L <= R < |a0|
    ensures PermutedWithin(a0, a, L, R)
    ensures numLess == R - L + 1 ==> forall k | L <= k <= R :: Coord(a[k], dim) < T
    ensures numT == R - L + 1 ==> forall k | L <= k <= R :: Coord(a[k], dim) == T
    ensures numGreater == R - L + 1 ==> forall k | L <= k <= R :: Coord(a[k], dim) > T
    ensures numLess != R - L + 1 && numT != R - L + 1 && numGreater != R - L + 1 ==>
              CrossingState(a, L, R, dim, T, I, J, numT)
  {
    a := a0;
    numT, numGreater, numLess := 0, 0, 0;
    var Lval := Coord(a[L], dim);
    if Lval == T {
      numT := numT + 1;
    } else if Lval > T {
      numGreater := numGreater + 1;
    } else {
      numLess := numLess + 1;
    }
    var Rval := Coord(a[R], dim);
    if Rval == T {
      numT := numT + 1;
    } else if Rval > T {
      numGreater := numGreater + 1;
    } else {
      numLess := numLess + 1;
    }

    I, J := L, R;
    if Lval >= T && Rval >= T {
      var eq, gt;
      J, eq, gt := ScanDown(a, I, R - 1, dim, T);
      numT, numGreater := numT + eq, numGreater + gt;
    } else if Lval < T && Rval < T {
      I := ScanUp(a, L + 1, J, dim, T);
      numLess := numLess + (I - L - 1);
      if I < J && Coord(a[I], dim) == T {
        numT := numT + 1;
      }
    } else if Lval < T && Rval >= T {
      a := ExchangeLocalVals(a, I, J);
    }
  }

  /** The crossing loop of PartitionAboutOtherValue: exchange the pair at I and J, scan
      up for a value at least T, scan down for one below T, until the scans meet.
      Afterwards I is the first position of the range holding a value at least T. */
  method CrossOther(a0: seq<Point>, L: int, R: int, dim: Axis, T: int, I0: int, J0: int, numT0: nat)
    returns (a: seq<Point>, I: int, numT: nat)
    requires 0 <= L && R < |a0|
    requires CrossingState(a0, L, R, dim, T, I0, J0, numT0)
    ensures PermutedWithin(a0, a, L, R)
    ensures L <= I <= R + 1
    ensures forall k | L <= k < I :: Coord(a[k], dim) < T
    ensures forall k | I <= k <= R :: Coord(a[k], dim) >= T
    ensures numT == 0 ==> forall k | I <= k <= R :: Coord(a[k], dim) > T
  {
    a, I, numT := a0, I0, numT0;
    var J := J0;
    while I < J
      invariant PermutedWithin(a0, a, L, R)
      invariant CrossingState(a, L, R, dim, T, I, J, numT)
      decreases J - I
    {
      a, I, J, numT := OtherRound(a, L, R, dim, T, I, J, numT);
    }
  }

  /** One round of the crossing loop of PartitionAboutOtherValue. */
  method OtherRound(a0: seq<Point>, L: int, R: int, dim: Axis, T: int, I0: int, J0: int, numT0: nat)
    returns (a: seq<Point>, I: int, J: int, numT: nat)
    requires 0 <= L && R < |a0|
    requires CrossingState(a0, L, R, dim, T, I0, J0, numT0) && I0 < J0
    ensures PermutedWithin(a0, a, L, R)
    ensures CrossingState(a, L, R, dim, T, I, J, numT)
    ensures I <= J ==> J - I < J0 - I0
  {
    a := ExchangeLocalVals(a0, I0, J0);
    numT := numT0;
    J := J0;
    I := ScanUp(a, I0 + 1, J, dim, T);
    if I < J && Coord(a[I], dim) == T {
      numT := numT + 1;
    }
    if I == J {
      return;
    }
    var eq, gt;
    J, eq, gt := ScanDown(a, I, J - 1, dim, T);
    numT := numT + eq;
  }

  /** PartitionAboutOtherValue: three-way partition of L..R about a value T that may
      or may not occur there.  Returns the first position equal to T and the first
      position above T. */
  method PartitionAboutOtherValue(a0: seq<Point>, L: int, R: int, T: int, dim: Axis)
    returns (a: seq<Point>, first: int, next: int)
    requires 0 <= L <= R + 1 <= |a0|
    ensures PermutedWithin(a0, a, L, R)
    ensures ThreeWay(a, L, R, dim, T, first, next)
  {
    var totalVals := R - L + 1;
    if totalVals == 0 {
      return a0, L, L;
    }
    var I, J, numT, numGreater, numLess;
    a, I, J, numT, numGreater, numLess := OpeningScan(a0, L, R, dim, T);
    if numLess == totalVals {
      return a, R + 1, R + 1;
    } else if numT == totalVals {
      return a, L, R + 1;
    } else if numGreater == totalVals {
      return a, L, L;
    }
    var a1 := a;
    a, I, numT := CrossOther(a, L, R, dim, T, I, J, numT);
    PermutedWithinTrans(a0, a1, a, L, R, L, R);
    if numT == 0 {
      return a, I, I;
    }
    // move the values equal to T to the front of I..R
    var a2 := a;
    first := I;
    a, next := GatherEqual(a, I, R, dim, T);
    PermutedWithinTrans(a0, a2, a, L, R, I, R);
  }

  /** The state in which the crossing loop of PartitionAboutMyValue starts and which
      each of its rounds restores.  Before the first round the pivot value T sits at
      one end of L..R, the other end holding a value on the wrong side of it; after
      a round L holds a value at most T, R one at least T, and one of them T.  `pv`
      is a position holding T and, unless a second T was noticed, the only one among
      the positions already classified. */
  predicate PivotState(a: seq<Point>, L: int, R: int, dim: Axis, T: int, I: int, J: int, pv: int, many: bool)
    requires 0 <= L && R < |a|
  {
    && L <= I <= J <= R
    && ((I == L && J == R) || (L < I && J < R))
    && (pv == L || pv == R) && Coord(a[pv], dim) == T
    && (I < J ==> Coord(a[I], dim) >= T && Coord(a[J], dim) <= T)
    && (L < I ==> Coord(a[L], dim) <= T && Coord(a[R], dim) >= T && Coord(a[J], dim) < T)
    && (forall k | L < k < I :: Coord(a[k], dim) < T)
    && (forall k | J < k < R :: Coord(a[k], dim) >= T)
    && (!many ==> forall k | L <= k <= R && (k <= I || J <= k) && k != pv :: Coord(a[k], dim) != T)
  }

  /** What the crossing loop of PartitionAboutMyValue leaves behind: J is the
      rightmost position below T (or L), L..J is at most T with only L possibly
      equal, the rest is at least T, and T sits at L or, right of J, at R. */
  predicate CrossedState(a: seq<Point>, L: int, R: int, dim: Axis, T: int, J: int, pv: int, many: bool)
    requires 0 <= L && R < |a|
  {
    && L <= J <= R
    && Coord(a[L], dim) <= T
    && (forall k | L < k <= J :: Coord(a[k], dim) < T)
    && (forall k | J < k <= R :: Coord(a[k], dim) >= T)
    && (pv == L || (pv == R && J < R)) && Coord(a[pv], dim) == T
    && (!many ==> forall k | L <= k <= R && k != pv :: Coord(a[k], dim) != T)
  }

  /** The opening of PartitionAboutMyValue: park the pivot value at L, and leave it
      there if the value at R is below it (or equal, which means T occurs twice);
      otherwise move it to R. */
  method ParkPivot(a0: seq<Point>, L: int, R: int, K: int, dim: Axis)
    returns (a: seq<Point>, ghost pv: int, many: bool)
    requires 0 <= L <= K <= R < |a0|
    ensures PermutedWithin(a0, a, L, R)
    ensures PivotState(a, L, R, dim, Coord(a0[K], dim), L, R, pv, many)
  {
    var T := Coord(a0[K], dim);
    many := false;
    a := ExchangeLocalVals(a0, L, K);
    pv := L;
    if Coord(a[R], dim) >= T {
      if Coord(a[R], dim) == T {
        many := true;
      } else {
        a := ExchangeLocalVals(a, R, L);
        pv := R;
      }
    }
  }

  /** One round of the crossing loop of PartitionAboutMyValue: exchange the pair at
      I and J, scan down for a value below T and, unless the scans met, up for one
      at least T.  Noticing a T on the way records that T occurs more than once. */
  method PivotRound(a0: seq<Point>, L: int, R: int, dim: Axis, T: int, I0: int, J0: int, ghost pv0: int, many0: bool)
    returns (a: seq<Point>, I: int, J: int, ghost pv: int, many: bool, met: bool)
    requires 0 <= L && R < |a0|
    requires PivotState(a0, L, R, dim, T, I0, J0, pv0, many0) && I0 < J0
    ensures PermutedWithin(a0, a, L, R)
    ensures met ==> CrossedState(a, L, R, dim, T, J, pv, many)
    ensures !met ==> PivotState(a, L, R, dim, T, I, J, pv, many) && J - I < J0 - I0
  {
    a := ExchangeLocalVals(a0, I0, J0);
    pv := if pv0 == I0 then J0 else if pv0 == J0 then I0 else pv0;
    I, J, many, met := ScanRound(a, L, R, dim, T, I0, J0, pv, many0);
  }

  /** The state right after the exchange of a round: L..I is at most T, below T
      except possibly at L, J..R at least T, and T still sits at L or R. */
  predicate SwappedState(a: seq<Point>, L: int, R: int, dim: Axis, T: int, I: int, J: int, pv: int, many: bool)
    requires 0 <= L && R < |a|
  {
    && L <= I < J <= R
    && (pv == L || pv == R) && Coord(a[pv], dim) == T
    && Coord(a[L], dim) <= T && Coord(a[R], dim) >= T
    && (forall k | L < k <= I :: Coord(a[k], dim) < T)
    && (forall k | J <= k < R :: Coord(a[k], dim) >= T)
    && (!many ==> forall k | L <= k <= R && (k <= I || J <= k) && k != pv :: Coord(a[k], dim) != T)
  }

  /** The scans of a round, after its exchange. */
  method ScanRound(a: seq<Point>, L: int, R: int, dim: Axis, T: int, I0: int, J0: int, ghost pv: int, many0: bool)
    returns (I: int, J: int, many: bool, met: bool)
    requires 0 <= L && R < |a|
    requires SwappedState(a, L, R, dim, T, I0, J0, pv, many0)
    ensures met ==> CrossedState(a, L, R, dim, T, J, pv, many)
    ensures !met ==> PivotState(a, L, R, dim, T, I, J, pv, many) && J - I < J0 - I0
  {
    many := many0;
    var eq, gt;
    J, eq, gt := ScanDown(a, I0, J0 - 1, dim, T);
    if eq > 0 {
      many := true;
    }
    I := I0;
    if I == J {
      met := true;
      return;
    }
    I := ScanUp(a, I + 1, J, dim, T);
    if I < J && Coord(a[I], dim) == T {
      many := true;
    }
    met := I == J;
  }

  /** The crossing loop of PartitionAboutMyValue. */
  method CrossMine(a0: seq<Point>, L: int, R: int, dim: Axis, T: int, ghost pv0: int, many0: bool)
    returns (a: seq<Point>, J: int, ghost pv: int, many: bool)
    requires 0 <= L && R < |a0|
    requires PivotState(a0, L, R, dim, T, L, R, pv0, many0)
    ensures PermutedWithin(a0, a, L, R)
    ensures CrossedState(a, L, R, dim, T, J, pv, many)
  {
    a, pv, many := a0, pv0, many0;
    var I;
    I, J := L, R;
    while I < J
      invariant PermutedWithin(a0, a, L, R)
      invariant PivotState(a, L, R, dim, T, I, J, pv, many)
      decreases J - I
    {
      var a1 := a;
      var met;
      a, I, J, pv, many, met := PivotRound(a, L, R, dim, T, I, J, pv, many);
      PermutedWithinTrans(a0, a1, a, L, R, L, R);
      if met {
        return;
      }
    }
  }

  /** The closing of PartitionAboutMyValue before the gathering pass: swap the pivot
      value into the slot just after the values below it.  The result is a
      three-way partition whose middle part starts with T; it holds only T unless T
      occurs more than once. */
  method PlacePivot(a0: seq<Point>, L: int, R: int, dim: Axis, T: int, J0: int, ghost pv: int, many: bool)
    returns (a: seq<Point>, J: int)
    requires 0 <= L && R < |a0|
    requires CrossedState(a0, L, R, dim, T, J0, pv, many)
    ensures PermutedWithin(a0, a, L, R)
    ensures L <= J <= R && Coord(a[J], dim) == T
    ensures forall k | L <= k < J :: Coord(a[k], dim) < T
    ensures forall k | J < k <= R :: Coord(a[k], dim) >= T
    ensures !many ==> forall k | J < k <= R :: Coord(a[k], dim) > T
  {
    J := J0;
    if Coord(a0[L], dim) == T {
      a := ExchangeLocalVals(a0, L, J);
    } else {
      J := J + 1;
      a := ExchangeLocalVals(a0, J, R);
    }
  }

  /** PartitionAboutMyValue: three-way partition of L..R about the value T found at
      position K.  The pivot is parked at L (or at R), the crossing loop runs, the
      pivot is swapped into the slot between the two halves, and, only if a second
      copy of T was seen, the closing pass gathers the copies after it. */
  method PartitionAboutMyValue(a0: seq<Point>, L: int, R: int, K: int, dim: Axis)
    returns (a: seq<Point>, first: int, next: int)
    requires 0 <= L <= K <= R < |a0|
    ensures PermutedWithin(a0, a, L, R)
    ensures ThreeWay(a, L, R, dim, Coord(a0[K], dim), first, next)
    ensures first < next
  {
    var T := Coord(a0[K], dim);
    ghost var pv;
    var many, J;
    a, pv, many := ParkPivot(a0, L, R, K, dim);
    var a1 := a;
    a, J, pv, many := CrossMine(a, L, R, dim, T, pv, many);
    PermutedWithinTrans(a0, a1, a, L, R, L, R);
    var a2 := a;
    a, J := PlacePivot(a, L, R, dim, T, J, pv, many);
    PermutedWithinTrans(a0, a2, a, L, R, L, R);
    first, next := J, J + 1;
    if many {
      var a3 := a;
      a, next := GatherEqual(a, J + 1, R, dim, T);
      PermutedWithinTrans(a0, a3, a, L, R, J + 1, R);
    }
  }
}

=== FILE: plot_points.dfy ===
/** The point scans of a 2-D scatter plot (vtkPlotPoints): the per-axis bounds
    that skip bad points, the list of bad points, the copy of the points sorted
    by x, and the box selection and tolerance search that run over that copy.
    Single-precision positions and double-precision bounds are modelled as
    reals. */
module PlotPoints {
  import opened Wrappers

  /** std::numeric_limits<double>::max(), the sentinel the bounds start from. */
  const DBL_MAX: real := 1.7976931348623157e308

  datatype Vec2 = Vec2(x: real, y: real)

  /** An entry of the sorted copy: a point and its index in the original order. */
  datatype Indexed = Indexed(index: nat, pos: Vec2)

  /** A value of a data column: finite, or one that vtkMath::IsInf or
      vtkMath::IsNan flags. */
  datatype Num = Finite(v: real) | Infinite | NaN

  // ---------------------------------------------------------------------------
  // Sorting by a key (std::sort under a key comparison)

  predicate SortedBy<T>(s: seq<T>, key: T -> real)
  {
    forall i, j :: 0 <= i < j < |s| ==> key(s[i]) <= key(s[j])
  }

  function InsertBy<T(==)>(s: seq<T>, e: T, key: T -> real): (r: seq<T>)
    requires SortedBy(s, key)
    ensures SortedBy(r, key)
    ensures multiset(r) == multiset(s) + multiset{e}
    ensures |r| == |s| + 1
    ensures r[0] == e || (|s| > 0 && r[0] == s[0])
  {
    if |s| == 0 then [e]
    else if key(e) <= key(s[0]) then [e] + s
    else
      assert s == [s[0]] + s[1..];
      [s[0]] + InsertBy(s[1..], e, key)
  }

  /** The result is ordered by key and holds the same elements as s, each as often. */
  function SortBy<T(==)>(s: seq<T>, key: T -> real): (r: seq<T>)
    ensures SortedBy(r, key)
    ensures multiset(r) == multiset(s)
    ensures |r| == |s|
  {
    if |s| == 0 then []
    else
      assert s == s[..|s| - 1] + [s[|s| - 1]];
      InsertBy(SortBy(s[..|s| - 1], key), s[|s| - 1], key)
  }

  predicate Distinct<T(==)>(s: seq<T>)
  {
    forall i, j :: 0 <= i < j < |s| ==> s[i] != s[j]
  }

  lemma {:induction false} DistinctCount<T>(s: seq<T>, e: T)
    requires Distinct(s)
    ensures multiset(s)[e] <= 1
    decreases |s|
  {
    if |s| > 0 {
      assert s == [s[0]] + s[1..];
      assert Distinct(s[1..]) by {
        forall i, j | 0 <= i < j < |s[1..]| ensures s[1..][i] != s[1..][j] {
          assert s[1..][i] == s[i + 1] && s[1..][j] == s[j + 1];
        }
      }
      DistinctCount(s[1..], e);
      if e == s[0] {
        assert e !in s[1..] by {
          forall k | 0 <= k < |s[1..]| ensures s[1..][k] != e {
            assert s[1..][k] == s[k + 1];
          }
        }
      }
    }
  }

  lemma TwoPositions<T>(s: seq<T>, i: int, j: int)
    requires 0 <= i < j < |s| && s[i] == s[j]
    ensures multiset(s)[s[i]] >= 2
  {
    assert s == s[..j] + s[j..];
    assert s[i] == s[..j][i];
    assert s[j] == s[j..][0];
  }

  /** Having the same elements as a duplicate-free sequence makes a sequence
      duplicate-free. */
  lemma DistinctPermutation<T>(s: seq<T>, t: seq<T>)
    requires multiset(s) == multiset(t) && Distinct(s)
    ensures Distinct(t)
  {
    forall i, j | 0 <= i < j < |t| ensures t[i] != t[j] {
      if t[i] == t[j] {
        TwoPositions(t, i, j);
        DistinctCount(s, t[i]);
        assert false;
      }
    }
  }

  // ---------------------------------------------------------------------------
  // The sorted copy of the points

  /** The VectorPIMPL constructor: each point paired with its index. */
  function Enumerate(pts: seq<Vec2>): (v: seq<Indexed>)
    ensures |v| == |pts|
    ensures forall i :: 0 <= i < |pts| ==> v[i].index == i && v[i].pos == pts[i]
  {
    seq(|pts|, i requires 0 <= i < |pts| => Indexed(i, pts[i]))
  }

  function XKey(e: Indexed): real
  {
    e.pos.x
  }

  /** v lists every point once, each with its original index. */
  predicate IndexesPoints(v: seq<Indexed>, pts: seq<Vec2>)
  {
    && |v| == |pts|
    && (forall k :: 0 <= k < |v| ==> v[k].index < |pts| && v[k].pos == pts[v[k].index])
    && (forall i :: 0 <= i < |pts| ==> Indexed(i, pts[i]) in v)
    && (forall k1, k2 :: 0 <= k1 < k2 < |v| ==> v[k1].index != v[k2].index)
  }

  lemma PermutationIndexes(v: seq<Indexed>, pts: seq<Vec2>)
    requires multiset(v) == multiset(Enumerate(pts))
    ensures IndexesPoints(v, pts)
  {
    var en := Enumerate(pts);
    assert |v| == |pts| by {
      assert |multiset(v)| == |v| && |multiset(en)| == |en|;
    }
    forall k | 0 <= k < |v| ensures v[k].index < |pts| && v[k].pos == pts[v[k].index] {
      assert v[k] in multiset(en);
      var i :| 0 <= i < |en| && en[i] == v[k];
    }
    forall i | 0 <= i < |pts| ensures Indexed(i, pts[i]) in v {
      assert en[i] in multiset(v);
    }
    assert Distinct(en) by {
      forall i, j | 0 <= i < j < |en| ensures en[i] != en[j] {
        assert en[i].index == i && en[j].index == j;
      }
    }
    DistinctPermutation(en, v);
  }

  /** CreateSortedPoints: the points paired with their indices, ordered by x.
      std::sort is not stable, so the order among equal x is not pinned down
      beyond this. */
  function CreateSortedPoints(pts: seq<Vec2>): (v: seq<Indexed>)
    ensures SortedBy(v, XKey)
    ensures IndexesPoints(v, pts)
  {
    var v := SortBy(Enumerate(pts), XKey);
    PermutationIndexes(v, pts);
    v
  }

  /** std::lower_bound under the x comparison: the first position whose x is
      not below key. */
  method LowerBound(v: seq<Indexed>, key: real) returns (lb: nat)
    requires SortedBy(v, XKey)
    ensures lb <= |v|
    ensures forall k :: 0 <= k < lb ==> XKey(v[k]) < key
    ensures forall k :: lb <= k < |v| ==> key <= XKey(v[k])
  {
    var lo, hi := 0, |v|;
    while lo < hi
      invariant 0 <= lo <= hi <= |v|
      invariant forall k :: 0 <= k < lo ==> XKey(v[k]) < key
      invariant forall k :: hi <= k < |v| ==> key <= XKey(v[k])
    {
      var mid := (lo + hi) / 2;
      if XKey(v[mid]) < key {
        lo := mid + 1;
      } else {
        hi := mid;
      }
    }
    lb := lo;
  }

  // ---------------------------------------------------------------------------
  // GetNearestPoint

  /** inRange: current lies strictly within tol of point on both axes. */
  predicate InRange(point: Vec2, tol: Vec2, current: Vec2)
  {
    && current.x > point.x - tol.x && current.x < point.x + tol.x
    && current.y > point.y - tol.y && current.y < point.y + tol.y
  }

  /** GetNearestPoint: -1 when there are no points or none lies within tol;
      otherwise the index of a point within tol, and of least x among them. */
  method GetNearestPoint(points: Option<seq<Vec2>>, point: Vec2, tol: Vec2) returns (r: int)
    ensures points.None? ==> r == -1
    ensures points.Some? ==>
              (r == -1 <==> forall i :: 0 <= i < |points.value| ==> !InRange(point, tol, points.value[i]))
    ensures r != -1 ==> points.Some? && 0 <= r < |points.value| && InRange(point, tol, points.value[r])
    ensures r != -1 ==> forall i :: 0 <= i < |points.value| && InRange(point, tol, points.value[i]) ==>
                          points.value[r].x <= points.value[i].x
  {
    if points.None? {
      return -1;
    }
    var pts := points.value;
    var v := CreateSortedPoints(pts);
    var k := ScanNearest(v, point, tol);
    if k == -1 {
      forall i | 0 <= i < |pts| ensures !InRange(point, tol, pts[i]) {
        var j :| 0 <= j < |v| && v[j] == Indexed(i, pts[i]);
      }
      return -1;
    }
    forall i | 0 <= i < |pts| && InRange(point, tol, pts[i]) ensures pts[v[k].index].x <= pts[i].x {
      var j :| 0 <= j < |v| && v[j] == Indexed(i, pts[i]);
      assert k <= j;
      assert XKey(v[k]) <= XKey(v[j]) || k == j;
    }
    return v[k].index;
  }

  /** The loop of GetNearestPoint over the sorted copy: from the lower bound of
      point.x - tol.x, the first entry within tol (so no earlier entry is within
      tol), or -1 once an entry lies right
      of point.x + tol.x or the copy ends. */
  method ScanNearest(v: seq<Indexed>, point: Vec2, tol: Vec2) returns (k: int)
    requires SortedBy(v, XKey)
    ensures -1 <= k < |v|
    ensures k == -1 <==> forall j :: 0 <= j < |v| ==> !InRange(point, tol, v[j].pos)
    ensures k != -1 ==> InRange(point, tol, v[k].pos)
    ensures k != -1 ==> forall j :: 0 <= j < k ==> !InRange(point, tol, v[j].pos)
  {
    var low := LowerBound(v, point.x - tol.x);
    var highX := point.x + tol.x;
    while low < |v|
      invariant low <= |v|
      invariant forall j :: 0 <= j < low ==> !InRange(point, tol, v[j].pos)
    {
      if InRange(point, tol, v[low].pos) {
        return low;
      } else if v[low].pos.x > highX {
        assert forall j :: low <= j < |v| ==> XKey(v[low]) <= XKey(v[j]);
        return -1;
      }
      low := low + 1;
    }
    return -1;
  }

  // ---------------------------------------------------------------------------
  // SelectPoints

  /** The closed box [lo, hi] on both axes. */
  predicate InBox(lo: Vec2, hi: Vec2, p: Vec2)
  {
    p.x >= lo.x && p.x <= hi.x && p.y >= lo.y && p.y <= hi.y
  }

  predicate StrictlyAscending(s: seq<int>)
  {
    forall i, j :: 0 <= i < j < |s| ==> s[i] < s[j]
  }

  function IntKey(i: int): real
  {
    i as real
  }

  /** The scan over the sorted copy from the lower bound of min.x: the indices of
      the entries in the box, in the order met, with a break at the first entry
      right of max.x that is not in the box. */
  method ScanBox(v: seq<Indexed>, pts: seq<Vec2>, min: Vec2, max: Vec2) returns (selected: seq<int>)
    requires SortedBy(v, XKey) && IndexesPoints(v, pts)
    ensures Distinct(selected)
    ensures forall i :: i in selected <==> 0 <= i < |pts| && InBox(min, max, pts[i])
  {
    var low := LowerBound(v, min.x);
    ghost var start := low;
    selected := [];
    while low < |v|
      invariant start <= low <= |v|
      invariant Distinct(selected)
      invariant forall e :: e in selected <==>
                  exists k :: start <= k < low && v[k].index == e && InBox(min, max, v[k].pos)
    {
      if InBox(min, max, v[low].pos) {
        var e := v[low].index;
        assert e !in selected;
        selected := selected + [e];
      } else if v[low].pos.x > max.x {
        assert forall k :: low <= k < |v| ==> !InBox(min, max, v[k].pos) by {
          assert forall k :: low <= k < |v| ==> XKey(v[low]) <= XKey(v[k]);
        }
        break;
      }
      low := low + 1;
    }
    assert forall k :: 0 <= k < |v| && InBox(min, max, v[k].pos) ==> start <= k < low;
    forall i | 0 <= i < |pts| && InBox(min, max, pts[i]) ensures i in selected {
      var k :| 0 <= k < |v| && v[k] == Indexed(i, pts[i]);
    }
  }

  /** SelectPoints: with no points, false and the selection untouched; otherwise
      the selection is exactly the indices of the points in the closed box
      [min, max], ascending, and the result says whether it is non-empty. */
  method SelectPoints(points: Option<seq<Vec2>>, selection: seq<int>, min: Vec2, max: Vec2)
    returns (selection': seq<int>, any: bool)
    ensures points.None? ==> selection' == selection && !any
    ensures points.Some? ==> StrictlyAscending(selection')
    ensures points.Some? ==>
              forall i :: i in selection' <==> 0 <= i < |points.value| && InBox(min, max, points.value[i])
    ensures any <==> points.Some? && |selection'| > 0
  {
    if points.None? {
      return selection, false;
    }
    var pts := points.value;
    var v := CreateSortedPoints(pts);
    var selected := ScanBox(v, pts, min, max);
    selection' := SortBy(selected, IntKey);
    SortedSelection(selected, selection');
    any := |selection'| > 0;
  }

  /** Sorting a duplicate-free list of indices orders it strictly and keeps its
      members. */
  lemma SortedSelection(selected: seq<int>, sorted: seq<int>)
    requires Distinct(selected) && multiset(sorted) == multiset(selected)
    requires SortedBy(sorted, IntKey)
    ensures StrictlyAscending(sorted)
    ensures forall i :: i in sorted <==> i in selected
  {
    DistinctPermutation(selected, sorted);
    forall i | i in sorted ensures i in selected {
      assert i in multiset(selected);
    }
    forall i | i in selected ensures i in sorted {
      assert i in multiset(sorted);
    }
    forall i, j | 0 <= i < j < |sorted| ensures sorted[i] < sorted[j] {
      assert IntKey(sorted[i]) <= IntKey(sorted[j]);
    }
  }

  // ---------------------------------------------------------------------------
  // ComputeBounds

  /** One step of the scan: bounds[0] < a ? bounds[0] : a, and the mirror image
      for the upper bound. */
  function Widen(b: (real, real), v: real): (real, real)
  {
    (if b.0 < v then b.0 else v, if b.1 > v then b.1 else v)
  }

  /** Reference fold of the scan over the first k values, skipping the indices
      listed in bad. */
  function FoldBounds(a: seq<real>, bad: seq<int>, k: nat): (real, real)
    requires k <= |a|
  {
    if k == 0 then (DBL_MAX, -DBL_MAX)
    else if k - 1 in bad then FoldBounds(a, bad, k - 1)
    else Widen(FoldBounds(a, bad, k - 1), a[k - 1])
  }

  /** b is the least and greatest of the values a[i], i < k, not listed in bad,
      with the sentinels DBL_MAX and -DBL_MAX as the bounds of no values. */
  predicate BoundsOver(a: seq<real>, bad: seq<int>, k: nat, b: (real, real))
    requires k <= |a|
  {
    && b.0 <= DBL_MAX && -DBL_MAX <= b.1
    && (forall i :: 0 <= i < k && i !in bad ==> b.0 <= a[i] <= b.1)
    && (b.0 == DBL_MAX || exists i :: 0 <= i < k && i !in bad && a[i] == b.0)
    && (b.1 == -DBL_MAX || exists i :: 0 <= i < k && i !in bad && a[i] == b.1)
  }

  lemma {:induction false} FoldBoundsMeaning(a: seq<real>, bad: seq<int>, k: nat)
    requires k <= |a|
    ensures BoundsOver(a, bad, k, FoldBounds(a, bad, k))
    decreases k
  {
    if k > 0 {
      FoldBoundsMeaning(a, bad, k - 1);
      var b := FoldBounds(a, bad, k - 1);
      if k - 1 !in bad {
        var w := Widen(b, a[k - 1]);
        if w.0 != DBL_MAX {
          if b.0 < a[k - 1] {
            var i :| 0 <= i < k - 1 && i !in bad && a[i] == b.0;
          }
        }
        if w.1 != -DBL_MAX {
          if b.1 > a[k - 1] {
            var i :| 0 <= i < k - 1 && i !in bad && a[i] == b.1;
          }
        }
      }
    }
  }

  /** ComputeBounds over all n values: their least and greatest, or the
      sentinels when n is zero. */
  method ComputeBounds(a: seq<real>) returns (lo: real, hi: real)
    ensures BoundsOver(a, [], |a|, (lo, hi))
    ensures |a| == 0 ==> lo == DBL_MAX && hi == -DBL_MAX
  {
    lo, hi := DBL_MAX, -DBL_MAX;
    var i := 0;
    while i < |a|
      invariant 0 <= i <= |a|
      invariant (lo, hi) == FoldBounds(a, [], i)
    {
      lo := if lo < a[i] then lo else a[i];
      hi := if hi > a[i] then hi else a[i];
      i := i + 1;
    }
    FoldBoundsMeaning(a, [], |a|);
  }

  /** A bad-point list for n points: strictly ascending indices below n. */
  predicate BadList(bad: seq<int>, n: nat)
  {
    && (forall j :: 0 <= j < |bad| ==> 0 <= bad[j] < n)
    && StrictlyAscending(bad)
  }

  lemma {:induction false} BadListLower(bad: seq<int>, n: nat, j: nat)
    requires BadList(bad, n) && j < |bad|
    ensures j <= bad[j]
    decreases j
  {
    if j > 0 {
      BadListLower(bad, n, j - 1);
    }
  }

  lemma {:induction false} BadListUpper(bad: seq<int>, n: nat, j: nat)
    requires BadList(bad, n) && j < |bad|
    ensures bad[j] <= n - |bad| + j
    decreases |bad| - j
  {
    if j + 1 < |bad| {
      BadListUpper(bad, n, j + 1);
    }
  }

  /** A bad-point list as long as the points lists every index: 0, 1, ..., n-1. */
  lemma AllBadList(bad: seq<int>, n: nat)
    requires BadList(bad, n) && |bad| == n
    ensures forall j :: 0 <= j < |bad| ==> bad[j] == j
  {
    forall j | 0 <= j < |bad| ensures bad[j] == j {
      BadListLower(bad, n, j);
      BadListUpper(bad, n, j);
    }
  }

  function MinNat(x: nat, y: nat): nat
  {
    if x < y then x else y
  }

  /** Between runs of the scan: the indices below start are done, end is the
      listed index (or n) that closes the next run, and bad[..i] is consumed. */
  predicate RunState(bad: seq<int>, n: nat, i: nat, start: nat, end: nat)
  {
    && i <= |bad| && start <= n + 1 && end <= n
    && (start <= end || start == n + 1)
    && (end < n ==> 0 < i && bad[i - 1] == end)
    && (forall j :: 0 <= j < i ==> bad[j] < start || bad[j] == end)
    && (forall j :: i <= j < |bad| ==> end < bad[j])
  }

  /** ComputeBounds with a bad-point list: an empty list is the plain scan; a list
      naming every point returns early and leaves the bounds as they were;
      otherwise the bounds of the values whose indices are not listed. */
  method ComputeBoundsSkipping(a: seq<real>, bad: seq<int>, lo0: real, hi0: real)
    returns (lo: real, hi: real)
    requires BadList(bad, |a|)
    ensures 0 < |bad| == |a| ==> lo == lo0 && hi == hi0
    ensures |bad| < |a| || |bad| == 0 ==> BoundsOver(a, bad, |a|, (lo, hi))
  {
    if |bad| == 0 {
      lo, hi := ComputeBounds(a);
      return;
    }
    var n := |a|;
    var start, end, i, allBad := FirstRun(a, bad);
    if allBad {
      return lo0, hi0;
    }
    lo, hi := DBL_MAX, -DBL_MAX;
    while start < n
      invariant RunState(bad, n, i, start, end)
      invariant (lo, hi) == FoldBounds(a, bad, MinNat(start, n))
      decreases n + 1 - start
    {
      lo, hi, start := ScanRange(a, bad, i, start, end, lo, hi);
      start, end, i := NextRun(a, bad, i, end);
    }
    FoldBoundsMeaning(a, bad, n);
  }

  /** The set-up of the scan: the indices 0, 1, ... listed at the head of bad are
      skipped, returning early when that covers every point; then the first run
      is closed by the next listed index or by n. */
  method FirstRun(a: seq<real>, bad: seq<int>) returns (start: nat, end: nat, i: nat, allBad: bool)
    requires BadList(bad, |a|) && |bad| > 0
    ensures allBad <==> |bad| == |a|
    ensures !allBad ==> start < |a| && RunState(bad, |a|, i, start, end)
    ensures !allBad ==> FoldBounds(a, bad, start) == (DBL_MAX, -DBL_MAX)
  {
    var n := |a|;
    if |bad| == n {
      AllBadList(bad, n);
    }
    start, end, i := 0, 0, 0;
    if bad[i] == 0 {
      while i < |bad| && i == bad[i]
        invariant 0 <= i <= |bad| && start == i && start <= n
        invariant forall j :: 0 <= j < i ==> bad[j] == j
        invariant FoldBounds(a, bad, start) == (DBL_MAX, -DBL_MAX)
      {
        start := bad[i] + 1;
        i := i + 1;
      }
      if start >= n {
        BadListUpper(bad, n, 0);
        return start, end, i, true;
      }
      if i < |bad| {
        BadListLower(bad, n, i);
      }
    }
    if i < |bad| {
      end := bad[i];
      i := i + 1;
    } else {
      end := n;
    }
    allBad := false;
  }

  /** The step between runs: the index closing the last run is skipped, then
      every listed index that follows on directly, and the next run is closed by
      the next listed index or by n. */
  method NextRun(a: seq<real>, bad: seq<int>, i0: nat, end0: nat) returns (start: nat, end: nat, i: nat)
    requires BadList(bad, |a|) && end0 <= |a| && i0 <= |bad|
    requires end0 < |a| ==> 0 < i0 && bad[i0 - 1] == end0
    requires forall j :: i0 <= j < |bad| ==> end0 < bad[j]
    ensures end0 < start && RunState(bad, |a|, i, start, end)
    ensures forall j :: 0 <= j < i0 ==> bad[j] < start
    ensures FoldBounds(a, bad, MinNat(start, |a|)) == FoldBounds(a, bad, end0)
    ensures forall k :: end0 <= k < MinNat(start, |a|) ==> k in bad
  {
    var n := |a|;
    i := i0;
    start := end0 + 1;
    while i < |bad| && start == bad[i]
      invariant i0 <= i <= |bad| && end0 < start <= n + 1
      invariant forall k :: end0 <= k < start && k < n ==> k in bad
      invariant FoldBounds(a, bad, MinNat(start, n)) == FoldBounds(a, bad, end0)
      invariant forall j :: 0 <= j < i ==> bad[j] < start
      invariant forall j :: i <= j < |bad| ==> start <= bad[j]
    {
      start := bad[i] + 1;
      i := i + 1;
    }
    if i < |bad| {
      end := bad[i];
      i := i + 1;
    } else {
      end := n;
    }
  }

  /** The inner scan over start..end, a run holding no listed index. */
  method ScanRange(a: seq<real>, bad: seq<int>, i: nat, start0: nat, end: nat, lo0: real, hi0: real)
    returns (lo: real, hi: real, start: nat)
    requires start0 <= end <= |a| && i <= |bad|
    requires (lo0, hi0) == FoldBounds(a, bad, start0)
    requires forall j :: 0 <= j < i ==> bad[j] < start0 || bad[j] == end
    requires forall j :: i <= j < |bad| ==> end < bad[j]
    ensures start == end
    ensures (lo, hi) == FoldBounds(a, bad, end)
  {
    lo, hi, start := lo0, hi0, start0;
    while start < end
      invariant start0 <= start <= end
      invariant (lo, hi) == FoldBounds(a, bad, start)
    {
      assert start !in bad;
      lo := if lo < a[start] then lo else a[start];
      hi := if hi > a[start] then hi else a[start];
      start := start + 1;
    }
  }

  // ---------------------------------------------------------------------------
  // FindBadPoints

  predicate IsBadValue(x: Num)
  {
    !x.Finite?
  }

  /** The data columns GetDataArrays hands over: no x column when the index
      serves as x. */
  datatype PlotArrays = PlotArrays(x: Option<seq<Num>>, y: seq<Num>)

  /** Point i is bad: its x value (when there is an x column) or its y value is
      infinite or NaN, or the valid-point mask holds 0 for it. */
  predicate BadPoint(arrays: PlotArrays, mask: Option<seq<int>>, i: nat)
    requires arrays.x.Some? ==> i < |arrays.x.value|
    requires i < |arrays.y|
    requires mask.Some? ==> i < |mask.value|
  {
    || (arrays.x.Some? && IsBadValue(arrays.x.value[i]))
    || IsBadValue(arrays.y[i])
    || (mask.Some? && mask.value[i] == 0)
  }

  /** SetBadPoints: add the indices below n whose value is infinite or NaN. */
  method SetBadPoints(data: seq<Num>, n: nat, bad: set<int>) returns (bad': set<int>)
    requires n <= |data|
    ensures forall i :: i in bad' <==> i in bad || (0 <= i < n && IsBadValue(data[i]))
  {
    bad' := bad;
    var i := 0;
    while i < n
      invariant 0 <= i <= n
      invariant forall j :: j in bad' <==> j in bad || (0 <= j < i && IsBadValue(data[j]))
    {
      if IsBadValue(data[i]) {
        bad' := bad' + {i};
      }
      i := i + 1;
    }
  }

  /** The ascending list a std::set below n is iterated in. */
  method AscendingList(bad: set<int>, n: nat) returns (list: seq<int>)
    requires forall i :: i in bad ==> 0 <= i < n
    ensures BadList(list, n)
    ensures forall i :: i in list <==> i in bad
  {
    list := [];
    var i := 0;
    while i < n
      invariant 0 <= i <= n
      invariant BadList(list, i)
      invariant forall j :: j in list <==> j in bad && j < i
    {
      if i in bad {
        list := list + [i];
      }
      i := i + 1;
    }
  }

  /** FindBadPoints: when the data columns are at hand, BadPoints becomes the
      ascending list of the bad points, or null when there are none; otherwise
      BadPoints is left as it was. */
  method FindBadPoints(n: nat, arrays: Option<PlotArrays>, mask: Option<seq<int>>, badPoints: Option<seq<int>>)
    returns (badPoints': Option<seq<int>>)
    requires arrays.Some? && arrays.value.x.Some? ==> n <= |arrays.value.x.value|
    requires arrays.Some? ==> n <= |arrays.value.y|
    requires mask.Some? ==> n <= |mask.value|
    ensures arrays.None? ==> badPoints' == badPoints
    ensures arrays.Some? ==>
              (badPoints'.None? <==> forall i :: 0 <= i < n ==> !BadPoint(arrays.value, mask, i))
    ensures arrays.Some? && badPoints'.Some? ==>
              && BadList(badPoints'.value, n)
              && forall i :: i in badPoints'.value <==> 0 <= i < n && BadPoint(arrays.value, mask, i)
  {
    if arrays.None? {
      return badPoints;
    }
    var cols := arrays.value;
    var bad: set<int> := {};
    if cols.x.Some? {
      bad := SetBadPoints(cols.x.value, n, bad);
    }
    bad := SetBadPoints(cols.y, n, bad);
    if mask.Some? {
      var i := 0;
      while i < n
        invariant 0 <= i <= n
        invariant forall j :: j in bad <==>
                    (0 <= j < n && ((cols.x.Some? && IsBadValue(cols.x.value[j])) || IsBadValue(cols.y[j])))
                    || (0 <= j < i && mask.value[j] == 0)
      {
        if mask.value[i] == 0 {
          bad := bad + {i};
        }
        i := i + 1;
      }
    }
    assert forall j :: j in bad <==> 0 <= j < n && BadPoint(cols, mask, j);
    if bad != {} {
      var list := AscendingList(bad, n);
      badPoints' := Some(list);
    } else {
      badPoints' := None;
    }
  }

  /** The bad-point list FindBadPoints leaves is one ComputeBounds accepts, and
      the bounds it then gives are those of the good points. */
  lemma BadPointsFeedBounds(n: nat, cols: PlotArrays, mask: Option<seq<int>>, list: seq<int>, a: seq<real>, lo: real, hi: real)
    requires |a| == n && n <= |cols.y|
    requires cols.x.Some? ==> n <= |cols.x.value|
    requires mask.Some? ==> n <= |mask.value|
    requires BadList(list, n)
    requires forall i :: i in list <==> 0 <= i < n && BadPoint(cols, mask, i)
    requires |list| < n && BoundsOver(a, list, n, (lo, hi))
    ensures forall i :: 0 <= i < n && !BadPoint(cols, mask, i) ==> lo <= a[i] <= hi
    ensures exists i :: 0 <= i < n && !BadPoint(cols, mask, i)
  {
    if forall i :: 0 <= i < n ==> BadPoint(cols, mask, i) {
      assert forall j :: 0 <= j < n ==> j in list;
      SubsetLength(list, n);
      assert false;
    }
  }

  /** In a strictly ascending list that holds every index up to v, v sits at
      position v or later. */
  lemma {:induction false} PositionAtLeast(list: seq<int>, n: nat, v: nat)
    requires BadList(list, n) && v < n
    requires forall j :: 0 <= j < n ==> j in list
    ensures exists m :: v <= m < |list| && list[m] == v
    decreases v
  {
    assert v in list;
    var m :| 0 <= m < |list| && list[m] == v;
    if v > 0 {
      PositionAtLeast(list, n, v - 1);
      var m' :| v - 1 <= m' < |list| && list[m'] == v - 1;
    }
  }

  /** A strictly ascending list below n that holds every index below n has n
      entries. */
  lemma SubsetLength(list: seq<int>, n: nat)
    requires BadList(list, n)
    requires forall j :: 0 <= j < n ==> j in list
    ensures |list| >= n
  {
    if n > 0 {
      PositionAtLeast(list, n, n - 1);
    }
  }
}

=== FILE: points.dfy ===
/** The global point array of the parallel k-d tree builder, seen from one process
    (or, equivalently, as one array spanning all processes).  A point is a triple of
    coordinates; the selection and partition code only ever compares coordinates
    along one axis, so integers stand in for the source's floats. */
module Points {

  type Point = (int, int, int)

  /** XDIM, YDIM and ZDIM. */
  type Axis = d: int | 0 <= d < 3

  function Coord(p: Point, dim: Axis): int
  {
    if dim == 0 then p.0 else if dim == 1 then p.1 else p.2
  }

  /** ExchangeLocalVals: swap the points at two global positions.  A position outside
      the array is reported as an error and nothing is exchanged. */
  function ExchangeLocalVals(a: seq<Point>, pos1: int, pos2: int): (b: seq<Point>)
    ensures |b| == |a|
    ensures multiset(b) == multiset(a)
    ensures 0 <= pos1 < |a| && 0 <= pos2 < |a| ==> b[pos1] == a[pos2] && b[pos2] == a[pos1]
    ensures forall k | 0 <= k < |a| && k != pos1 && k != pos2 :: b[k] == a[k]
    ensures !(0 <= pos1 < |a| && 0 <= pos2 < |a|) ==> b == a
  {
    if 0 <= pos1 < |a| && 0 <= pos2 < |a| then
      var b := a[pos1 := a[pos2]][pos2 := a[pos1]];
      b
    else
      a
  }

  /** `b` is `a` with only the positions L..R rearranged. */
  predicate PermutedWithin(a: seq<Point>, b: seq<Point>, L: int, R: int)
  {
    && |b| == |a|
    && multiset(b) == multiset(a)
    && forall k | 0 <= k < |a| && !(L <= k <= R) :: b[k] == a[k]
  }

  lemma PermutedWithinTrans(a: seq<Point>, b: seq<Point>, c: seq<Point>, L: int, R: int, L': int, R': int)
    requires PermutedWithin(a, b, L, R)
    requires PermutedWithin(b, c, L', R')
    requires L <= L' && R' <= R
    ensures PermutedWithin(a, c, L, R)
  {
  }

  /** The three-way partition that PartitionAboutMyValue and PartitionAboutOtherValue
      produce: values below T in L..I-1, equal to T in I..J-1, above T in J..R. */
  predicate ThreeWay(a: seq<Point>, L: int, R: int, dim: Axis, T: int, I: int, J: int)
    requires 0 <= L && R < |a|
  {
    && L <= I <= J <= R + 1
    && (forall k | L <= k < I :: Coord(a[k], dim) < T)
    && (forall k | I <= k < J :: Coord(a[k], dim) == T)
    && (forall k | J <= k <= R :: Coord(a[k], dim) > T)
  }

  /** A rearrangement of L..R keeps the multiset of that range, so every value now
      in the range was in the range before. */
  lemma PermutedWithinFrom(a: seq<Point>, b: seq<Point>, L: int, R: int, j: int)
    requires PermutedWithin(a, b, L, R)
    requires 0 <= L <= j <= R < |a|
    ensures exists i | L <= i <= R :: b[j] == a[i]
  {
    RangeMultiset(a, b, L, R);
    assert b[j] == b[L..R + 1][j - L];
    assert b[j] in multiset(a[L..R + 1]);
    var i :| 0 <= i < R + 1 - L && a[L..R + 1][i] == b[j];
    assert a[L + i] == b[j];
  }

  /** The range L..R holds the same multiset of points before and after. */
  lemma RangeMultiset(a: seq<Point>, b: seq<Point>, L: int, R: int)
    requires PermutedWithin(a, b, L, R)
    requires 0 <= L <= R < |a|
    ensures multiset(b[L..R + 1]) == multiset(a[L..R + 1])
  {
    assert a == a[..L] + a[L..R + 1] + a[R + 1..];
    assert b == b[..L] + b[L..R + 1] + b[R + 1..];
    assert a[..L] == b[..L];
    assert a[R + 1..] == b[R + 1..];
    var x, y := multiset(a[..L]), multiset(a[R + 1..]);
    assert multiset(a) == x + multiset(a[L..R + 1]) + y;
    assert multiset(b) == x + multiset(b[L..R + 1]) + y;
    var ma, mb := multiset(a[L..R + 1]), multiset(b[L..R + 1]);
    assert mb == (x + mb + y) - x - y;
    assert ma == (x + ma + y) - x - y;
  }
}

=== FILE: selection.dfy ===
/** Floyd and Rivest's SELECT as vtkPKdTree::_select runs it on one process, and
    vtkPKdTree::Select, which rolls the split index back to the first copy of a
    repeated pivot value. */
module Selection {
  import opened Points
  import opened Partition

  /** Every value of L0..R0 left of m is strictly below every value from m on. */
  predicate StrictSplit(a: seq<Point>, L0: int, R0: int, m: int, dim: Axis)
    requires 0 <= L0 && R0 < |a|
  {
    forall i, j | L0 <= i < m <= j <= R0 :: Coord(a[i], dim) < Coord(a[j], dim)
  }

  /** The outcome _select promises: within L0..R0 nothing left of K is above the value
      at K, nothing right of K is below it, and the copies of that value left of K
      form one run ending at K. */
  predicate SelectedAt(a: seq<Point>, L0: int, R0: int, K: int, dim: Axis)
    requires 0 <= L0 <= K <= R0 < |a|
  {
    && (forall i | L0 <= i < K :: Coord(a[i], dim) <= Coord(a[K], dim))
    && (forall j | K < j <= R0 :: Coord(a[j], dim) >= Coord(a[K], dim))
    && (forall i, j | L0 <= i <= j <= K && Coord(a[i], dim) == Coord(a[K], dim) :: Coord(a[j], dim) == Coord(a[K], dim))
  }

  /** A split point outside the rearranged range survives the rearrangement. */
  lemma {:induction false} StrictSplitKept(a: seq<Point>, b: seq<Point>, L0: int, R0: int, L: int, R: int, m: int, dim: Axis)
    requires 0 <= L0 <= L <= R <= R0 < |a|
    requires PermutedWithin(a, b, L, R)
    requires StrictSplit(a, L0, R0, m, dim)
    requires m <= L || R < m
    ensures StrictSplit(b, L0, R0, m, dim)
  {
    forall i, j | L0 <= i < m <= j <= R0
      ensures Coord(b[i], dim) < Coord(b[j], dim)
    {
      if L <= i <= R {
        PermutedWithinFrom(a, b, L, R, i);
      } else if L <= j <= R {
        PermutedWithinFrom(a, b, L, R, j);
      }
    }
  }

  /** After a three-way partition of L..R inside a range split strictly at L and at
      R + 1, the range is also split strictly where the T values start and where
      they end, and any position holding T is selected. */
  lemma {:induction false} ThreeWaySplits(a: seq<Point>, L0: int, R0: int, L: int, R: int, dim: Axis, T: int, I: int, J: int)
    requires 0 <= L0 <= L <= R <= R0 < |a|
    requires StrictSplit(a, L0, R0, L, dim) && StrictSplit(a, L0, R0, R + 1, dim)
    requires ThreeWay(a, L, R, dim, T, I, J)
    ensures StrictSplit(a, L0, R0, I, dim) && StrictSplit(a, L0, R0, J, dim)
    ensures forall K | I <= K < J :: SelectedAt(a, L0, R0, K, dim)
  {
    forall K | I <= K < J
      ensures SelectedAt(a, L0, R0, K, dim)
    {
      assert Coord(a[K], dim) == T;
      forall i | L0 <= i < K
        ensures Coord(a[i], dim) <= T
      {
        if i < L {
          assert Coord(a[i], dim) < Coord(a[K], dim);
        }
      }
      forall j | K < j <= R0
        ensures Coord(a[j], dim) >= T
      {
        if R < j {
          assert Coord(a[K], dim) < Coord(a[j], dim);
        }
      }
      forall i | L0 <= i < I
        ensures Coord(a[i], dim) < T
      {
        if i < L {
          assert Coord(a[i], dim) < Coord(a[K], dim);
        }
      }
    }
  }

  /** _select: rearrange L0..R0 so that position K holds the value of rank K - L0
      there, every value left of it no larger and every value right of it no
      smaller.  Each round partitions L..R about the value at K and keeps the part
      that contains K; the round that lands K among the copies of its value ends
      the loop by setting L to R. */
  method SelectKth(a0: seq<Point>, L0: int, R0: int, K: int, dim: Axis) returns (a: seq<Point>)
    requires 0 <= L0 <= K <= R0 < |a0|
    ensures PermutedWithin(a0, a, L0, R0)
    ensures SelectedAt(a, L0, R0, K, dim)
  {
    a := a0;
    var L, R := L0, R0;
    while R > L
      invariant L0 <= L && R <= R0 && L <= R
      invariant PermutedWithin(a0, a, L0, R0)
      invariant (L <= K <= R && StrictSplit(a, L0, R0, L, dim) && StrictSplit(a, L0, R0, R + 1, dim))
             || (L == R && SelectedAt(a, L0, R0, K, dim))
      decreases R - L
    {
      var a1 := a;
      var I, J;
      a, I, J := PartitionAboutMyValue(a, L, R, K, dim);
      PermutedWithinTrans(a0, a1, a, L0, R0, L, R);
      StrictSplitKept(a1, a, L0, R0, L, R, L, dim);
      StrictSplitKept(a1, a, L0, R0, L, R, R + 1, dim);
      ThreeWaySplits(a, L0, R0, L, R, dim, Coord(a1[K], dim), I, J);
      if K >= J {
        L := J;
      } else if K >= I {
        L := R;   // K is among the copies of T: done
      } else {
        R := I - 1;
      }
    }
    if L <= K <= R && StrictSplit(a, L0, R0, L, dim) && StrictSplit(a, L0, R0, R + 1, dim) {
      assert L == K == R;
      forall i, j | L0 <= i <= j <= K && Coord(a[i], dim) == Coord(a[K], dim)
        ensures Coord(a[j], dim) == Coord(a[K], dim)
      {
        assert i == K;
      }
    }
  }

  /** The index Select picks for a range of at least two points. */
  function SplitIndex(L: int, R: int): int
    requires 0 <= L
  {
    (R + L) / 2 + 1
  }

  // ---------------------------------------------------------------------------
  // When a range can be cut

  /** How many points of s lie strictly below v along dim. */
  function CountBelow(s: seq<Point>, dim: Axis, v: int): (n: nat)
    ensures n <= |s|
  {
    if |s| == 0 then 0 else (if Coord(s[0], dim) < v then 1 else 0) + CountBelow(s[1..], dim, v)
  }

  /** L..R cannot be cut along dim at or before the middle index K = SplitIndex(L, R):
      no value has between 1 and K - L of the range's points strictly below it.
      The predicate depends only on the multiset of points in L..R, so no
      rearrangement of the range changes it. */
  ghost predicate NoCutAlong(a: seq<Point>, L: int, R: int, dim: Axis)
    requires 0 <= L <= R < |a|
  {
    NoCutWithin(a[L..R + 1], dim, SplitIndex(L, R) - L)
  }

  /** No value has between 1 and m of the points of s strictly below it. */
  ghost predicate NoCutWithin(s: seq<Point>, dim: Axis, m: int)
  {
    forall v :: CountBelow(s, dim, v) == 0 || CountBelow(s, dim, v) > m
  }

  lemma {:induction false} CountBelowAppend(s: seq<Point>, t: seq<Point>, dim: Axis, v: int)
    ensures CountBelow(s + t, dim, v) == CountBelow(s, dim, v) + CountBelow(t, dim, v)
    decreases |s|
  {
    if |s| > 0 {
      assert (s + t)[0] == s[0];
      assert (s + t)[1..] == s[1..] + t;
      CountBelowAppend(s[1..], t, dim, v);
    } else {
      assert s + t == t;
    }
  }

  /** The count depends only on the multiset of points. */
  lemma {:induction false} CountBelowPermutation(s: seq<Point>, t: seq<Point>, dim: Axis, v: int)
    requires multiset(s) == multiset(t)
    ensures CountBelow(s, dim, v) == CountBelow(t, dim, v)
    decreases |s|
  {
    if |s| == 0 {
      assert |t| == |multiset(t)| == 0;
    } else {
      assert s[0] in multiset(t);
      var j :| 0 <= j < |t| && t[j] == s[0];
      var rest := RemoveAt(s, t, j);
      CountBelowPermutation(s[1..], rest, dim, v);
      CountBelowRemove(t, j, dim, v);
    }
  }

  /** Taking out of t a copy of s's first point leaves the rest of s, up to order. */
  lemma RemoveAt(s: seq<Point>, t: seq<Point>, j: int) returns (rest: seq<Point>)
    requires multiset(s) == multiset(t) && 0 < |s| && 0 <= j < |t| && t[j] == s[0]
    ensures rest == t[..j] + t[j + 1..] && multiset(rest) == multiset(s[1..])
  {
    var x := s[0];
    rest := t[..j] + t[j + 1..];
    assert t == t[..j] + [x] + t[j + 1..];
    assert s == [x] + s[1..];
    assert multiset(rest) + multiset{x} == multiset(t);
    assert multiset(s[1..]) + multiset{x} == multiset(s);
    assert multiset(rest) == multiset(rest) + multiset{x} - multiset{x};
  }

  /** Taking point j out of t lowers the count by one exactly when it lies below v. */
  lemma CountBelowRemove(t: seq<Point>, j: int, dim: Axis, v: int)
    requires 0 <= j < |t|
    ensures CountBelow(t, dim, v) == CountBelow(t[..j] + t[j + 1..], dim, v) + (if Coord(t[j], dim) < v then 1 else 0)
  {
    assert t == t[..j] + [t[j]] + t[j + 1..];
    CountBelowAppend(t[..j] + [t[j]], t[j + 1..], dim, v);
    CountBelowAppend(t[..j], [t[j]], dim, v);
    CountBelowAppend(t[..j], t[j + 1..], dim, v);
    assert [t[j]][1..] == [];
  }

  /** When the first n points lie below v, at least n do. */
  lemma {:induction false} CountBelowAtLeast(s: seq<Point>, n: nat, dim: Axis, v: int)
    requires n <= |s| && forall i | 0 <= i < n :: Coord(s[i], dim) < v
    ensures CountBelow(s, dim, v) >= n
    decreases n
  {
    if n > 0 {
      CountBelowAtLeast(s[1..], n - 1, dim, v);
    }
  }

  /** When no point from position n on lies below v, at most n do. */
  lemma {:induction false} CountBelowAtMost(s: seq<Point>, n: nat, dim: Axis, v: int)
    requires n <= |s| && forall i | n <= i < |s| :: Coord(s[i], dim) >= v
    ensures CountBelow(s, dim, v) <= n
    decreases |s|
  {
    if |s| > 0 {
      CountBelowAtMost(s[1..], if n == 0 then 0 else n - 1, dim, v);
    }
  }

  /** Rearranging L..R does not change whether it can be cut. */
  lemma NoCutKept(a: seq<Point>, b: seq<Point>, L: int, R: int, dim: Axis)
    requires 0 <= L <= R < |a| && PermutedWithin(a, b, L, R)
    ensures NoCutAlong(a, L, R, dim) <==> NoCutAlong(b, L, R, dim)
  {
    RangeMultiset(a, b, L, R);
    var sa, sb := a[L..R + 1], b[L..R + 1];
    forall v ensures CountBelow(sa, dim, v) == CountBelow(sb, dim, v) {
      CountBelowPermutation(sa, sb, dim, v);
    }
  }

  /** Select's two outcomes read as whether the range can be cut: a strict split
      at r in L+1..K, with r's value the least from r on, is a cut; a run of
      equal least values over L..K is none. */
  lemma SelectOutcome(a: seq<Point>, L: int, R: int, r: int, dim: Axis)
    requires 0 <= L < R < |a| && 0 <= r <= SplitIndex(L, R) <= R
    requires L < r ==> StrictSplit(a, L, R, r, dim) && forall j | r <= j <= R :: Coord(a[r], dim) <= Coord(a[j], dim)
    requires r <= L ==> && (forall k | L <= k <= R :: Coord(a[L], dim) <= Coord(a[k], dim))
                        && (forall k | L <= k <= SplitIndex(L, R) :: Coord(a[k], dim) == Coord(a[L], dim))
    ensures r <= L <==> NoCutAlong(a, L, R, dim)
  {
    var s, K := a[L..R + 1], SplitIndex(L, R);
    if L < r {
      var v := Coord(a[r], dim);
      CountBelowAtLeast(s, r - L, dim, v);
      CountBelowAtMost(s, r - L, dim, v);
      assert CountBelow(s, dim, v) == r - L;
    } else {
      var w := Coord(a[L], dim);
      forall v ensures CountBelow(s, dim, v) == 0 || CountBelow(s, dim, v) > K - L {
        if v <= w {
          CountBelowAtMost(s, 0, dim, v);
        } else {
          CountBelowAtLeast(s, K - L + 1, dim, v);
        }
      }
    }
  }

  /** Where the roll-back leaves a cut at m: m is at most K = SplitIndex(L, R), every
      coordinate from m to K is the value at m, which is the least from m on. */
  predicate RolledBack(a: seq<Point>, L: int, R: int, m: int, dim: Axis)
    requires 0 <= L <= m <= R < |a| && L < R
  {
    && m <= SplitIndex(L, R)
    && (forall k | m <= k <= SplitIndex(L, R) :: Coord(a[k], dim) == Coord(a[m], dim))
    && (forall j | m <= j <= R :: Coord(a[m], dim) <= Coord(a[j], dim))
  }

  /** Some index of lo..hi holds the least coordinate there. */
  lemma {:induction false} LeastAt(a: seq<Point>, lo: int, hi: int, dim: Axis) returns (j: int)
    requires 0 <= lo <= hi < |a|
    ensures lo <= j <= hi && forall k | lo <= k <= hi :: Coord(a[j], dim) <= Coord(a[k], dim)
    decreases hi - lo
  {
    if lo == hi {
      j := lo;
    } else {
      j := LeastAt(a, lo + 1, hi, dim);
      if Coord(a[lo], dim) < Coord(a[j], dim) {
        j := lo;
      }
    }
  }

  /** A strict split at an index in L+1..K is a cut. */
  lemma StrictSplitCuts(a: seq<Point>, L: int, R: int, m: int, dim: Axis)
    requires 0 <= L < m <= SplitIndex(L, R) <= R < |a|
    ensures StrictSplit(a, L, R, m, dim) ==> !NoCutAlong(a, L, R, dim)
  {
    if StrictSplit(a, L, R, m, dim) {
      var s := a[L..R + 1];
      var j := LeastAt(a, m, R, dim);
      var v := Coord(a[j], dim);
      CountBelowAtLeast(s, m - L, dim, v);
      CountBelowAtMost(s, m - L, dim, v);
      assert CountBelow(s, dim, v) == m - L;
    }
  }

  /** Two rearrangements of L..R that are each cut at a rolled-back strict split
      are cut at the same index: the index is fixed by the points of the range. */
  lemma CutIndexUnique(a0: seq<Point>, b: seq<Point>, c: seq<Point>, L: int, R: int, m1: int, m2: int, dim: Axis)
    requires 0 <= L < R < |a0| && PermutedWithin(a0, b, L, R) && PermutedWithin(a0, c, L, R)
    requires L < m1 <= R && StrictSplit(b, L, R, m1, dim) && RolledBack(b, L, R, m1, dim)
    requires L < m2 <= R && StrictSplit(c, L, R, m2, dim) && RolledBack(c, L, R, m2, dim)
    ensures m1 == m2
  {
    if m1 != m2 {
      var v1, v2 := Coord(b[m1], dim), Coord(c[m2], dim);
      var x1 := BelowCount(b, L, R, m1, dim);
      var x2 := BelowCount(c, L, R, m2, dim);
      RangeMultiset(a0, b, L, R);
      RangeMultiset(a0, c, L, R);
      var sb, sc := b[L..R + 1], c[L..R + 1];
      CountBelowPermutation(sb, sc, dim, v1);
      CountBelowPermutation(sb, sc, dim, v2);
      if v1 < v2 {
        CountBelowAtLeast(sb, SplitIndex(L, R) - L + 1, dim, v2);
      } else if v2 < v1 {
        CountBelowAtLeast(sc, SplitIndex(L, R) - L + 1, dim, v1);
      }
    }
  }

  /** At a rolled-back strict split m, exactly m - L points lie below the value at m. */
  lemma BelowCount(a: seq<Point>, L: int, R: int, m: int, dim: Axis) returns (n: nat)
    requires 0 <= L < m <= R < |a| && StrictSplit(a, L, R, m, dim) && RolledBack(a, L, R, m, dim)
    ensures n == CountBelow(a[L..R + 1], dim, Coord(a[m], dim)) == m - L
  {
    var s := a[L..R + 1];
    CountBelowAtLeast(s, m - L, dim, Coord(a[m], dim));
    CountBelowAtMost(s, m - L, dim, Coord(a[m], dim));
    n := m - L;
  }

  /** Select: split L..R along dim near its middle.  After _select places the value
      of middle rank at K, the index is rolled back over the copies of that value
      left of K, so that no value ends up on both sides.  On one process the scan
      back runs towards position 0 rather than stopping at L, so a range whose
      copies reach L yields an index of L or less, which the caller reads as
      "cannot split along dim". */
  method Select(a0: seq<Point>, dim: Axis, L: int, R: int) returns (a: seq<Point>, r: int)
    requires 0 <= L < R < |a0|
    ensures PermutedWithin(a0, a, L, R)
    ensures 0 <= r <= SplitIndex(L, R) <= R
    ensures L < r ==> StrictSplit(a, L, R, r, dim) && RolledBack(a, L, R, r, dim)
    ensures r <= L ==> forall k | L <= k <= SplitIndex(L, R) :: Coord(a[k], dim) == Coord(a[L], dim)
    ensures r <= L <==> NoCutAlong(a0, L, R, dim)
  {
    a := SelectKth(a0, L, R, SplitIndex(L, R), dim);
    r := RollBack(a, L, R, dim);
    SelectOutcome(a, L, R, r, dim);
    NoCutKept(a0, a, L, R, dim);
  }

  /** The roll-back after _select: K itself when the value left of K differs,
      otherwise the first of the copies of the value at K found scanning back. */
  method RollBack(a: seq<Point>, L: int, R: int, dim: Axis) returns (r: int)
    requires 0 <= L < R < |a| && SelectedAt(a, L, R, SplitIndex(L, R), dim)
    ensures 0 <= r <= SplitIndex(L, R) <= R
    ensures L < r ==> StrictSplit(a, L, R, r, dim) && RolledBack(a, L, R, r, dim)
    ensures r <= L ==> && (forall k | L <= k <= SplitIndex(L, R) :: Coord(a[k], dim) == Coord(a[L], dim))
                       && (forall k | L <= k <= R :: Coord(a[L], dim) <= Coord(a[k], dim))
  {
    var K := SplitIndex(L, R);
    var Kval := Coord(a[K], dim);
    var Kleftval := Coord(a[K - 1], dim);
    if Kleftval != Kval {
      assert StrictSplit(a, L, R, K, dim) by {
        forall i, j | L <= i < K <= j <= R
          ensures Coord(a[i], dim) < Coord(a[j], dim)
        {
          assert Coord(a[K - 1], dim) != Kval ==> Coord(a[i], dim) != Kval;
        }
      }
      return K;
    }
    // scan back over the copies of Kval, down to the start of the local array
    var firstKval := K - 1;
    var idx := K - 2;
    while idx >= 0 && Coord(a[idx], dim) >= Kval
      invariant -1 <= idx <= K - 2 && firstKval == idx + 1
      invariant forall k | idx < k <= K :: Coord(a[k], dim) >= Kval
    {
      firstKval := firstKval - 1;
      idx := idx - 1;
    }
    r := firstKval;
    if L < r {
      forall k | r <= k <= K
        ensures Coord(a[k], dim) == Kval
      {
      }
      forall i, j | L <= i < r <= j <= R
        ensures Coord(a[i], dim) < Coord(a[j], dim)
      {
        assert Coord(a[r - 1], dim) != Kval ==> Coord(a[i], dim) != Kval;
      }
    } else {
      assert forall k | L <= k <= K :: Coord(a[k], dim) == Kval;
    }
  }
}

=== FILE: tables.dfy ===
/** The process/region tables of the parallel k-d tree, derived from the matrix
    of cell counts: which processes hold cells of which regions (the data
    location map), how many processes each region has and how many regions each
    process has, the process list and cell count list of each region and the
    region list of each process.  The lists are filled through AddEntry, which
    appends to a list of fixed length whose used part ends at a -1. */
module ProcessTables {
  import opened Wrappers

  // ---------------------------------------------------------------------------
  // AddEntry

  /** The first free slot of a -1-terminated list: the first -1, or the length
      when every slot is used. */
  function FreeSlot(list: seq<int>): (i: nat)
    ensures i <= |list|
    ensures forall k | 0 <= k < i :: list[k] != -1
    ensures i < |list| ==> list[i] == -1
  {
    if |list| == 0 || list[0] == -1 then 0 else 1 + FreeSlot(list[1..])
  }

  /** The entries of a -1-terminated list. */
  function Entries(list: seq<int>): seq<int>
  {
    list[..FreeSlot(list)]
  }

  /** FreeSlot is the one position that ends the run of non-(-1) values. */
  lemma FreeSlotAt(list: seq<int>, i: nat)
    requires i <= |list|
    requires forall k | 0 <= k < i :: list[k] != -1
    requires i < |list| ==> list[i] == -1
    ensures FreeSlot(list) == i
  {
  }

  /** AddEntry: write id into the first free slot and mark the slot after it
      free; a full list is left as it is (the source's error case). */
  method AddEntry(list: seq<int>, id: int) returns (r: seq<int>)
    ensures |r| == |list|
    ensures FreeSlot(list) == |list| ==> r == list
    ensures FreeSlot(list) < |list| && id != -1 ==> Entries(r) == Entries(list) + [id]
  {
    var len := |list|;
    var i := 0;
    while i < len && list[i] != -1
      invariant 0 <= i <= len
      invariant forall k | 0 <= k < i :: list[k] != -1
    {
      i := i + 1;
    }
    FreeSlotAt(list, i);
    if i == len {
      return list;
    }
    r := list[i := id];
    i := i + 1;
    if i < len {
      r := r[i := -1];
    }
    if id != -1 {
      FreeSlotAt(r, i);
      assert r[..i] == list[..i - 1] + [id];
    }
  }

  /** A list whose first slot is free and which is long enough for n entries
      holds none yet, as CreateProcessCellCountData sets its lists up. */
  function EmptyList(n: nat): (list: seq<int>)
    ensures |list| == n && Entries(list) == [] && (n > 0 ==> FreeSlot(list) == 0)
  {
    if n == 0 then [] else [-1] + seq(n - 1, _ => 0)
  }

  /** A list whose entries fill it is its entries. */
  lemma FullList(list: seq<int>)
    requires |Entries(list)| == |list|
    ensures Entries(list) == list
  {
  }

  // ---------------------------------------------------------------------------
  // Reference definitions

  /** counts[p][r] is the number of cells of region r that process p holds. */
  predicate Matrix(counts: seq<seq<nat>>, nRegions: nat)
  {
    forall p | 0 <= p < |counts| :: |counts[p]| == nRegions
  }

  /** The processes below p holding cells of region reg, in ascending order. */
  function ProcsWithData(counts: seq<seq<nat>>, nRegions: nat, reg: int, p: nat): seq<int>
    requires Matrix(counts, nRegions) && 0 <= reg < nRegions && p <= |counts|
  {
    if p == 0 then []
    else ProcsWithData(counts, nRegions, reg, p - 1) + (if counts[p - 1][reg] > 0 then [p - 1] else [])
  }

  /** Their cell counts of region reg, in the same order. */
  function CountsWithData(counts: seq<seq<nat>>, nRegions: nat, reg: int, p: nat): seq<int>
    requires Matrix(counts, nRegions) && 0 <= reg < nRegions && p <= |counts|
  {
    if p == 0 then []
    else CountsWithData(counts, nRegions, reg, p - 1) + (if counts[p - 1][reg] > 0 then [counts[p - 1][reg] as int] else [])
  }

  /** The regions below r of which a process with cell counts row holds cells, in
      ascending order. */
  function RegionsWithData(row: seq<nat>, r: nat): (rs: seq<int>)
    requires r <= |row|
    ensures |rs| <= r && forall k | 0 <= k < |rs| :: 0 <= rs[k] < r
  {
    if r == 0 then [] else RegionsWithData(row, r - 1) + (if row[r - 1] > 0 then [r - 1] else [])
  }

  predicate Ascending(s: seq<int>)
  {
    forall i, j | 0 <= i < j < |s| :: s[i] < s[j]
  }

  /** ProcsWithData holds exactly the processes with cells of reg, ascending, and
      CountsWithData their counts, position by position. */
  lemma {:induction false} ProcsWithDataSpec(counts: seq<seq<nat>>, nRegions: nat, reg: int, p: nat)
    requires Matrix(counts, nRegions) && 0 <= reg < nRegions && p <= |counts|
    ensures var ps, cs := ProcsWithData(counts, nRegions, reg, p), CountsWithData(counts, nRegions, reg, p);
      && |ps| == |cs|
      && (forall q :: q in ps <==> 0 <= q < p && counts[q][reg] > 0)
      && Ascending(ps)
      && (forall k | 0 <= k < |ps| :: 0 <= ps[k] < |counts| && cs[k] == counts[ps[k]][reg] > 0)
  {
    ProcsMembers(counts, nRegions, reg, p);
    CountsAlongside(counts, nRegions, reg, p);
  }

  /** The membership and order half of ProcsWithDataSpec. */
  lemma {:induction false} ProcsMembers(counts: seq<seq<nat>>, nRegions: nat, reg: int, p: nat)
    requires Matrix(counts, nRegions) && 0 <= reg < nRegions && p <= |counts|
    ensures forall q :: q in ProcsWithData(counts, nRegions, reg, p) <==> 0 <= q < p && counts[q][reg] > 0
    ensures Ascending(ProcsWithData(counts, nRegions, reg, p))
  {
    if p > 0 {
      ProcsMembers(counts, nRegions, reg, p - 1);
      var ps := ProcsWithData(counts, nRegions, reg, p - 1);
      if counts[p - 1][reg] > 0 {
        var ps' := ps + [p - 1];
        forall i, j | 0 <= i < j < |ps'|
          ensures ps'[i] < ps'[j]
        {
          if j == |ps| {
            assert ps[i] in ps;
          }
        }
      }
    }
  }

  /** The pairing half of ProcsWithDataSpec: the counts list runs alongside the
      process list, holding each listed process's non-zero count. */
  lemma {:induction false} CountsAlongside(counts: seq<seq<nat>>, nRegions: nat, reg: int, p: nat)
    requires Matrix(counts, nRegions) && 0 <= reg < nRegions && p <= |counts|
    ensures var ps, cs := ProcsWithData(counts, nRegions, reg, p), CountsWithData(counts, nRegions, reg, p);
      && |ps| == |cs|
      && (forall k | 0 <= k < |ps| :: 0 <= ps[k] < p && cs[k] == counts[ps[k]][reg] > 0)
  {
    if p > 0 {
      CountsAlongside(counts, nRegions, reg, p - 1);
    }
  }

  /** RegionsWithData holds exactly the regions with cells, ascending. */
  lemma {:induction false} RegionsWithDataSpec(row: seq<nat>, r: nat)
    requires r <= |row|
    ensures forall s :: s in RegionsWithData(row, r) <==> 0 <= s < r && row[s] > 0
    ensures Ascending(RegionsWithData(row, r))
  {
    if r > 0 {
      RegionsWithDataSpec(row, r - 1);
      var rs := RegionsWithData(row, r - 1);
      if row[r - 1] > 0 {
        var rs' := rs + [r - 1];
        forall i, j | 0 <= i < j < |rs'|
          ensures rs'[i] < rs'[j]
        {
          if j == |rs| {
            assert rs[i] in rs;
          }
        }
      }
    }
  }

  /** Every region listed by RegionsWithData is one the process holds cells of. */
  lemma {:induction false} RegionsHaveData(row: seq<nat>, r: nat)
    requires r <= |row|
    ensures forall k | 0 <= k < |RegionsWithData(row, r)| :: row[RegionsWithData(row, r)[k]] > 0
  {
    if r > 0 {
      RegionsHaveData(row, r - 1);
    }
  }

  /** Before process p adds itself to region reg, the list has room: it ends up
      longer than it is now. */
  lemma {:induction false} ProcsGrow(counts: seq<seq<nat>>, nRegions: nat, reg: int, p: nat, q: nat)
    requires Matrix(counts, nRegions) && 0 <= reg < nRegions && p <= q <= |counts|
    ensures |ProcsWithData(counts, nRegions, reg, p)| <= |ProcsWithData(counts, nRegions, reg, q)|
    ensures p < q && counts[p][reg] > 0 ==>
      |ProcsWithData(counts, nRegions, reg, p)| < |ProcsWithData(counts, nRegions, reg, q)|
    decreases q - p
  {
    if p < q {
      ProcsGrow(counts, nRegions, reg, p + 1, q);
    }
  }

  lemma {:induction false} RegionsGrow(row: seq<nat>, r: nat, s: nat)
    requires r <= s <= |row|
    ensures |RegionsWithData(row, r)| <= |RegionsWithData(row, s)|
    ensures r < s && row[r] > 0 ==> |RegionsWithData(row, r)| < |RegionsWithData(row, s)|
    decreases s - r
  {
    if r < s {
      RegionsGrow(row, r + 1, s);
    }
  }

  // ---------------------------------------------------------------------------
  // CreateProcessCellCountData

  datatype Tables = Tables(
    nRegions: nat,
    dataLocationMap: seq<seq<bool>>,
    numProcessesInRegion: seq<nat>,
    numRegionsInProcess: seq<nat>,
    processList: seq<seq<int>>,
    cellCountList: seq<seq<int>>,
    parallelRegionList: seq<seq<int>>)

  /** The tables as CreateProcessCellCountData leaves them for the cell count
      matrix counts: a process has data in a region when it holds a cell of it;
      each region lists its processes in rank order with their cell counts, and
      each process its regions in ascending order. */
  predicate BuiltFrom(t: Tables, counts: seq<seq<nat>>)
  {
    && Matrix(counts, t.nRegions)
    && |t.dataLocationMap| == |counts|
    && (forall p | 0 <= p < |counts| :: |t.dataLocationMap[p]| == t.nRegions)
    && (forall p, r | 0 <= p < |counts| && 0 <= r < t.nRegions :: t.dataLocationMap[p][r] == (counts[p][r] > 0))
    && |t.numProcessesInRegion| == |t.processList| == |t.cellCountList| == t.nRegions
    && |t.numRegionsInProcess| == |t.parallelRegionList| == |counts|
    && (forall r | 0 <= r < t.nRegions ::
          && t.processList[r] == ProcsWithData(counts, t.nRegions, r, |counts|)
          && t.cellCountList[r] == CountsWithData(counts, t.nRegions, r, |counts|)
          && t.numProcessesInRegion[r] == |t.processList[r]|)
    && (forall p | 0 <= p < |counts| ::
          && t.parallelRegionList[p] == RegionsWithData(counts[p], t.nRegions)
          && t.numRegionsInProcess[p] == |t.parallelRegionList[p]|)
  }

  /** The first pass: count the processes of each region and the regions of each
      process, walking the data location map process by process. */
  method CountData(counts: seq<seq<nat>>, nRegions: nat) returns (perRegion: seq<nat>, perProcess: seq<nat>)
    requires Matrix(counts, nRegions)
    ensures |perRegion| == nRegions && |perProcess| == |counts|
    ensures forall r | 0 <= r < nRegions :: perRegion[r] == |ProcsWithData(counts, nRegions, r, |counts|)|
    ensures forall p | 0 <= p < |counts| :: perProcess[p] == |RegionsWithData(counts[p], nRegions)|
  {
    perRegion := seq(nRegions, _ => 0);
    perProcess := seq(|counts|, _ => 0);
    var proc := 0;
    while proc < |counts|
      invariant 0 <= proc <= |counts|
      invariant |perRegion| == nRegions && |perProcess| == |counts|
      invariant forall r {:trigger perRegion[r]} | 0 <= r < nRegions :: perRegion[r] == |ProcsWithData(counts, nRegions, r, proc)|
      invariant forall p {:trigger perProcess[p]} | 0 <= p < proc :: perProcess[p] == |RegionsWithData(counts[p], nRegions)|
    {
      var nRegs;
      perRegion, nRegs := CountRow(counts, nRegions, perRegion, proc);
      perProcess := perProcess[proc := nRegs];
      proc := proc + 1;
    }
  }

  /** One process's turn in CountData: each region it holds cells of gains a
      process, and the process counts those regions. */
  method CountRow(counts: seq<seq<nat>>, nRegions: nat, perRegion0: seq<nat>, proc: nat)
    returns (perRegion: seq<nat>, nRegs: nat)
    requires Matrix(counts, nRegions) && proc < |counts|
    requires |perRegion0| == nRegions
    requires forall r | 0 <= r < nRegions :: perRegion0[r] == |ProcsWithData(counts, nRegions, r, proc)|
    ensures |perRegion| == nRegions
    ensures forall r | 0 <= r < nRegions :: perRegion[r] == |ProcsWithData(counts, nRegions, r, proc + 1)|
    ensures nRegs == |RegionsWithData(counts[proc], nRegions)|
  {
    perRegion := perRegion0;
    nRegs := 0;
    var reg := 0;
    while reg < nRegions
      invariant 0 <= reg <= nRegions && |perRegion| == nRegions
      invariant forall r {:trigger perRegion[r]} | 0 <= r < reg :: perRegion[r] == |ProcsWithData(counts, nRegions, r, proc + 1)|
      invariant forall r {:trigger perRegion[r]} | reg <= r < nRegions :: perRegion[r] == |ProcsWithData(counts, nRegions, r, proc)|
      invariant nRegs == |RegionsWithData(counts[proc], reg)|
    {
      if counts[proc][reg] > 0 {
        perRegion := perRegion[reg := perRegion[reg] + 1];
        nRegs := nRegs + 1;
      }
      reg := reg + 1;
    }
  }

  /** The fill of the region lists: for every process in rank order and every
      region it has cells of, AddEntry appends the process id (or, for the cell
      count lists, its cell count) to the region's list, which was allotted one
      slot per process of the region. */
  method FillRegionLists(counts: seq<seq<nat>>, nRegions: nat, perRegion: seq<nat>, cellCounts: bool)
    returns (lists: seq<seq<int>>)
    requires Matrix(counts, nRegions)
    requires |perRegion| == nRegions
    requires forall r | 0 <= r < nRegions :: perRegion[r] == |ProcsWithData(counts, nRegions, r, |counts|)|
    ensures |lists| == nRegions
    ensures forall r | 0 <= r < nRegions :: lists[r] == Expected(counts, nRegions, r, |counts|, cellCounts)
  {
    lists := seq(nRegions, r requires 0 <= r < nRegions => EmptyList(perRegion[r]));
    var proc := 0;
    while proc < |counts|
      invariant 0 <= proc <= |counts| && |lists| == nRegions
      invariant forall r | 0 <= r < nRegions :: |lists[r]| == perRegion[r]
      invariant forall r {:trigger lists[r]} | 0 <= r < nRegions :: Entries(lists[r]) == Expected(counts, nRegions, r, proc, cellCounts)
    {
      lists := FillRegionRow(counts, nRegions, perRegion, cellCounts, lists, proc);
      proc := proc + 1;
    }
    forall r | 0 <= r < nRegions
      ensures lists[r] == Expected(counts, nRegions, r, |counts|, cellCounts)
    {
      CountsAlongside(counts, nRegions, r, |counts|);
      FullList(lists[r]);
    }
  }

  /** One process's turn in FillRegionLists. */
  method FillRegionRow(counts: seq<seq<nat>>, nRegions: nat, perRegion: seq<nat>, cellCounts: bool,
                       lists0: seq<seq<int>>, proc: nat)
    returns (lists: seq<seq<int>>)
    requires Matrix(counts, nRegions) && proc < |counts|
    requires |perRegion| == |lists0| == nRegions
    requires forall r | 0 <= r < nRegions :: perRegion[r] == |ProcsWithData(counts, nRegions, r, |counts|)|
    requires forall r | 0 <= r < nRegions :: |lists0[r]| == perRegion[r]
    requires forall r | 0 <= r < nRegions :: Entries(lists0[r]) == Expected(counts, nRegions, r, proc, cellCounts)
    ensures |lists| == nRegions
    ensures forall r | 0 <= r < nRegions :: |lists[r]| == perRegion[r]
    ensures forall r | 0 <= r < nRegions :: Entries(lists[r]) == Expected(counts, nRegions, r, proc + 1, cellCounts)
  {
    lists := lists0;
    var reg := 0;
    while reg < nRegions
      invariant 0 <= reg <= nRegions && |lists| == nRegions
      invariant forall r | 0 <= r < nRegions :: |lists[r]| == perRegion[r]
      invariant forall r {:trigger lists[r]} | 0 <= r < reg :: Entries(lists[r]) == Expected(counts, nRegions, r, proc + 1, cellCounts)
      invariant forall r {:trigger lists[r]} | reg <= r < nRegions :: Entries(lists[r]) == Expected(counts, nRegions, r, proc, cellCounts)
    {
      if counts[proc][reg] > 0 {
        ProcsGrow(counts, nRegions, reg, proc, |counts|);
        CountsAlongside(counts, nRegions, reg, proc);
        var id := if cellCounts then counts[proc][reg] as int else proc;
        assert Expected(counts, nRegions, reg, proc + 1, cellCounts) == Expected(counts, nRegions, reg, proc, cellCounts) + [id];
        var list := AddEntry(lists[reg], id);
        lists := lists[reg := list];
      }
      reg := reg + 1;
    }
  }

  function Expected(counts: seq<seq<nat>>, nRegions: nat, reg: int, p: nat, cellCounts: bool): seq<int>
    requires Matrix(counts, nRegions) && 0 <= reg < nRegions && p <= |counts|
  {
    if cellCounts then CountsWithData(counts, nRegions, reg, p) else ProcsWithData(counts, nRegions, reg, p)
  }

  /** The fill of the process lists: every region a process has cells of is
      appended, in region order, to that process's list. */
  method FillProcessLists(counts: seq<seq<nat>>, nRegions: nat, perProcess: seq<nat>)
    returns (lists: seq<seq<int>>)
    requires Matrix(counts, nRegions)
    requires |perProcess| == |counts|
    requires forall p | 0 <= p < |counts| :: perProcess[p] == |RegionsWithData(counts[p], nRegions)|
    ensures |lists| == |counts|
    ensures forall p | 0 <= p < |counts| :: lists[p] == RegionsWithData(counts[p], nRegions)
  {
    lists := seq(|counts|, p requires 0 <= p < |counts| => EmptyList(perProcess[p]));
    var proc := 0;
    while proc < |counts|
      invariant 0 <= proc <= |counts| && |lists| == |counts|
      invariant forall p {:trigger lists[p]} | proc <= p < |counts| :: lists[p] == EmptyList(perProcess[p])
      invariant forall p {:trigger lists[p]} | 0 <= p < proc :: lists[p] == RegionsWithData(counts[p], nRegions)
    {
      var list := FillProcessRow(counts[proc], nRegions, lists[proc]);
      lists := lists[proc := list];
      proc := proc + 1;
    }
  }

  /** One process's turn in FillProcessLists: its list, allotted one slot per
      region it has cells of, ends up holding exactly those regions. */
  method FillProcessRow(row: seq<nat>, nRegions: nat, list0: seq<int>) returns (list: seq<int>)
    requires nRegions <= |row|
    requires |list0| == |RegionsWithData(row, nRegions)| && Entries(list0) == []
    ensures list == RegionsWithData(row, nRegions)
  {
    list := list0;
    var reg := 0;
    while reg < nRegions
      invariant 0 <= reg <= nRegions && |list| == |list0|
      invariant Entries(list) == RegionsWithData(row, reg)
    {
      if row[reg] > 0 {
        RegionsGrow(row, reg, nRegions);
        list := AddEntry(list, reg);
      }
      reg := reg + 1;
    }
    FullList(list);
  }

  /** CreateProcessCellCountData, from the cell count matrix on: mark where the
      data is, count, allot the lists and fill them. */
  method CreateProcessCellCountData(counts: seq<seq<nat>>, nRegions: nat) returns (t: Tables)
    requires Matrix(counts, nRegions)
    ensures BuiltFrom(t, counts) && t.nRegions == nRegions
  {
    var dataLocationMap := seq(|counts|, p requires 0 <= p < |counts| =>
      seq(nRegions, r requires 0 <= r < nRegions => counts[p][r] > 0));
    var perRegion, perProcess := CountData(counts, nRegions);
    var processList := FillRegionLists(counts, nRegions, perRegion, false);
    var parallelRegionList := FillProcessLists(counts, nRegions, perProcess);
    var cellCountList := FillRegionLists(counts, nRegions, perRegion, true);
    t := Tables(nRegions, dataLocationMap, perRegion, perProcess, processList, cellCountList, parallelRegionList);
  }

  // ---------------------------------------------------------------------------
  // Queries.  None stands for tables that were never built (or were freed).

  /** The ids the queries accept: a process below P and a region below the
      number of regions. */
  predicate ValidProcess(t: Option<Tables>, counts: seq<seq<nat>>, p: int)
  {
    t.Some? && 0 <= p < |counts|
  }

  predicate ValidRegion(t: Option<Tables>, r: int)
  {
    t.Some? && 0 <= r < t.value.nRegions
  }

  predicate Consistent(t: Option<Tables>, counts: seq<seq<nat>>)
  {
    t.Some? ==> BuiltFrom(t.value, counts)
  }

  /** HasData: 1 when process p holds cells of region r, 0 when it does not or
      the request is invalid. */
  function HasData(t: Option<Tables>, counts: seq<seq<nat>>, p: int, r: int): (h: int)
    requires Consistent(t, counts)
    ensures h == if ValidProcess(t, counts, p) && ValidRegion(t, r) && counts[p][r] > 0 then 1 else 0
  {
    if t.None? || p < 0 || p >= |counts| || r < 0 || r >= t.value.nRegions then 0
    else if t.value.dataLocationMap[p][r] then 1 else 0
  }

  /** GetTotalProcessesInRegion: how many processes hold cells of region r, 0 for
      an invalid request. */
  function GetTotalProcessesInRegion(t: Option<Tables>, counts: seq<seq<nat>>, r: int): (n: int)
    requires Consistent(t, counts)
    ensures !ValidRegion(t, r) ==> n == 0
    ensures ValidRegion(t, r) ==> n == |ProcsWithData(counts, t.value.nRegions, r, |counts|)|
  {
    if t.None? || r < 0 || r >= t.value.nRegions then 0 else t.value.numProcessesInRegion[r]
  }

  /** GetProcessListForRegion: the processes holding cells of region r, in rank
      order. */
  method GetProcessListForRegion(t: Option<Tables>, counts: seq<seq<nat>>, r: int) returns (n: int, procs: seq<int>)
    requires Consistent(t, counts)
    ensures n == |procs|
    ensures forall q :: q in procs <==> ValidRegion(t, r) && 0 <= q < |counts| && counts[q][r] > 0
    ensures Ascending(procs)
  {
    if t.None? || r < 0 || r >= t.value.nRegions {
      return 0, [];
    }
    n := t.value.numProcessesInRegion[r];
    procs := [];
    var i := 0;
    while i < n
      invariant 0 <= i <= n && procs == t.value.processList[r][..i]
    {
      procs := procs + [t.value.processList[r][i]];
      i := i + 1;
    }
    assert procs == t.value.processList[r];
    ProcsWithDataSpec(counts, t.value.nRegions, r, |counts|);
  }

  /** GetProcessesCellCountForRegion: the cell counts of region r of the processes
      holding it, in rank order, at most len of them.  The answer is the number
      copied, which is len itself when len is below the number of processes. */
  method GetProcessesCellCountForRegion(t: Option<Tables>, counts: seq<seq<nat>>, r: int, len: int)
    returns (n: int, cs: seq<int>)
    requires Consistent(t, counts)
    ensures !ValidRegion(t, r) ==> n == 0 && cs == []
    ensures ValidRegion(t, r) ==>
      var all := CountsWithData(counts, t.value.nRegions, r, |counts|);
      && n == (if len < |all| then len else |all|)
      && cs == all[..if n < 0 then 0 else n]
  {
    if t.None? || r < 0 || r >= t.value.nRegions {
      return 0, [];
    }
    var list := t.value.cellCountList[r];
    CountsAlongside(counts, t.value.nRegions, r, |counts|);
    n := if len < |list| then len else |list|;
    cs := [];
    var i := 0;
    while i < n
      invariant 0 <= i <= (if n < 0 then 0 else n) && cs == list[..i]
    {
      cs := cs + [list[i]];
      i := i + 1;
    }
  }

  /** GetProcessCellCountForRegion: the number of cells of region r that process p
      holds, found through the region's process list; 0 when p holds none or the
      request is invalid. */
  method GetProcessCellCountForRegion(t: Option<Tables>, counts: seq<seq<nat>>, p: int, r: int) returns (c: int)
    requires Consistent(t, counts)
    ensures c == if ValidProcess(t, counts, p) && ValidRegion(t, r) then counts[p][r] as int else 0
  {
    if t.None? || r < 0 || r >= t.value.nRegions || p < 0 || p >= |counts| {
      return 0;
    }
    var nRegions := t.value.nRegions;
    ProcsWithDataSpec(counts, nRegions, r, |counts|);
    var procs := t.value.processList[r];
    var nProcesses := t.value.numProcessesInRegion[r];
    var which := -1;
    var i := 0;
    while i < nProcesses
      invariant 0 <= i <= nProcesses
      invariant forall k | 0 <= k < i :: procs[k] != p
    {
      if procs[i] == p {
        which := i;
        break;
      }
      i := i + 1;
    }
    if which == -1 {
      assert p !in procs;
      return 0;
    }
    return t.value.cellCountList[r][which];
  }

  /** GetTotalRegionsForProcess: how many regions process p holds cells of. */
  function GetTotalRegionsForProcess(t: Option<Tables>, counts: seq<seq<nat>>, p: int): (n: int)
    requires Consistent(t, counts)
    ensures !ValidProcess(t, counts, p) ==> n == 0
    ensures ValidProcess(t, counts, p) ==> n == |RegionsWithData(counts[p], t.value.nRegions)|
  {
    if t.None? || p < 0 || p >= |counts| then 0 else t.value.numRegionsInProcess[p]
  }

  /** GetRegionListForProcess: the regions process p holds cells of, ascending. */
  method GetRegionListForProcess(t: Option<Tables>, counts: seq<seq<nat>>, p: int) returns (n: int, regions: seq<int>)
    requires Consistent(t, counts)
    ensures n == |regions|
    ensures forall r :: r in regions <==> ValidProcess(t, counts, p) && 0 <= r < t.value.nRegions && counts[p][r] > 0
    ensures Ascending(regions)
  {
    if t.None? || p < 0 || p >= |counts| {
      return 0, [];
    }
    n := t.value.numRegionsInProcess[p];
    regions := [];
    var i := 0;
    while i < n
      invariant 0 <= i <= n && regions == t.value.parallelRegionList[p][..i]
    {
      regions := regions + [t.value.parallelRegionList[p][i]];
      i := i + 1;
    }
    assert regions == t.value.parallelRegionList[p];
    RegionsWithDataSpec(counts[p], t.value.nRegions);
  }

  /** GetRegionsCellCountForProcess: for each region in process p's list, up to
      len of them, the number of cells of it p holds, read from the region's
      cell count list at p's place in its process list. */
  method GetRegionsCellCountForProcess(t: Option<Tables>, counts: seq<seq<nat>>, p: int, len: int)
    returns (n: int, cs: seq<int>)
    requires Consistent(t, counts)
    ensures !ValidProcess(t, counts, p) ==> n == 0 && cs == []
    ensures ValidProcess(t, counts, p) ==>
      var regions := RegionsWithData(counts[p], t.value.nRegions);
      && n == (if len < |regions| then len else |regions|)
      && |cs| == (if n < 0 then 0 else n)
      && forall i | 0 <= i < |cs| :: cs[i] == counts[p][regions[i]]
  {
    if t.None? || p < 0 || p >= |counts| {
      return 0, [];
    }
    var tb := t.value;
    var regions := tb.parallelRegionList[p];
    assert regions == RegionsWithData(counts[p], tb.nRegions);
    RegionsHaveData(counts[p], tb.nRegions);
    var nRegions := tb.numRegionsInProcess[p];
    n := if len < nRegions then len else nRegions;
    cs := [];
    var i := 0;
    while i < n
      invariant 0 <= i <= (if n < 0 then 0 else n) && |cs| == i
      invariant forall k | 0 <= k < i :: cs[k] == counts[p][regions[k]]
    {
      var regionId := regions[i];
      var c := CellCountAt(tb, counts, p, regionId);
      cs := cs + [c];
      i := i + 1;
    }
  }

  /** The inner search of GetRegionsCellCountForProcess: find p in the process
      list of a region it holds cells of, and read the count at that place. */
  method CellCountAt(tb: Tables, counts: seq<seq<nat>>, p: int, regionId: int) returns (c: int)
    requires BuiltFrom(tb, counts)
    requires 0 <= p < |counts| && 0 <= regionId < tb.nRegions && counts[p][regionId] > 0
    ensures c == counts[p][regionId]
  {
    ProcsWithDataSpec(counts, tb.nRegions, regionId, |counts|);
    var procs := tb.processList[regionId];
    assert p in procs;
    var iam := 0;
    while iam < tb.numProcessesInRegion[regionId]
      invariant 0 <= iam <= |procs|
      invariant forall k | 0 <= k < iam :: procs[k] != p
    {
      if procs[iam] == p {
        break;
      }
      iam := iam + 1;
    }
    c := tb.cellCountList[regionId][iam];
  }

  // ---------------------------------------------------------------------------
  // BinarySearch

  predicate Sorted(list: seq<int>)
  {
    forall i, j | 0 <= i <= j < |list| :: list[i] <= list[j]
  }

  /** BinarySearch: the position of which in list, or -1 when it is absent.  A
      list of at most three entries is scanned from the front; a longer one must
      be sorted and is bisected until at most two candidates remain. */
  method BinarySearch(list: seq<int>, which: int) returns (mid: int)
    requires |list| > 3 ==> Sorted(list)
    ensures -1 <= mid < |list|
    ensures mid == -1 <==> which !in list
    ensures mid != -1 ==> list[mid] == which
    ensures |list| <= 3 && mid != -1 ==> which !in list[..mid]
  {
    var len := |list|;
    mid := -1;
    if len <= 3 {
      var i := 0;
      while i < len
        invariant 0 <= i <= len && which !in list[..i]
      {
        if list[i] == which {
          return i;
        }
        assert list[..i + 1] == list[..i] + [list[i]];
        i := i + 1;
      }
      assert list[..i] == list;
      return -1;
    }
    mid := len / 2;
    var left, right := 0, len - 1;
    while list[mid] != which
      invariant 0 <= left < mid < right < len
      invariant forall k | 0 <= k < left :: list[k] < which
      invariant forall k | right < k < len :: list[k] > which
      decreases right - left
    {
      if list[mid] < which {
        left := mid + 1;
      } else {
        right := mid - 1;
      }
      if right > left + 1 {
        mid := (left + right) / 2;
      } else {
        if list[left] == which {
          mid := left;
        } else if list[right] == which {
          mid := right;
        } else {
          mid := -1;
          forall k | 0 <= k < len
            ensures list[k] != which
          {
          }
        }
        return;
      }
    }
  }
}

=== FILE: text_property.dfy ===
/** The font-family and justification settings of vtkTextProperty: the family is
    stored as its name, and the numeric family is read back by name; the
    justifications, opacities, frame width and font size are stored clamped to
    their ranges. */
module TextProperty {

  // Font families and justifications, with the values vtkSystemIncludes.h gives
  // them; the proofs rely only on their being distinct and on their order.
  const ARIAL := 0
  const COURIER := 1
  const TIMES := 2
  const UNKNOWN_FONT := 3
  const FONT_FILE := 4

  const TEXT_LEFT := 0
  const TEXT_CENTERED := 1
  const TEXT_RIGHT := 2
  const TEXT_BOTTOM := 0
  const TEXT_TOP := 2

  const INT_MAX := 0x7fff_ffff

  predicate KnownFamily(f: int)
  {
    f == ARIAL || f == COURIER || f == TIMES || f == FONT_FILE
  }

  predicate KnownFamilyName(s: string)
  {
    s == "Arial" || s == "Courier" || s == "Times" || s == "File"
  }

  /** GetFontFamilyAsString: the name of a family, "Unknown" for any other int. */
  function GetFontFamilyAsString(f: int): (s: string)
    ensures KnownFamily(f) <==> KnownFamilyName(s)
    ensures !KnownFamily(f) ==> s == "Unknown"
  {
    if f == ARIAL then "Arial"
    else if f == COURIER then "Courier"
    else if f == TIMES then "Times"
    else if f == FONT_FILE then "File"
    else "Unknown"
  }

  /** GetFontFamilyFromString: the family a name stands for, compared against the
      names GetFontFamilyAsString gives; any other string, "Unknown" included,
      stands for VTK_UNKNOWN_FONT. */
  function GetFontFamilyFromString(s: string): (f: int)
    ensures KnownFamilyName(s) <==> KnownFamily(f)
    ensures !KnownFamilyName(s) ==> f == UNKNOWN_FONT
  {
    if s == GetFontFamilyAsString(ARIAL) then ARIAL
    else if s == GetFontFamilyAsString(COURIER) then COURIER
    else if s == GetFontFamilyAsString(TIMES) then TIMES
    else if s == GetFontFamilyAsString(FONT_FILE) then FONT_FILE
    else UNKNOWN_FONT
  }

  /** Names and families are each other's inverse on the four known families. */
  lemma FamilyRoundTrip(f: int, s: string)
    ensures KnownFamily(f) ==> GetFontFamilyFromString(GetFontFamilyAsString(f)) == f
    ensures KnownFamilyName(s) ==> GetFontFamilyAsString(GetFontFamilyFromString(s)) == s
    ensures !KnownFamily(f) ==> GetFontFamilyFromString(GetFontFamilyAsString(f)) == UNKNOWN_FONT
  {
  }

  /** The settings of a text property that this model covers. */
  datatype TextProp = TextProp(
    fontFamilyAsString: string,
    opacity: real,
    backgroundOpacity: real,
    frameWidth: int,
    fontSize: int,
    justification: int,
    verticalJustification: int)

  /** SetFontFamily: store the family's name. */
  function SetFontFamily(tp: TextProp, f: int): (tp': TextProp)
    ensures tp' == tp.(fontFamilyAsString := tp'.fontFamilyAsString)
  {
    tp.(fontFamilyAsString := GetFontFamilyAsString(f))
  }

  /** GetFontFamily: the family, read back from the stored name. */
  function GetFontFamily(tp: TextProp): (f: int)
    ensures f == ARIAL || f == COURIER || f == TIMES || f == FONT_FILE || f == UNKNOWN_FONT
  {
    GetFontFamilyFromString(tp.fontFamilyAsString)
  }

  function SetFontFamilyToArial(tp: TextProp): TextProp
  {
    SetFontFamily(tp, ARIAL)
  }

  function SetFontFamilyToCourier(tp: TextProp): TextProp
  {
    SetFontFamily(tp, COURIER)
  }

  function SetFontFamilyToTimes(tp: TextProp): TextProp
  {
    SetFontFamily(tp, TIMES)
  }

  /** A family set is the family read back when it is one of the four known ones,
      and VTK_UNKNOWN_FONT otherwise; the named setters give their family. */
  lemma SetGetFontFamily(tp: TextProp, f: int)
    ensures GetFontFamily(SetFontFamily(tp, f)) == if KnownFamily(f) then f else UNKNOWN_FONT
    ensures GetFontFamily(SetFontFamilyToArial(tp)) == ARIAL
    ensures GetFontFamily(SetFontFamilyToCourier(tp)) == COURIER
    ensures GetFontFamily(SetFontFamilyToTimes(tp)) == TIMES
  {
  }

  // ---------------------------------------------------------------------------
  // Clamped setters

  /** vtkSetClampMacro's clamp of v to lo..hi. */
  function Clamp(v: int, lo: int, hi: int): (c: int)
    requires lo <= hi
    ensures lo <= c <= hi
    ensures lo <= v <= hi ==> c == v
    ensures v < lo ==> c == lo
    ensures v > hi ==> c == hi
  {
    if v < lo then lo else if v > hi then hi else v
  }

  function ClampReal(v: real, lo: real, hi: real): (c: real)
    requires lo <= hi
    ensures lo <= c <= hi
    ensures lo <= v <= hi ==> c == v
    ensures v < lo ==> c == lo
    ensures v > hi ==> c == hi
  {
    if v < lo then lo else if v > hi then hi else v
  }

  function SetOpacity(tp: TextProp, v: real): TextProp
  {
    tp.(opacity := ClampReal(v, 0.0, 1.0))
  }

  function SetBackgroundOpacity(tp: TextProp, v: real): TextProp
  {
    tp.(backgroundOpacity := ClampReal(v, 0.0, 1.0))
  }

  function SetFrameWidth(tp: TextProp, v: int): TextProp
  {
    tp.(frameWidth := Clamp(v, 0, INT_MAX))
  }

  function SetFontSize(tp: TextProp, v: int): TextProp
  {
    tp.(fontSize := Clamp(v, 0, INT_MAX))
  }

  function SetJustification(tp: TextProp, v: int): TextProp
  {
    tp.(justification := Clamp(v, TEXT_LEFT, TEXT_RIGHT))
  }

  function SetVerticalJustification(tp: TextProp, v: int): TextProp
  {
    tp.(verticalJustification := Clamp(v, TEXT_BOTTOM, TEXT_TOP))
  }

  function SetJustificationToLeft(tp: TextProp): TextProp
  {
    SetJustification(tp, TEXT_LEFT)
  }

  function SetJustificationToCentered(tp: TextProp): TextProp
  {
    SetJustification(tp, TEXT_CENTERED)
  }

  function SetJustificationToRight(tp: TextProp): TextProp
  {
    SetJustification(tp, TEXT_RIGHT)
  }

  /** The ranges the clamped settings are kept in. */
  predicate InRange(tp: TextProp)
  {
    && 0.0 <= tp.opacity <= 1.0
    && 0.0 <= tp.backgroundOpacity <= 1.0
    && 0 <= tp.frameWidth <= INT_MAX
    && 0 <= tp.fontSize <= INT_MAX
    && TEXT_LEFT <= tp.justification <= TEXT_RIGHT
    && TEXT_BOTTOM <= tp.verticalJustification <= TEXT_TOP
  }

  /** Every clamped setter keeps the settings in range, stores an in-range value
      unchanged, changes no other setting, and setting twice is setting once. */
  lemma ClampedSetters(tp: TextProp, x: real, n: int)
    requires InRange(tp)
    ensures InRange(SetOpacity(tp, x)) && InRange(SetBackgroundOpacity(tp, x))
    ensures InRange(SetFrameWidth(tp, n)) && InRange(SetFontSize(tp, n))
    ensures InRange(SetJustification(tp, n)) && InRange(SetVerticalJustification(tp, n))
    ensures 0.0 <= x <= 1.0 ==> SetOpacity(tp, x).opacity == x && SetBackgroundOpacity(tp, x).backgroundOpacity == x
    ensures 0 <= n <= INT_MAX ==> SetFrameWidth(tp, n).frameWidth == n && SetFontSize(tp, n).fontSize == n
    ensures TEXT_LEFT <= n <= TEXT_RIGHT ==> SetJustification(tp, n).justification == n
    ensures TEXT_BOTTOM <= n <= TEXT_TOP ==> SetVerticalJustification(tp, n).verticalJustification == n
    ensures SetOpacity(SetOpacity(tp, x), x) == SetOpacity(tp, x)
    ensures SetBackgroundOpacity(SetBackgroundOpacity(tp, x), x) == SetBackgroundOpacity(tp, x)
    ensures SetFrameWidth(SetFrameWidth(tp, n), n) == SetFrameWidth(tp, n)
    ensures SetFontSize(SetFontSize(tp, n), n) == SetFontSize(tp, n)
    ensures SetJustification(SetJustification(tp, n), n) == SetJustification(tp, n)
    ensures SetVerticalJustification(SetVerticalJustification(tp, n), n) == SetVerticalJustification(tp, n)
    ensures SetOpacity(tp, x).(opacity := tp.opacity) == tp
    ensures SetBackgroundOpacity(tp, x).(backgroundOpacity := tp.backgroundOpacity) == tp
    ensures SetFrameWidth(tp, n).(frameWidth := tp.frameWidth) == tp
    ensures SetFontSize(tp, n).(fontSize := tp.fontSize) == tp
    ensures SetJustification(tp, n).(justification := tp.justification) == tp
    ensures SetVerticalJustification(tp, n).(verticalJustification := tp.verticalJustification) == tp
  {
  }

  // ---------------------------------------------------------------------------
  // Justification names

  /** GetJustificationAsString. */
  function GetJustificationAsString(tp: TextProp): (s: string)
    ensures tp.justification == TEXT_LEFT <==> s == "Left"
    ensures tp.justification == TEXT_CENTERED <==> s == "Centered"
    ensures tp.justification == TEXT_RIGHT <==> s == "Right"
    ensures s == "Left" || s == "Centered" || s == "Right" || s == "Unknown"
  {
    if tp.justification == TEXT_LEFT then "Left"
    else if tp.justification == TEXT_CENTERED then "Centered"
    else if tp.justification == TEXT_RIGHT then "Right"
    else "Unknown"
  }

  /** GetVerticalJustificationAsString. */
  function GetVerticalJustificationAsString(tp: TextProp): (s: string)
    ensures tp.verticalJustification == TEXT_BOTTOM <==> s == "Bottom"
    ensures tp.verticalJustification == TEXT_CENTERED <==> s == "Centered"
    ensures tp.verticalJustification == TEXT_TOP <==> s == "Top"
    ensures s == "Bottom" || s == "Centered" || s == "Top" || s == "Unknown"
  {
    if tp.verticalJustification == TEXT_BOTTOM then "Bottom"
    else if tp.verticalJustification == TEXT_CENTERED then "Centered"
    else if tp.verticalJustification == TEXT_TOP then "Top"
    else "Unknown"
  }

  /** A justification kept in range by its setter always has a name, and the
      shortcut setters give the names of their justifications. */
  lemma JustificationNamed(tp: TextProp, n: int)
    ensures GetJustificationAsString(SetJustification(tp, n)) != "Unknown"
    ensures GetVerticalJustificationAsString(SetVerticalJustification(tp, n)) != "Unknown"
    ensures n < TEXT_LEFT ==> GetJustificationAsString(SetJustification(tp, n)) == "Left"
    ensures n > TEXT_RIGHT ==> GetJustificationAsString(SetJustification(tp, n)) == "Right"
    ensures GetJustificationAsString(SetJustificationToLeft(tp)) == "Left"
    ensures GetJustificationAsString(SetJustificationToCentered(tp)) == "Centered"
    ensures GetJustificationAsString(SetJustificationToRight(tp)) == "Right"
  {
  }
}

=== FILE: wrappers.dfy ===
/** The optional value used wherever the modelled C++ code returns a null pointer
    or leaves an output untouched. */
module Wrappers {

  datatype Option<+T> = None | Some(value: T)

}
